=== FILE: README.md ===
# Portfolio site: a verified model of its page logic and write rules

This project models, in Dafny, the logic at the heart of a personal
portfolio web site. The site has a React front end and a Django REST back end.
It covers seven parts:

- **API URL join** (`frontend/client/lib/config.ts`): how `getApiUrl` joins the
  configured base and a path.
- **Landing page** (`frontend/client/pages/Index.tsx`): several parts of the page.
  - The paginated skills carousel: page size per viewport width, page
    slicing, the buttons, dots, swipe and wheel gestures, and the wheel
    cooldown timer.
  - The contact form submission: trimming, field checks in a fixed order,
    the email regular expression and the POST.
  - The values derived from the hero and about payloads.
- **Public project page** (`frontend/client/pages/ProjectDetail.tsx`):
  - `parseSkills`;
  - the string fallback of `addCacheBuster`;
  - the gallery order and main picture;
  - the fetch decision and the loads;
  - the "other projects" strip.
- **Admin project page** (`frontend/client/pages/AdminProjectDetails.tsx`):
  - loading a project and its links;
  - the effect that keeps the selected picture in range;
  - the edit and delete actions.
- **Public blog page** (`frontend/client/pages/BlogDetail.tsx`):
  - newest-first ordering;
  - choosing the current post and the three others;
  - cover image and card excerpt.
- **Project serializer** (`backend/projects/serializers.py`):
  - `_get_or_create_reference`, with case-insensitive reuse of skill references;
  - the three-image limit;
  - reading skills and files from form, JSON or upload data;
  - `create`, which runs in a transaction, and `update`, which does not.
- **Blog serializer** (`backend/blog/serializers.py`):
  - captions from `images_meta`;
  - link records from `links_data`;
  - `create` and `update`, both transactional.

Everything is pure functions over immutable data. A few points about the
modelling choices:

- **Page state.** A page's state is a datatype. Each user or network event is a
  function from state to state.
- **Network and time.** Network answers are parameters (`Option` for "the
  request failed").
- **JSON parsing.** `JSON.parse` and `json.loads` are a parameter `parse: string ->
  Option<Json>` (`None` means the parser throws). So every property holds
  for any parser.
- **Database.** The skill-reference table is a sequence of names. The id of a
  reference is its position in that sequence.

Modules:

| module | file | role |
|---|---|---|
| `Outcomes` | outcomes.dfy | `Option` and `Result` |
| `Api` | api.dfy | upload handles and write errors |
| `Json` | json.dfy | decoded JSON values and key lookup |
| `Text` | text.dfy | trimming (JavaScript and Python), split/join, ASCII case folding, decimal rendering |
| `Seqs` | seqs.dfy | filter, take, first match, first-seen de-duplication, subsequences |
| `StableSort` | stable_sort.dfy | the stable sort both detail pages use |
| `Config` | config.dfy | `getApiUrl` |
| `Carousel` | carousel.dfy | the skills carousel |
| `Contact` | contact.dfy | the contact form |
| `Landing` | landing.dfy | hero and about values |
| `ProjectView` | project_view.dfy | public project page |
| `AdminProject` | admin_project.dfy | admin project page |
| `BlogView` | blog_view.dfy | public blog page |
| `ProjectWrite` | project_write.dfy | project serializer |
| `BlogWrite` | blog_write.dfy | blog serializer |

## Model

| member | source | states |
|---|---|---|
| Config.GetApiUrl | frontend/client/lib/config.ts:3-6 | no URL exactly when the base is missing or empty; otherwise the base with one trailing slash dropped exactly when it ends in one, a single slash, then the path with one leading slash dropped exactly when it starts with one |
| Config.SlashInsensitive | frontend/client/lib/config.ts:5 | a base with or without a trailing slash and a path with or without a leading slash give the same URL |
| Config.OneSlashOnly | frontend/client/lib/config.ts:5 | only one slash is removed at each end, so doubled slashes survive in the URL |
| Carousel.PerPageFor | frontend/client/pages/Index.tsx:143-166 | the page size for each breakpoint band (6, 9, 8, 10, 12), never zero |
| Carousel.TotalPages | frontend/client/pages/Index.tsx:242 | the page count is zero only for no skills, and otherwise the smallest count whose pages hold every skill |
| Carousel.PageSlice | frontend/client/pages/Index.tsx:243-244 | a page shows at most a page's worth of skills, each the skill at its global position, and a started page is non-empty |
| Carousel.PageOfItem | frontend/client/pages/Index.tsx:242-244 | every skill appears on an existing page, on page `i / perPage` at position `i % perPage` |
| Carousel.GoPrev | frontend/client/pages/Index.tsx:248-251 | steps back one page and stops at the first page, pointing the animation backwards |
| Carousel.GoNext | frontend/client/pages/Index.tsx:252-255 | steps forward one page and stops at the last page without wrapping, pointing the animation forwards |
| Carousel.Clamp | frontend/client/pages/Index.tsx:131-139 | after the clamp effect the page is a real page (or 0 with no pages); a valid page is left alone, and one past the end moves to the last page |
| Carousel.EndTouch | frontend/client/pages/Index.tsx:272-285 | only a drag of more than 50 px turns the page: leftwards forwards, rightwards backwards; the gesture is reset either way and nothing else changes |
| Carousel.ButtonClick | frontend/client/pages/Index.tsx:758-839 | Prev, Next and the dots exist only with more than one page and the buttons are disabled at their ends, so such clicks change nothing; otherwise Prev and Next step one page, and a dot turns to its page pointing forwards exactly when that page is later |
| Carousel.NextThenPrevReturns | frontend/client/pages/Index.tsx:758-839 | an enabled Next followed by Prev returns to the page, and the current page's dot keeps it |
| Carousel.Handle | frontend/client/pages/Index.tsx:263-311 | a touch start begins a gesture at its position with no movement; a move counts only inside a gesture, measured from its start (a missing position reads as 0); the timeout releases the cooldown; a load or resize changes only the count or the page size; buttons, touch end and wheel go to their handlers |
| Carousel.OnWheel | frontend/client/pages/Index.tsx:290-313 | vertical-dominant events and events during the cooldown change nothing; otherwise horizontal deltas accumulate, and passing 60 commits exactly one step, resets the sum and starts the cooldown with its timer |
| Carousel.Step | frontend/client/pages/Index.tsx:131-139 | every event, followed by the clamp effect, leaves the carousel on a real page |
| Carousel.WheelIgnored | frontend/client/pages/Index.tsx:292-294 | a vertical wheel event, or one during the cooldown, leaves the whole carousel unchanged |
| Carousel.SwipeScenario | frontend/client/pages/Index.tsx:263-285 | a 60 px left swipe on the first of two pages goes to page 2; a 10 px swipe does not move |
| Carousel.WheelScenario | frontend/client/pages/Index.tsx:290-313 | fractional wheel deltas 30.4 then 30.4 pass 60 together, turn one page and start the cooldown, which swallows the next delta |
| Carousel.StuckForever | frontend/client/pages/Index.tsx:308-320 | as written, a cooldown whose timer was cancelled stays on through any sequence of events |
| Carousel.WheelDeadAfterFirstTurn | frontend/client/pages/Index.tsx:308-320 | as written, the first wheel page turn leaves the cooldown on with no timer, after which every wheel event is ignored |
| Carousel.CooldownAlwaysReleasable | frontend/client/pages/Index.tsx:308-320 | if the effect cleanup keeps the pending timer, every cooldown has a timer behind it and ends when that timer fires |
| Contact.MatchesEmailPattern | frontend/client/pages/Index.tsx:211 | the one-pass scan accepts exactly the strings matched by the unanchored `/.+@.+\..+/`: one '@' and a later '.' with a character before, between and after, all on one line |
| Contact.SubmitContact | frontend/client/pages/Index.tsx:197-240 | the checks run in order: all four trimmed fields non-empty, then a valid email, then a configured URL; the POST carries the trimmed fields and is sent only if all checks pass; success clears the form, failure keeps it with the error |
| Landing.PickHero | frontend/client/pages/Index.tsx:92-96 | the first active hero entry, else the first entry, and nothing for an empty or non-array payload |
| Landing.AboutTitle | frontend/client/pages/Index.tsx:186-188 | the trimmed title when it is not blank, else "About Me"; never empty and never padded |
| Landing.HireEmail | frontend/client/pages/Index.tsx:193-195 | the trimmed hiring email when it is not blank, else the owner's address |
| Landing.SplitHeadingRejoins | frontend/client/pages/Index.tsx:189-191 | the highlighted word is everything after the last space and, joined back with a space, the two parts give the heading |
| Landing.AboutHeadingLastWord | frontend/client/pages/Index.tsx:186-191 | the highlighted last word of the displayed heading is never empty |
| Landing.HeroImage | frontend/client/pages/Index.tsx:611 | the hero image, untrimmed, when it is not blank; else the bundled illustration |
| ProjectView.SkillItems | frontend/client/pages/ProjectDetail.tsx:37-50 | an array is used as is; a string is trimmed and parsed, a parsed non-array gives nothing, and a parse failure falls back to comma-separated pieces; any other value gives nothing |
| ProjectView.ItemName | frontend/client/pages/ProjectDetail.tsx:53-65 | a string item contributes its trimmed text if that is non-blank; an object its own string `name`, else its reference's name; other values nothing |
| ProjectView.ParseSkills | frontend/client/pages/ProjectDetail.tsx:37-69 | the result has no duplicates, holds only non-blank trimmed names, holds exactly the names the items contribute, and keeps them in order of first appearance |
| ProjectView.StringifiedSkills | frontend/client/pages/ProjectDetail.tsx:42-46 | a skill list sent as a JSON string reads exactly like the list itself |
| ProjectView.CsvSameAsList | frontend/client/pages/ProjectDetail.tsx:47-49 | an unparsable string reads like the list of its comma-separated pieces |
| ProjectView.StringListNames | frontend/client/pages/ProjectDetail.tsx:54-56 | a list of strings contributes its trimmed non-blank entries, in order |
| ProjectView.ObjectName | frontend/client/pages/ProjectDetail.tsx:58-63 | an object's raw name is its own string `name`, even a blank one; without one, the string `name` of its `skill_reference`; otherwise empty |
| ProjectView.ObjectItemName | frontend/client/pages/ProjectDetail.tsx:56-64 | for every object item: its own string `name` decides, a blank one hiding the reference; without one its reference's string `name` decides; a non-empty name is contributed trimmed and an empty one, or none, contributes nothing |
| ProjectView.AddCacheBusterFallback | frontend/client/pages/ProjectDetail.tsx:31-34 | the URL gains `?v=<build>`, or `&v=<build>` when it already has a query, and is otherwise unchanged; the blog page's `addCacheBuster` (frontend/client/pages/BlogDetail.tsx:18-27) is the same function |
| ProjectView.CacheBusterKeepsPath | frontend/client/pages/ProjectDetail.tsx:31-34 | cache busting never changes the part of the URL before its query |
| ProjectView.BustTwice | frontend/client/pages/ProjectDetail.tsx:31-34 | busting an already busted URL appends a second parameter with `&` |
| ProjectView.SortMedia | frontend/client/pages/ProjectDetail.tsx:86-89 | the gallery is a permutation of the media, ascending by `order`, where a missing order counts as 0 |
| ProjectView.MediaOrderCharacterised | frontend/client/pages/ProjectDetail.tsx:86-89 | media with equal order keep their relative position, and this is the only sorted arrangement that does so |
| ProjectView.MainImage | frontend/client/pages/ProjectDetail.tsx:115 | the selected picture when it exists and is non-empty; the placeholder when the selected picture has no image, or past the end; never empty |
| ProjectView.Thumbnails | frontend/client/pages/ProjectDetail.tsx:187 | the gallery itself, or a single placeholder tile when it is empty |
| ProjectView.ThumbnailShowsItsImage | frontend/client/pages/ProjectDetail.tsx:187-190 | clicking a thumbnail makes the main image that tile's picture, or the placeholder when the tile has none |
| ProjectView.NeedsFetch | frontend/client/pages/ProjectDetail.tsx:91-96 | no fetch without a route id; with one, a fetch exactly when the project in hand is not the route's |
| ProjectView.PassedRecordSkipsFetch | frontend/client/pages/ProjectDetail.tsx:94 | a project passed along with the navigation suppresses the fetch exactly when the route is its id |
| ProjectView.AfterLoad | frontend/client/pages/ProjectDetail.tsx:99-110 | a failed load only sets the error message; a successful one shows the project, and its links are the links reply when that is an array and empty otherwise |
| ProjectView.ListPayload | frontend/client/pages/ProjectDetail.tsx:130-131 | a plain array is the list; an object gives its `results` when that is an array and nothing otherwise; scalars and failures give an empty list |
| ProjectView.PaginatedSameAsPlain | frontend/client/pages/ProjectDetail.tsx:130 | an object reply whose `results` is an array reads like that plain array, whatever other fields surround it |
| ProjectView.Suggestions | frontend/client/pages/ProjectDetail.tsx:120-123 | the first four projects, in list order, whose rendered id is not the route's (all of them when there are fewer) |
| ProjectView.SuggestionsOmitCurrent | frontend/client/pages/ProjectDetail.tsx:120-123 | comparing rendered ids is comparing ids: the strip never shows the current project and is the first four of the other projects, however many there are |
| AdminProject.Load | frontend/client/pages/AdminProjectDetails.tsx:30-58 | without an id nothing happens; a failed request keeps the state and shows the error toast; a successful one shows the record from its first picture and replaces the links only on an OK links reply |
| AdminProject.LinksSurviveFailedRequest | frontend/client/pages/AdminProjectDetails.tsx:42-50 | a failed links request keeps the links on the admin page, while the public page clears them |
| AdminProject.Gallery | frontend/client/pages/AdminProjectDetails.tsx:94 | the shown gallery is the public page's stable sort of the media by `order` (so a permutation of them), and empty when `media` is not an array |
| AdminProject.MainImage | frontend/client/pages/AdminProjectDetails.tsx:95 | the selected gallery picture when it has a non-empty image; the placeholder when it has none or the selection is past the gallery; never empty |
| AdminProject.KeepInRange | frontend/client/pages/AdminProjectDetails.tsx:60-66 | after the effect the selection is a real picture (0 for an empty gallery); an in-range selection is untouched and one past the end returns to 0 |
| AdminProject.KeepInRangeIdempotent | frontend/client/pages/AdminProjectDetails.tsx:60-66 | running the range effect again changes nothing |
| AdminProject.SettledShowsOwnPicture | frontend/client/pages/AdminProjectDetails.tsx:60-66 | once the effect has run, the main picture is the placeholder or one of the project's own pictures |
| AdminProject.Step | frontend/client/pages/AdminProjectDetails.tsx:60-66 | after any event and the effect the selection is in range, and a click on an existing thumbnail selects it |
| AdminProject.OnEdit | frontend/client/pages/AdminProjectDetails.tsx:68-71 | with a project, navigates to the editor carrying it and its id; without one, nothing |
| AdminProject.OnDelete | frontend/client/pages/AdminProjectDetails.tsx:73-83 | deletes the shown project's id; navigates to the list with "Project deleted." exactly on success, else shows "Failed to delete."; without a project, nothing |
| BlogView.NewestFirst | frontend/client/pages/BlogDetail.tsx:49-51 | a permutation of the posts, newest first |
| BlogView.FindSlug | frontend/client/pages/BlogDetail.tsx:52 | the first post with the slug, and none exactly when no post has it |
| BlogView.Load | frontend/client/pages/BlogDetail.tsx:42-61 | without a slug nothing happens; a failed request clears the post and the strip |
| BlogView.CurrentIsNewest | frontend/client/pages/BlogDetail.tsx:49-53 | the post shown is the newest post carrying the route's slug |
| BlogView.OthersAreNewest | frontend/client/pages/BlogDetail.tsx:49-54 | the strip is newest first, holds other posts only, and no post left out of it is newer than one it shows |
| BlogView.CardLeadsToItsPost | frontend/client/pages/BlogDetail.tsx:52 | following a card to `/blog/<slug>` loads a post with that slug |
| BlogView.CoverImage | frontend/client/pages/BlogDetail.tsx:63 | the first image's picture when it is non-empty; the placeholder without images or when the first image has no picture; never empty |
| BlogView.Excerpt | frontend/client/pages/BlogDetail.tsx:137 | text of up to 140 characters is shown as is; longer text is cut to 140, trimmed, and followed by an ellipsis |
| BlogView.ExcerptKeepsText | frontend/client/pages/BlogDetail.tsx:137 | a long text's card shows only the ellipsis exactly when its first 140 characters are blank |
| BlogView.ExcerptOfUnpaddedText | frontend/client/pages/BlogDetail.tsx:137 | when the cut has no space at either end, the card shows the first 140 characters and an ellipsis |
| Text.TrimIdempotent | frontend/client/pages/Index.tsx:202-205 | trimming twice is trimming once |
| Text.TrimEmptyIff | frontend/client/pages/Index.tsx:207 | a field is blank after trimming exactly when it consists only of spaces |
| Text.JoinSplit | frontend/client/pages/Index.tsx:189-191 | joining the pieces of a split with the separator gives back the string |
| Text.IntToStringInjective | frontend/client/pages/ProjectDetail.tsx:121 | two ids render to the same string only if they are equal |
| Seqs.FirstMatching | frontend/client/pages/ProjectDetail.tsx:121-122 | the first `limit` matching elements in source order, or all matches when there are fewer |
| Seqs.DedupSpec | frontend/client/pages/ProjectDetail.tsx:68 | `Array.from(new Set(xs))` holds each value of `xs` once, ordered by first appearance |
| StableSort.SortStable | frontend/client/pages/ProjectDetail.tsx:88 | the sort keeps elements with equal keys in input order |
| StableSort.SortCharacterised | frontend/client/pages/ProjectDetail.tsx:88 | the stable sort is the only sorted arrangement that keeps equal keys in input order |
| StableSort.SortIdempotent | frontend/client/pages/ProjectDetail.tsx:88 | sorting a sorted list changes nothing |
| ProjectWrite.ValidateMediaFiles | backend/projects/serializers.py:60-69 | more than three files are refused with the limit message; otherwise the list passes unchanged |
| ProjectWrite.GetListInOrder | backend/projects/serializers.py:84 | `getlist(key)` is the values sent under `key`, in the order they were sent |
| ProjectWrite.RequestFiles | backend/projects/serializers.py:83-84 | the `media_files` uploads, or the `media_files[]` ones when there are none |
| ProjectWrite.MediaRows | backend/projects/serializers.py:133-134 | one media row per file, in upload order, each with its upload position as `order` |
| ProjectWrite.CommaSkills | backend/projects/serializers.py:114 | exactly the comma-separated pieces, stripped, without the blank ones, in split order |
| ProjectWrite.RequestSkills | backend/projects/serializers.py:95-116 | form data gives its repeated `skills` or `skills[]` values; a JSON string gives its parsed list, or on a parse error its comma pieces; anything else, or an empty result, gives no skills |
| ProjectWrite.JsonListUsedAsGiven | backend/projects/serializers.py:105-111 | a skills string holding a JSON list of names yields exactly those names |
| ProjectWrite.CommaListUsedAsGiven | backend/projects/serializers.py:105-114 | an unparsable skills string of unpadded names joined by commas yields exactly those names, as their JSON list would |
| ProjectWrite.GetOrCreateReference | backend/projects/serializers.py:51-58 | the stripped name is matched case-insensitively; an existing match is reused and the catalogue is unchanged, otherwise the stripped name is appended as a new reference |
| ProjectWrite.LookupFindsOnlyMatch | backend/projects/serializers.py:54-57 | on a catalogue without case variants the reference found is the only case-insensitive match, whatever order `.first()` reads the matches in; a new one is created exactly when none matches |
| ProjectWrite.LookupStable | backend/projects/serializers.py:51-58 | once a name has a reference, adding names that do not match it does not change which one it finds |
| ProjectWrite.AttachKeysAddsNoMatch | backend/projects/serializers.py:54-57 | a name the skills loop adds matches no name the catalogue held before the loop, since a name is created only when nothing matches it |
| ProjectWrite.SameNameSameReference | backend/projects/serializers.py:51-58 | names equal up to case and surrounding spaces use one reference |
| ProjectWrite.LookupKeepsUnique | backend/projects/serializers.py:51-58 | a lookup never creates a case-insensitive duplicate reference |
| ProjectWrite.AttachFailsOnNonString | backend/projects/serializers.py:128-130 | the skills loop fails exactly when some name is not a string (`strip` raises) |
| ProjectWrite.AttachLinksResolved | backend/projects/serializers.py:128-130 | with string names the loop links exactly the references the names resolve to in the final catalogue |
| ProjectWrite.AttachKeepsUnique | backend/projects/serializers.py:128-130 | attaching a skill list never creates a case-insensitive duplicate reference |
| ProjectWrite.Create | backend/projects/serializers.py:71-136 | more than three files are refused before any write; a success stores the fields, links the references the skills loop resolves, leaves the catalogue that loop produced, and stores one media row per file in order; a failure happens exactly on too many files or a non-string skill |
| ProjectWrite.CreateLinksResolved | backend/projects/serializers.py:119-130 | with at most three files and string skill names, `create` succeeds and links exactly the references the names resolve to |
| ProjectWrite.CreateSkills | backend/projects/serializers.py:72-116 | non-empty validated skills are used; otherwise the skills read from the request, or none when it carries none or there is no request |
| ProjectWrite.SubmittedFiles | backend/projects/serializers.py:73-91 | the validated files when present; otherwise the request's uploaded files, or none without a request |
| ProjectWrite.CreatedMediaOrdered | backend/projects/serializers.py:119-134 | a created project has at most three pictures, ordered 0, 1, ... |
| ProjectWrite.UpdateSkills | backend/projects/serializers.py:139-165 | validated skills, even an empty list, take precedence; otherwise the request's |
| ProjectWrite.Update | backend/projects/serializers.py:138-198 | the fields are always saved; without a skill list the links stay; without files the media stay; the error is exactly the failed skills loop, else too many files, else none, so one to three files replace the media; over three files the media stay |
| ProjectWrite.UpdateReplacesSkills | backend/projects/serializers.py:167-172 | a skill list of strings, even an empty one, replaces the links with exactly the references its names resolve to |
| ProjectWrite.EmptyListClearsSkills | backend/projects/serializers.py:167-172 | an empty validated skill list clears the links |
| ProjectWrite.UpdateRefusalKeepsEarlierWrites | backend/projects/serializers.py:142-192 | as written, four files uploaded under `media_files[]` are refused only after the new fields were saved |
| ProjectWrite.UpdateChecked | backend/projects/serializers.py:138-198 | corrected: a refused update changes nothing, and an accepted one does exactly what `update` does |
| BlogWrite.ImageCaptions | backend/blog/serializers.py:49-71 | without uploads nothing is read; malformed metadata is refused with its message; the count message is returned exactly when the decoded metadata is longer than the uploads; a success gives one caption per upload |
| BlogWrite.MetaListCaptions | backend/blog/serializers.py:57-71 | a metadata list longer than the uploads is refused; a shorter list is padded with blank captions and succeeds exactly when its entries are dicts |
| BlogWrite.MetaRoundTrip | backend/blog/serializers.py:49-71 | captions sent as `{"caption": c}` entries come back in order, padded with blanks |
| BlogWrite.MissingMetaMeansBlank | backend/blog/serializers.py:57-88 | images sent without metadata all get blank captions |
| BlogWrite.LinkOf | backend/blog/serializers.py:80-83 | a record is stored exactly when it is a dict with `url` and `text` and no other fields than a link's; a dict missing either is refused with the link message |
| BlogWrite.LinksFrom | backend/blog/serializers.py:80-83 | all records are stored, in order, exactly when each one is acceptable |
| BlogWrite.LinksFromFirstError | backend/blog/serializers.py:80-83 | the error is that of the first failing record |
| BlogWrite.LinkRowsOf | backend/blog/serializers.py:74-83 | an empty string means no links; an unparsable one is refused with its message; a decoded list is processed record by record |
| BlogWrite.LinksOnlyFromList | backend/blog/serializers.py:74-83 | links are only ever stored from a decoded list |
| BlogWrite.MissingFieldRefused | backend/blog/serializers.py:81-82 | a record lacking `url` or `text` is refused with the link message unless an earlier one failed |
| BlogWrite.LinksRoundTrip | backend/blog/serializers.py:74-83 | links sent as `{"url", "text"}` records are stored unchanged |
| BlogWrite.Create | backend/blog/serializers.py:42-94 | a post is created exactly when its images and links are accepted, with the given title and content, one image row per upload in order carrying the decoded caption, and the decoded links |
| BlogWrite.Update | backend/blog/serializers.py:42-109 | a failed update leaves the post untouched; a successful one keeps an absent title or content and replaces the images and links with exactly the newly decoded ones |
| BlogWrite.UpdateIsCreateOverKeptFields | backend/blog/serializers.py:42-109 | an update succeeds exactly when creating a post with the kept fields would, and stores the same post |
| BlogWrite.UpdateForgetsOldRelations | backend/blog/serializers.py:44-46 | the old images and links have no influence on the result |
| BlogWrite.UpdateWithoutNestedClears | backend/blog/serializers.py:42-109 | an update that sends no images or links removes the post's images and links |
| BlogWrite.MalformedMetaRefused | backend/blog/serializers.py:49-55 | malformed metadata is refused when images are uploaded and ignored otherwise |
| BlogWrite.MalformedLinksRefused | backend/blog/serializers.py:74-78 | malformed link data is refused with its message once the images passed |

## Left out

- Network requests, loading flags and React scheduling are not modelled. Responses are parameters; each effect is applied right after the render that triggers it.
- Timer IDs and the 500 ms delay are not modelled. The cooldown timer is a flag; its firing is an event.
- Animation variants, layout sizes (`skillsGridMinH`) and all markup are left out.
- `ProjectView.AddCacheBusterFallback`: only the `catch` branch is modelled. The `URL` constructor branch depends on the browser's URL parser.
- `ProjectView.AddCacheBusterFallback`: the build id is a parameter, because it comes from the build environment or the clock.
- `stripHtml` and `formatDate` are left out. They are helpers outside the core. `BlogView.Excerpt` works on already-stripped text.
- Dates are instants as integers. Invalid dates (NaN in the comparator) are not modelled.
- `JSON.parse` and `json.loads` are parameters, not implementations.
- `BlogWrite.MissingMetaMeansBlank` and `BlogWrite.UpdateWithoutNestedClears` assume the parser reads `"[]"` as the empty list.
- Touch positions and wheel deltas are exact reals. The rounding of double-precision sums in the wheel accumulator is not modelled.
- Strings are sequences of code points. JavaScript lengths in UTF-16 units (the 140-character excerpt) differ for characters outside the BMP.
- `ProjectWrite.GetOrCreateReference`: `name__iexact` is modelled as ASCII case folding. The database's collation may fold more.
- `ProjectWrite.GetOrCreateReference`: among several case-insensitive matches, `.first()` returns the one least by name, since `SkillReference` is ordered by `name` (backend/skills/models.py:15-16, under the database's collation). The model takes the first match in catalogue order instead. The two agree whenever the catalogue has no two names equal up to case: there is then at most one match (`ProjectWrite.LookupFindsOnlyMatch`). The serializer never creates such a pair (`ProjectWrite.AttachKeepsUnique`), but references added by other means could. On a catalogue that holds such a pair, `ProjectWrite.Lookup`, `ProjectWrite.GetOrCreateReference` and `ProjectWrite.ResolvedIds` may name a different reference than the source does.
- DRF field validation before `create`/`update` is not modelled. The validated fields are an input, and `created_by`/`request.user` is not modelled.
- `ProjectWrite.ValidateMediaFiles`: the non-sequence branch (serializers.py:62-66, 121-123, 191-192) is not modelled, since the file list is always a sequence.
- `ProjectWrite.RequestFiles`: the branch for file containers without `getlist` (serializers.py:85-89, 179-182) is not modelled.
- The skill-link table is a set of reference ids, so `get_or_create` on a link is set insertion.
- `BlogWrite.Create`: the database's coercion of captions and link fields to text columns is not modelled. Neither are explicit link `id`s clashing with existing rows.
- The ProjectDetail route-state link initialisation (ProjectDetail.tsx:82-84) is not modelled. Neither are the image `onError` fallbacks.
- AdminBlogDetails.tsx, the views, the user endpoints and the toast component are outside this model.

## Findings

| source | as written | input that shows it | evidently intended | confidence | as-written member | corrected member |
|---|---|---|---|---|---|---|
| frontend/client/pages/Index.tsx:308-320 | the wheel effect depends on the page, and its cleanup clears the cooldown timer; so a wheel step that turns the page cancels the timer it just scheduled, and the cooldown flag is never reset | 30 skills, 10 per page, on page 1: a wheel event with dx = 70 turns to page 2, after which every wheel event is ignored | the cooldown ends 500 ms after each committed step | not executed | Carousel.WheelDeadAfterFirstTurn | Carousel.CooldownAlwaysReleasable |
| backend/projects/serializers.py:142-192 | `update` saves the fields and replaces the skill links before checking the three-image limit, and runs without a transaction, so a refused request still changes the project | an update with new field values and four files under `media_files[]` in the upload part (that key is not the declared `media_files` list field, so validation sees no files): a validation error is returned, yet the fields are saved | a refused update changes nothing, as `create` does with its transaction | not executed | ProjectWrite.UpdateRefusalKeepsEarlierWrites | ProjectWrite.UpdateChecked |

=== FILE: admin_project.dfy ===
/** The administrator's project page
    (frontend/client/pages/AdminProjectDetails.tsx): loading a project and
    its links, keeping the selected picture in range, and the edit and delete
    actions.  The gallery order and the main picture follow the same rules
    as the public page, so they are taken from `ProjectView`. */
module AdminProject {
  import opened Outcomes
  import opened Json
  import opened Text
  import ProjectView

  const LoadFailed: string := "Failed to load project."
  const Deleted: string := "Project deleted."
  const DeleteFailed: string := "Failed to delete."
  const ListRoute: string := "/admin/projects"
  const EditRoute: string := "/admin/projects/new"

  /** `media` is `None` when the payload's `media` is not an array. */
  datatype Project = Project(id: int, title: string, media: Option<seq<ProjectView.Media>>)

  datatype State = State(project: Option<Project>, activeIndex: nat, links: seq<Json>)

  /** Answer to the links request: it threw, came back with an error status,
      or came back OK with a decoded body. */
  datatype LinksReply = LinksThrew | LinksNotOk | LinksOk(body: Json)

  function Initial(): (r: State)
    ensures r.project.None? && r.activeIndex == 0 && r.links == []
  {
    State(None, 0, [])
  }

  /** Number of pictures: 0 when `media` is not an array. */
  function MediaCount(p: Project): (r: nat)
    ensures p.media.None? ==> r == 0
    ensures p.media.Some? ==> r == |p.media.value|
  {
    if p.media.Some? then |p.media.value| else 0
  }

  /** The gallery shown: the public page's stable sort by `order`, or empty
      when `media` is not an array. */
  function Gallery(p: Project): (r: seq<ProjectView.Media>)
    ensures |r| == MediaCount(p)
    ensures p.media.Some? ==> multiset(r) == multiset(p.media.value)
    ensures p.media.Some? ==> r == ProjectView.SortMedia(p.media.value)
    ensures p.media.None? ==> r == []
  {
    if p.media.Some? then
      var g := ProjectView.SortMedia(p.media.value);
      assert |g| == |multiset(g)| == |multiset(p.media.value)| == |p.media.value|;
      g
    else []
  }

  /** The main picture (line 95): the selected picture, or the placeholder. */
  function MainImage(s: State): (r: string)
    requires s.project.Some?
    ensures r != ""
    ensures s.activeIndex >= MediaCount(s.project.value) ==> r == ProjectView.PlaceholderImage
    ensures var g := Gallery(s.project.value);
      s.activeIndex < |g| && g[s.activeIndex].image.GetOr("") != "" ==> r == g[s.activeIndex].image.value
    ensures var g := Gallery(s.project.value);
      s.activeIndex < |g| && g[s.activeIndex].image.GetOr("") == "" ==> r == ProjectView.PlaceholderImage
  {
    ProjectView.MainImage(Gallery(s.project.value), s.activeIndex)
  }

  /** One load on entering the page with route id `routeId`.  Without an id
      nothing happens.  A failed project request keeps everything and raises
      the error toast; a successful one shows the record from its first
      picture, and the links are replaced only by an OK links reply (by the
      body when it is an array, by nothing otherwise). */
  function Load(s: State, routeId: Option<string>, main: Option<Project>, links: LinksReply): (r: (State, Option<string>))
    ensures routeId.None? || routeId.value == "" ==> r == (s, None)
    ensures routeId.Some? && routeId.value != "" && main.None? ==> r == (s, Some(LoadFailed))
    ensures routeId.Some? && routeId.value != "" && main.Some? ==>
      && r.1.None?
      && r.0.project == main && r.0.activeIndex == 0
      && (links.LinksOk? ==> r.0.links == LinksBody(links.body))
      && (!links.LinksOk? ==> r.0.links == s.links)
  {
    if routeId.None? || routeId.value == "" then (s, None)
    else if main.None? then (s, Some(LoadFailed))
    else
      var l := if links.LinksOk? then LinksBody(links.body) else s.links;
      (State(main, 0, l), None)
  }

  /** The links body when it is an array, else no links. */
  function LinksBody(body: Json): (r: seq<Json>)
    ensures body.JArray? ==> r == body.items
    ensures !body.JArray? ==> r == []
  {
    if body.JArray? then body.items else []
  }

  /** A thumbnail click selects that picture. */
  function Select(s: State, i: nat): (r: State)
    ensures r.activeIndex == i && r.project == s.project && r.links == s.links
  {
    s.(activeIndex := i)
  }

  /** The range effect (lines 61-66): with a project shown, an empty gallery
      or an index past its end sends the selection back to the first
      picture. */
  function KeepInRange(s: State): (r: State)
    ensures r.project == s.project && r.links == s.links
    ensures InRange(r)
    ensures InRange(s) ==> r == s
    ensures s.project.Some? && s.activeIndex >= MediaCount(s.project.value) ==> r.activeIndex == 0
  {
    if s.project.None? then s
    else
      var len := MediaCount(s.project.value);
      if len == 0 then s.(activeIndex := 0)
      else if s.activeIndex >= len then s.(activeIndex := 0)
      else s
  }

  /** The selection points at a picture, or is 0 for an empty gallery. */
  predicate InRange(s: State) {
    s.project.None? ||
    (var len := MediaCount(s.project.value);
     if len == 0 then s.activeIndex == 0 else s.activeIndex < len)
  }

  /** Once the effect has run, the main picture is the placeholder or the
      picture of one of the project's own media items, and with a non-empty
      gallery it is the selected one. */
  lemma SettledShowsOwnPicture(s: State)
    requires s.project.Some?
    ensures var t := KeepInRange(s); var g := Gallery(t.project.value);
      && (|g| > 0 ==> t.activeIndex < |g|)
      && (MainImage(t) == ProjectView.PlaceholderImage ||
          (t.project.value.media.Some? && exists m | m in t.project.value.media.value :: m.image == Some(MainImage(t))))
  {
    var t := KeepInRange(s);
    var g := Gallery(t.project.value);
    if MainImage(t) != ProjectView.PlaceholderImage {
      var m := g[t.activeIndex];
      assert m in multiset(g);
    }
  }

  /** Running the effect twice is running it once. */
  lemma KeepInRangeIdempotent(s: State)
    ensures KeepInRange(KeepInRange(s)) == KeepInRange(s)
  {
  }

  /** Navigation the edit action requests: the editor route, carrying the
      project and its id.  Without a project nothing happens. */
  datatype EditNavigation = EditNavigation(route: string, initial: Project, projectId: int)

  function OnEdit(s: State): (r: Option<EditNavigation>)
    ensures r.None? <==> s.project.None?
    ensures r.Some? ==> r.value.route == EditRoute && r.value.initial == s.project.value && r.value.projectId == s.project.value.id
  {
    if s.project.None? then None
    else Some(EditNavigation(EditRoute, s.project.value, s.project.value.id))
  }

  /** What the delete action does: whether a request is sent (and for which
      id), the toast, and the navigation.  `ok` is whether the DELETE came
      back with an OK status (false also when it threw). */
  datatype DeleteOutcome = DeleteOutcome(requested: Option<int>, toast: Option<string>, navigateTo: Option<string>)

  function OnDelete(s: State, ok: bool): (r: DeleteOutcome)
    ensures s.project.None? ==> r == DeleteOutcome(None, None, None)
    ensures s.project.Some? ==> r.requested == Some(s.project.value.id)
    ensures r.navigateTo.Some? <==> s.project.Some? && ok
    ensures r.navigateTo.Some? ==> r.navigateTo.value == ListRoute && r.toast == Some(Deleted)
    ensures s.project.Some? && !ok ==> r.toast == Some(DeleteFailed)
  {
    if s.project.None? then DeleteOutcome(None, None, None)
    else if ok then DeleteOutcome(Some(s.project.value.id), Some(Deleted), Some(ListRoute))
    else DeleteOutcome(Some(s.project.value.id), Some(DeleteFailed), None)
  }

  /** Page events after the route is known. */
  datatype Event =
    | Loaded(main: Option<Project>, reply: LinksReply)
    | ThumbnailClicked(index: nat)

  /** One event followed by the range effect.  Thumbnails are rendered only
      for existing pictures, so a click names one of them. */
  function Step(s: State, routeId: Option<string>, e: Event): (r: State)
    ensures InRange(r)
    ensures e.ThumbnailClicked? && s.project.Some? && e.index < MediaCount(s.project.value) ==> r.activeIndex == e.index
  {
    match e
    case Loaded(main, reply) => KeepInRange(Load(s, routeId, main, reply).0)
    case ThumbnailClicked(i) => KeepInRange(Select(s, i))
  }

  /** Unlike the public page, the admin page keeps the links it has when
      the links request fails. */
  lemma LinksSurviveFailedRequest(s: State, id: string, p: Project)
    requires id != ""
    ensures Load(s, Some(id), Some(p), LinksThrew).0.links == s.links
    ensures Load(s, Some(id), Some(p), LinksNotOk).0.links == s.links
    ensures ProjectView.AfterLoad(ProjectView.PageState(None, None, s.links), Some(ProjectView.ProjectRecord(p.id, [], None)), None).links == []
  {
  }
}

=== FILE: api.dfy ===
/** What the API's write rules share: the ways a write can fail and the
    uploaded files it receives. */
module Api {

  datatype WriteError =
    /** A `ValidationError` (an HTTP 400 with the message). */
    | Validation(message: string)
    /** An exception the code does not catch (an HTTP 500). */
    | Internal

  /** An uploaded file, identified by its name. */
  datatype Upload = Upload(name: string)
}

=== FILE: blog_view.dfy ===
/** The public blog post page (frontend/client/pages/BlogDetail.tsx): the
    post list ordered newest first, the post matching the route slug, the
    "other posts" strip, the cover picture and the card excerpt. */
module BlogView {
  import opened Outcomes
  import opened Text
  import opened Seqs
  import opened StableSort
  import ProjectView

  const OthersLimit: nat := 3
  const ExcerptLength: nat := 140
  const Ellipsis: char := '\U{2026}'

  datatype BlogImage = BlogImage(id: int, image: Option<string>)

  /** A post as the page reads it.  `createdAt` is the instant of
      `created_at` in milliseconds; `images` is `None` when the payload has
      no image array; `text` is the content with the markup stripped. */
  datatype Post = Post(id: int, slug: string, createdAt: int, images: Option<seq<BlogImage>>, text: string)

  datatype State = State(blog: Option<Post>, others: seq<Post>)

  /** The sort key for newest first: an ascending sort on the negated
      creation instant. */
  function Age(p: Post): int { -p.createdAt }

  function NewestFirst(posts: seq<Post>): (r: seq<Post>)
    ensures multiset(r) == multiset(posts)
    ensures forall i, j | 0 <= i < j < |r| :: r[i].createdAt >= r[j].createdAt
  {
    SortBy(posts, Age)
  }

  /** The first post, in newest-first order, carrying the slug. */
  function FindSlug(posts: seq<Post>, slug: string): (r: Option<Post>)
    ensures r.None? <==> forall i | 0 <= i < |posts| :: posts[i].slug != slug
    ensures r.Some? ==> r.value.slug == slug
    ensures r.Some? ==> exists k | 0 <= k < |posts| :: posts[k] == r.value && forall m | 0 <= m < k :: posts[m].slug != slug
  {
    var k := FindIndex(posts, (p: Post) => p.slug == slug);
    if k.Some? then Some(posts[k.value]) else None
  }

  predicate OtherSlug(slug: string, p: Post) { p.slug != slug }

  /** The first three posts, in newest-first order, with a different slug. */
  function Others(sorted: seq<Post>, slug: string): (r: seq<Post>)
    ensures |r| <= OthersLimit
    ensures forall i | 0 <= i < |r| :: r[i].slug != slug && r[i] in sorted
    ensures r == Take(Filter(sorted, (p: Post) => OtherSlug(slug, p)), OthersLimit)
  {
    var r := FirstMatching(sorted, (p: Post) => OtherSlug(slug, p), OthersLimit);
    SubseqMembers(r, sorted);
    r
  }

  /** The list request for route `slug`.  `reply` is the decoded list, or
      `None` when the request failed or the body was not an array; both clear
      the page.  Without a slug nothing is requested. */
  function Load(s: State, slug: Option<string>, reply: Option<seq<Post>>): (r: State)
    ensures slug.None? || slug.value == "" ==> r == s
    ensures slug.Some? && slug.value != "" && reply.None? ==> r == State(None, [])
    ensures slug.Some? && slug.value != "" && reply.Some? ==>
      && (r.blog.None? <==> forall p | p in reply.value :: p.slug != slug.value)
      && (r.blog.Some? ==> r.blog.value.slug == slug.value && r.blog.value in reply.value)
      && |r.others| <= OthersLimit
      && (forall i | 0 <= i < |r.others| :: r.others[i].slug != slug.value && r.others[i] in reply.value)
  {
    if slug.None? || slug.value == "" then s
    else if reply.None? then State(None, [])
    else
      var sorted := NewestFirst(reply.value);
      InMultiset(sorted, reply.value);
      State(FindSlug(sorted, slug.value), Others(sorted, slug.value))
  }

  /** What a request with a slug and a list reply shows. */
  lemma LoadShows(s: State, slug: string, reply: seq<Post>)
    requires slug != ""
    ensures Load(s, Some(slug), Some(reply)) == State(FindSlug(NewestFirst(reply), slug), Others(NewestFirst(reply), slug))
  {
  }

  lemma InMultiset<T>(a: seq<T>, b: seq<T>)
    requires multiset(a) == multiset(b)
    ensures forall x :: x in a <==> x in b
  {
    forall x ensures x in a <==> x in b {
      assert x in a <==> x in multiset(a);
      assert x in b <==> x in multiset(b);
    }
  }

  lemma {:induction false} SubseqMembers<T>(a: seq<T>, b: seq<T>)
    requires IsSubseq(a, b)
    ensures forall i | 0 <= i < |a| :: a[i] in b
    decreases |b|
  {
    if |a| > 0 {
      if a[0] == b[0] {
        SubseqMembers(a[1..], b[1..]);
        assert forall i | 1 <= i < |a| :: a[i] == a[1..][i - 1];
      } else {
        SubseqMembers(a, b[1..]);
      }
    }
  }

  /** The post shown is the newest one carrying the slug. */
  lemma CurrentIsNewest(s: State, slug: string, reply: seq<Post>)
    requires slug != ""
    ensures var r := Load(s, Some(slug), Some(reply));
      r.blog.Some? ==> forall p | p in reply && p.slug == slug :: p.createdAt <= r.blog.value.createdAt
  {
    var sorted := NewestFirst(reply);
    LoadShows(s, slug, reply);
    NewestAmongSlug(sorted, reply, slug);
  }

  lemma NewestAmongSlug(sorted: seq<Post>, reply: seq<Post>, slug: string)
    requires sorted == NewestFirst(reply)
    ensures var c := FindSlug(sorted, slug);
      c.Some? ==> forall p | p in reply && p.slug == slug :: p.createdAt <= c.value.createdAt
  {
    var found := FindIndex(sorted, (p: Post) => p.slug == slug);
    InMultiset(sorted, reply);
    if found.Some? {
      var k := found.value;
      assert FindSlug(sorted, slug) == Some(sorted[k]);
      forall p | p in reply && p.slug == slug ensures p.createdAt <= sorted[k].createdAt {
        assert p in sorted;
        var j :| 0 <= j < |sorted| && sorted[j] == p;
        NoEarlierMatch(sorted, slug, k, j);
      }
    }
  }

  lemma NoEarlierMatch(sorted: seq<Post>, slug: string, k: nat, j: nat)
    requires SortedBy(sorted, Age)
    requires k < |sorted| && j < |sorted| && sorted[j].slug == slug
    requires forall m | 0 <= m < k :: sorted[m].slug != slug
    ensures sorted[j].createdAt <= sorted[k].createdAt
  {
    assert j >= k;
    if j > k {
      assert Age(sorted[k]) <= Age(sorted[j]);
    }
  }

  /** The strip lists posts newest first, and no post left out of it is
      newer than one it shows. */
  lemma OthersAreNewest(s: State, slug: string, reply: seq<Post>)
    requires slug != ""
    ensures var r := Load(s, Some(slug), Some(reply));
      && (forall i, j | 0 <= i < j < |r.others| :: r.others[i].createdAt >= r.others[j].createdAt)
      && (forall p, i | p in reply && p.slug != slug && p !in r.others && 0 <= i < |r.others| :: p.createdAt <= r.others[i].createdAt)
  {
    LoadShows(s, slug, reply);
    OthersNewest(NewestFirst(reply), reply, slug);
  }

  lemma OthersNewest(sorted: seq<Post>, reply: seq<Post>, slug: string)
    requires sorted == NewestFirst(reply)
    ensures var others := Others(sorted, slug);
      && (forall i, j | 0 <= i < j < |others| :: others[i].createdAt >= others[j].createdAt)
      && (forall p, i | p in reply && p.slug != slug && p !in others && 0 <= i < |others| :: p.createdAt <= others[i].createdAt)
  {
    var keep := (p: Post) => OtherSlug(slug, p);
    var f := Filter(sorted, keep);
    var others := Others(sorted, slug);
    FilterSorted(sorted, keep, Age);
    InMultiset(sorted, reply);
    assert others == f[..|others|];
    forall i, j | 0 <= i < j < |others| ensures others[i].createdAt >= others[j].createdAt {
      assert Age(f[i]) <= Age(f[j]);
    }
    forall p, i | p in reply && p.slug != slug && p !in others && 0 <= i < |others|
      ensures p.createdAt <= others[i].createdAt
    {
      assert p in sorted && keep(p);
      assert forall m | 0 <= m < |others| :: f[m] == others[m];
      LeftOutIsOlder(f, |others|, p, i);
    }
  }

  /** In a newest-first list, a post that is not among the first `n` is no
      newer than any of them. */
  lemma LeftOutIsOlder(f: seq<Post>, n: nat, p: Post, i: nat)
    requires SortedBy(f, Age) && n <= |f| && p in f && i < n
    requires forall m | 0 <= m < n :: f[m] != p
    ensures p.createdAt <= f[i].createdAt
  {
    var j :| 0 <= j < |f| && f[j] == p;
    assert Age(f[i]) <= Age(f[j]);
  }

  /** The cover of a post: the picture of its first image when that is
      non-empty, otherwise the placeholder. */
  function CoverImage(images: Option<seq<BlogImage>>): (r: string)
    ensures r != ""
    ensures images.None? || |images.value| == 0 ==> r == ProjectView.PlaceholderImage
    ensures images.Some? && |images.value| > 0 && images.value[0].image.Some? && images.value[0].image.value != "" ==>
      r == images.value[0].image.value
    ensures images.Some? && |images.value| > 0 && images.value[0].image.GetOr("") == "" ==> r == ProjectView.PlaceholderImage
  {
    if images.Some? && |images.value| > 0 && images.value[0].image.GetOr("") != "" then images.value[0].image.value
    else ProjectView.PlaceholderImage
  }

  /** The card text: up to 140 characters are shown as they are; a longer
      text is cut to its first 140, trimmed, and marked with an ellipsis. */
  function Excerpt(text: string): (r: string)
    ensures |text| <= ExcerptLength ==> r == text
    ensures |text| > ExcerptLength ==>
      && 1 <= |r| <= ExcerptLength + 1 && r[|r| - 1] == Ellipsis
      && r[..|r| - 1] == JsTrim(text[..ExcerptLength])
  {
    if |text| > ExcerptLength then
      var cut := JsTrim(text[..ExcerptLength]);
      var r := cut + [Ellipsis];
      assert r[..|r| - 1] == cut;
      r
    else text
  }

  /** Only blank cut-off text loses everything but the ellipsis. */
  lemma ExcerptKeepsText(text: string)
    requires |text| > ExcerptLength
    ensures Excerpt(text) == [Ellipsis] <==> AllSpace(text[..ExcerptLength], IsJsSpace)
  {
    TrimEmptyIff(text[..ExcerptLength], IsJsSpace);
    var cut := JsTrim(text[..ExcerptLength]);
    assert Excerpt(text) == cut + [Ellipsis];
    assert |cut + [Ellipsis]| == |cut| + 1;
  }

  /** When neither the first nor the 140th character is a space, the card
      shows exactly the first 140 characters and the ellipsis. */
  lemma ExcerptOfUnpaddedText(text: string)
    requires |text| > ExcerptLength
    requires !IsJsSpace(text[0]) && !IsJsSpace(text[ExcerptLength - 1])
    ensures Excerpt(text) == text[..ExcerptLength] + [Ellipsis]
  {
    TrimOfTrimmed(text[..ExcerptLength], IsJsSpace);
  }

  /** The card links to `/blog/<slug>`, which loads that post when it is in
      the list. */
  lemma CardLeadsToItsPost(s: State, reply: seq<Post>, p: Post)
    requires p in reply && p.slug != ""
    ensures Load(s, Some(p.slug), Some(reply)).blog.Some?
    ensures Load(s, Some(p.slug), Some(reply)).blog.value.slug == p.slug
  {
    var i :| 0 <= i < |reply| && reply[i] == p;
  }
}

=== FILE: blog_write.dfy ===
/** The blog post write rules of the API (backend/blog/serializers.py): the
    captions taken from the `images_meta` JSON string, the link records
    taken from the `links_data` JSON string, and how `create` and `update`
    store a post with its images and links.  Both methods run in one
    transaction, so a failure leaves nothing behind.

    Python's own behaviour on each decoded value is spelled out: `len`,
    `append`, indexing, `.get`, `in`, iteration and `**` raise on values
    that do not support them, and such an exception is an `Internal`
    error. */
module BlogWrite {
  import opened Outcomes
  import opened Json
  import opened Seqs
  import opened Api

  const InvalidImagesMeta: string := "Invalid JSON format for images_meta."
  const CountMismatch: string := "The number of uploaded images and images_meta entries must match."
  const InvalidLinksData: string := "Invalid JSON format for links_data."
  const LinkNeedsFields: string := "Each link must have 'url' and 'text'."

  /** The value a missing write-only JSON field stands for. */
  const EmptyList: string := "[]"

  datatype ImageRow = ImageRow(image: Upload, caption: Json)
  datatype LinkRow = LinkRow(url: Json, text: Json)
  datatype Post = Post(title: string, content: string, images: seq<ImageRow>, links: seq<LinkRow>)

  /** The write-only fields of a request: the uploaded images and the two
      JSON strings, `None` for a string that was not sent. */
  datatype Nested = Nested(uploads: seq<Upload>, imagesMeta: Option<string>, linksData: Option<string>)

  /** `len(x)` for the decoded values that have a length (a dict counts its
      distinct keys); `None` where `len` raises. */
  function PyLen(x: Json): Option<nat> {
    match x
    case JString(s) => Some(|s|)
    case JArray(items) => Some(|items|)
    case JObject(fields) => Some(|Dedup(Keys(fields))|)
    case _ => None
  }

  /* ---------------- images ---------------- */

  /** The entry appended while the metadata is shorter than the uploads. */
  const BlankCaption: Json := JObject([("caption", JString(""))])

  /** Pads the metadata list with blank-caption entries up to `n` entries. */
  function PadMeta(items: seq<Json>, n: nat): (r: seq<Json>)
    ensures |r| == if |items| < n then n else |items|
    ensures |items| <= |r| && r[..|items|] == items
    ensures forall i | |items| <= i < |r| :: r[i] == BlankCaption
  {
    if |items| < n then items + seq(n - |items|, _ => BlankCaption) else items
  }

  /** The caption of a dict entry, blank when it has none. */
  function ObjectCaption(fields: seq<(string, Json)>): Json {
    Member(fields, "caption").GetOr(JString(""))
  }

  /** The captions of the padded entries; an entry that is not a dict has
      no `get`. */
  function CaptionsOf(entries: seq<Json>): (r: Result<seq<Json>, WriteError>)
    ensures r.Ok? <==> forall i | 0 <= i < |entries| :: entries[i].JObject?
    ensures r.Err? ==> r.error == Internal
    ensures r.Ok? ==> |r.value| == |entries| && forall i | 0 <= i < |entries| :: r.value[i] == ObjectCaption(entries[i].fields)
  {
    if forall i | 0 <= i < |entries| :: entries[i].JObject? then
      Ok(seq(|entries|, i requires 0 <= i < |entries| => ObjectCaption(entries[i].fields)))
    else Err(Internal)
  }

  /** Lines 49-71: one caption per uploaded image.  Without uploads the
      metadata is not looked at.  An empty metadata string means an empty
      list; otherwise it must decode.  A decoded list is padded with blank
      captions and must then have exactly one entry per upload.  A decoded
      string or dict longer than the uploads fails the count check; any
      other decoded value raises. */
  function ImageCaptions(uploads: seq<Upload>, meta: string, parse: Parser): (r: Result<seq<Json>, WriteError>)
    ensures |uploads| == 0 ==> r == Ok([])
    ensures r.Ok? ==> |r.value| == |uploads|
    ensures |uploads| > 0 && meta != "" && parse(meta).None? ==> r == Err(Validation(InvalidImagesMeta))
    ensures r == Err(Validation(CountMismatch)) <==>
      && |uploads| > 0 && meta != "" && parse(meta).Some?
      && PyLen(parse(meta).value).Some? && PyLen(parse(meta).value).value > |uploads|
  {
    var n := |uploads|;
    if n == 0 then Ok([])
    else
      var decoded: Option<Json> := if meta == "" then Some(JArray([])) else parse(meta);
      match decoded
      case None => Err(Validation(InvalidImagesMeta))
      case Some(JArray(items)) =>
        var padded := PadMeta(items, n);
        if |padded| != n then Err(Validation(CountMismatch)) else CaptionsOf(padded)
      case Some(m) =>
        if PyLen(m).Some? && PyLen(m).value > n then Err(Validation(CountMismatch)) else Err(Internal)
  }

  /** What a decoded metadata list gives: too long a list fails the count
      check; otherwise the captions are those of the entries, then blanks,
      provided every entry is a dict. */
  lemma MetaListCaptions(uploads: seq<Upload>, meta: string, parse: Parser, items: seq<Json>)
    requires |uploads| > 0 && meta != "" && parse(meta) == Some(JArray(items))
    ensures |items| > |uploads| ==> ImageCaptions(uploads, meta, parse) == Err(Validation(CountMismatch))
    ensures |items| <= |uploads| ==>
      (ImageCaptions(uploads, meta, parse).Ok? <==> forall i | 0 <= i < |items| :: items[i].JObject?)
    ensures var r := ImageCaptions(uploads, meta, parse);
      r.Ok? ==> forall i | 0 <= i < |uploads| ::
        r.value[i] == if i < |items| then ObjectCaption(items[i].fields) else JString("")
  {
    var padded := PadMeta(items, |uploads|);
    if |items| <= |uploads| {
      forall i | 0 <= i < |padded| && |items| <= i ensures padded[i].JObject? {
        assert padded[i] == BlankCaption;
      }
      forall i | 0 <= i < |items| ensures padded[i] == items[i] {
        assert padded[..|items|][i] == items[i];
      }
    }
  }

  /** Metadata written as one `{"caption": c}` per caption. */
  function MetaJson(captions: seq<Json>): (j: Json)
    ensures j.JArray? && |j.items| == |captions|
  {
    JArray(seq(|captions|, i requires 0 <= i < |captions| => JObject([("caption", captions[i])])))
  }

  /** Captions sent as metadata come back in order, and missing ones are
      blank. */
  lemma MetaRoundTrip(uploads: seq<Upload>, meta: string, parse: Parser, captions: seq<Json>)
    requires |uploads| > 0 && meta != "" && parse(meta) == Some(MetaJson(captions))
    requires |captions| <= |uploads|
    ensures ImageCaptions(uploads, meta, parse) == Ok(captions + seq(|uploads| - |captions|, _ => JString("")))
  {
    var items := MetaJson(captions).items;
    MetaListCaptions(uploads, meta, parse, items);
    var r := ImageCaptions(uploads, meta, parse);
    var want := captions + seq(|uploads| - |captions|, _ => JString(""));
    assert forall i | 0 <= i < |items| :: items[i] == JObject([("caption", captions[i])]);
    assert forall i | 0 <= i < |items| :: items[i].JObject?;
    forall i | 0 <= i < |uploads| ensures r.value[i] == want[i] {
      if i < |captions| {
        assert ObjectCaption(items[i].fields) == captions[i];
      }
    }
    assert r.value == want;
  }

  /** Images without any metadata get blank captions. */
  lemma MissingMetaMeansBlank(uploads: seq<Upload>, parse: Parser)
    requires |uploads| > 0 && parse(EmptyList) == Some(JArray([]))
    ensures ImageCaptions(uploads, EmptyList, parse) == Ok(seq(|uploads|, _ => JString("")))
  {
    MetaListCaptions(uploads, EmptyList, parse, []);
    var r := ImageCaptions(uploads, EmptyList, parse);
    assert r.Ok?;
    assert r.value == seq(|uploads|, _ => JString(""));
  }

  /** The stored images: each upload with its caption, in upload order. */
  function ImageRows(uploads: seq<Upload>, captions: seq<Json>): (r: seq<ImageRow>)
    requires |captions| == |uploads|
    ensures |r| == |uploads|
    ensures forall i | 0 <= i < |r| :: r[i].image == uploads[i] && r[i].caption == captions[i]
  {
    seq(|uploads|, i requires 0 <= i < |uploads| => ImageRow(uploads[i], captions[i]))
  }

  /* ---------------- links ---------------- */

  /** `t` occurs in `s` as a substring. */
  predicate HasInfix(s: string, t: string)
    decreases |s|
  {
    |t| <= |s| && (s[..|t|] == t || HasInfix(s[1..], t))
  }

  /** Python `key in x`: a dict tests its keys, a list its elements and a
      string its substrings; `None` where the test raises. */
  function PyContains(x: Json, key: string): (r: Option<bool>)
    ensures r.None? <==> !(x.JObject? || x.JArray? || x.JString?)
    ensures x.JObject? ==> r == Some(Member(x.fields, key).Some?)
  {
    match x
    case JObject(fields) => Some(Member(fields, key).Some?)
    case JArray(items) => Some(JString(key) in items)
    case JString(s) => Some(HasInfix(s, key))
    case _ => None
  }

  /** The keywords `Link.objects.create(post=post, **record)` accepts
      besides `post`. */
  predicate LinkField(k: string) {
    k == "id" || k == "url" || k == "text"
  }

  /** Lines 80-83 for one record: it must contain both `url` and `text`,
      and it must then be a dict whose keys are all link fields. */
  function LinkOf(x: Json): (r: Result<LinkRow, WriteError>)
    ensures r.Ok? <==>
      && x.JObject? && Member(x.fields, "url").Some? && Member(x.fields, "text").Some?
      && forall i | 0 <= i < |x.fields| :: LinkField(x.fields[i].0)
    ensures r.Ok? ==> r.value == LinkRow(Member(x.fields, "url").value, Member(x.fields, "text").value)
    ensures x.JObject? && (Member(x.fields, "url").None? || Member(x.fields, "text").None?) ==>
      r == Err(Validation(LinkNeedsFields))
  {
    var hasUrl, hasText := PyContains(x, "url"), PyContains(x, "text");
    if hasUrl.None? then Err(Internal)
    else if !hasUrl.value || !hasText.value then Err(Validation(LinkNeedsFields))
    else if x.JObject? && forall i | 0 <= i < |x.fields| :: LinkField(x.fields[i].0) then
      Ok(LinkRow(Member(x.fields, "url").value, Member(x.fields, "text").value))
    else Err(Internal)
  }

  /** The loop over the records: the first failing record decides the error. */
  function LinksFrom(records: seq<Json>): (r: Result<seq<LinkRow>, WriteError>)
    ensures r.Ok? <==> forall i | 0 <= i < |records| :: LinkOf(records[i]).Ok?
    ensures r.Ok? ==> |r.value| == |records| && forall i | 0 <= i < |records| :: LinkOf(records[i]) == Ok(r.value[i])
    decreases |records|
  {
    if |records| == 0 then Ok([])
    else
      match LinkOf(records[0])
      case Err(e) => Err(e)
      case Ok(link) =>
        match LinksFrom(records[1..])
        case Err(e) => Err(e)
        case Ok(links) =>
          assert forall i | 1 <= i < |records| :: records[i] == records[1..][i - 1];
          Ok([link] + links)
  }

  /** The error is the one of the first record that fails. */
  lemma {:induction false} LinksFromFirstError(records: seq<Json>, k: nat)
    requires k < |records| && LinkOf(records[k]).Err?
    requires forall j | 0 <= j < k :: LinkOf(records[j]).Ok?
    ensures LinksFrom(records) == Err(LinkOf(records[k]).error)
    decreases k
  {
    if k > 0 {
      assert records[1..][k - 1] == records[k];
      LinksFromFirstError(records[1..], k - 1);
    }
  }

  /** Each character of `s` as a one-character string (iterating a `str`). */
  function Chars(s: string): (r: seq<Json>)
    ensures |r| == |s| && forall i | 0 <= i < |s| :: r[i] == JString([s[i]])
  {
    seq(|s|, i requires 0 <= i < |s| => JString([s[i]]))
  }

  /** Lines 74-83: the links of a post.  An empty string means none;
      otherwise it must decode, and the loop runs over a list's elements, a
      dict's keys or a string's characters (anything else is not iterable). */
  function LinkRowsOf(data: string, parse: Parser): (r: Result<seq<LinkRow>, WriteError>)
    ensures data == "" ==> r == Ok([])
    ensures data != "" && parse(data).None? ==> r == Err(Validation(InvalidLinksData))
    ensures data != "" && parse(data).Some? && parse(data).value.JArray? ==> r == LinksFrom(parse(data).value.items)
  {
    if data == "" then Ok([])
    else
      match parse(data)
      case None => Err(Validation(InvalidLinksData))
      case Some(JArray(items)) => LinksFrom(items)
      case Some(JObject(fields)) => LinksFrom(JStrings(Dedup(Keys(fields))))
      case Some(JString(s)) => LinksFrom(Chars(s))
      case Some(_) => Err(Internal)
  }

  /** Links only come from a decoded list: a dict or a string yields none
      or fails, since none of its items is a record. */
  lemma LinksOnlyFromList(data: string, parse: Parser)
    ensures var r := LinkRowsOf(data, parse);
      r.Ok? && |r.value| > 0 ==> data != "" && parse(data).Some? && parse(data).value.JArray?
  {
    if data != "" && parse(data).Some? {
      var d := parse(data).value;
      if d.JObject? {
        var ks := JStrings(Dedup(Keys(d.fields)));
        assert |ks| > 0 ==> LinkOf(ks[0]).Err?;
      } else if d.JString? {
        assert |d.s| > 0 ==> LinkOf(Chars(d.s)[0]).Err?;
      }
    }
  }

  /** A record lacking `url` or `text` is refused with the link message,
      unless an earlier record failed first. */
  lemma MissingFieldRefused(data: string, parse: Parser, k: nat)
    requires data != "" && parse(data).Some? && parse(data).value.JArray?
    requires var items := parse(data).value.items;
      && k < |items| && items[k].JObject?
      && (Member(items[k].fields, "url").None? || Member(items[k].fields, "text").None?)
      && forall j | 0 <= j < k :: LinkOf(items[j]).Ok?
    ensures LinkRowsOf(data, parse) == Err(Validation(LinkNeedsFields))
  {
    LinksFromFirstError(parse(data).value.items, k);
  }

  /** Links written as `{"url": u, "text": t}` records. */
  function LinksJson(links: seq<LinkRow>): (j: Json)
    ensures j.JArray? && |j.items| == |links|
  {
    JArray(seq(|links|, i requires 0 <= i < |links| => JObject([("url", links[i].url), ("text", links[i].text)])))
  }

  /** Links sent as records come back unchanged. */
  lemma LinksRoundTrip(data: string, parse: Parser, links: seq<LinkRow>)
    requires data != "" && parse(data) == Some(LinksJson(links))
    ensures LinkRowsOf(data, parse) == Ok(links)
  {
    var items := LinksJson(links).items;
    forall i | 0 <= i < |items| ensures LinkOf(items[i]) == Ok(links[i]) {
      var fields := [("url", links[i].url), ("text", links[i].text)];
      assert items[i] == JObject(fields);
      assert Member(fields, "text") == Some(links[i].text);
      assert Member(fields, "url") == Member(fields[..1], "url") == Some(links[i].url);
      assert forall k | 0 <= k < |fields| :: LinkField(fields[k].0);
    }
    var r := LinksFrom(items);
    assert r.Ok? && |r.value| == |links|;
    forall i | 0 <= i < |links| ensures r.value[i] == links[i] {
      assert LinkOf(items[i]) == Ok(r.value[i]);
    }
    assert r.value == links;
  }

  /* ---------------- create and update ---------------- */

  /** `_create_or_update_nested` (lines 42-83): the images are handled
      first, then the links; the first failure is the result. */
  function Relations(n: Nested, parse: Parser): (r: Result<(seq<ImageRow>, seq<LinkRow>), WriteError>)
    ensures var caps := ImageCaptions(n.uploads, n.imagesMeta.GetOr(EmptyList), parse);
      var links := LinkRowsOf(n.linksData.GetOr(EmptyList), parse);
      && (caps.Err? ==> r == Err(caps.error))
      && (caps.Ok? && links.Err? ==> r == Err(links.error))
      && (caps.Ok? && links.Ok? ==> r == Ok((ImageRows(n.uploads, caps.value), links.value)))
  {
    match ImageCaptions(n.uploads, n.imagesMeta.GetOr(EmptyList), parse)
    case Err(e) => Err(e)
    case Ok(caps) =>
      match LinkRowsOf(n.linksData.GetOr(EmptyList), parse)
      case Err(e) => Err(e)
      case Ok(links) => Ok((ImageRows(n.uploads, caps), links))
  }

  /** `create` (lines 85-94): the post with the given title and content and
      the new images and links, or an error and no post at all. */
  function Create(title: string, content: string, n: Nested, parse: Parser): (r: Result<Post, WriteError>)
    ensures r.Ok? <==> Relations(n, parse).Ok?
    ensures r.Ok? ==> r.value.title == title && r.value.content == content
    ensures r.Ok? ==> |r.value.images| == |n.uploads| && forall i | 0 <= i < |n.uploads| :: r.value.images[i].image == n.uploads[i]
    ensures r.Ok? ==> Relations(n, parse) == Ok((r.value.images, r.value.links))
    ensures r.Ok? ==>
      var caps := ImageCaptions(n.uploads, n.imagesMeta.GetOr(EmptyList), parse);
      && caps.Ok? && (forall i | 0 <= i < |n.uploads| :: r.value.images[i].caption == caps.value[i])
      && LinkRowsOf(n.linksData.GetOr(EmptyList), parse) == Ok(r.value.links)
  {
    match Relations(n, parse)
    case Err(e) => Err(e)
    case Ok((images, links)) => Ok(Post(title, content, images, links))
  }

  /** What `update` leaves behind: the stored post and the error, if any. */
  datatype UpdateOutcome = UpdateOutcome(post: Post, error: Option<WriteError>)

  /** `update` (lines 96-109): a missing title or content keeps the old
      one; the old images and links are deleted and the new ones created;
      all of it in one transaction. */
  function Update(p: Post, title: Option<string>, content: Option<string>, n: Nested, parse: Parser): (r: UpdateOutcome)
    ensures r.error.Some? ==> r.post == p
    ensures r.error.None? ==> r.post.title == title.GetOr(p.title) && r.post.content == content.GetOr(p.content)
    ensures r.error.None? <==> Relations(n, parse).Ok?
    ensures r.error.None? ==> Relations(n, parse) == Ok((r.post.images, r.post.links))
    ensures r.error.None? ==>
      var caps := ImageCaptions(n.uploads, n.imagesMeta.GetOr(EmptyList), parse);
      && caps.Ok? && |r.post.images| == |n.uploads|
      && (forall i | 0 <= i < |n.uploads| :: r.post.images[i].image == n.uploads[i] && r.post.images[i].caption == caps.value[i])
      && LinkRowsOf(n.linksData.GetOr(EmptyList), parse) == Ok(r.post.links)
  {
    match Relations(n, parse)
    case Err(e) => UpdateOutcome(p, Some(e))
    case Ok((images, links)) => UpdateOutcome(Post(title.GetOr(p.title), content.GetOr(p.content), images, links), None)
  }

  /** An update replaces the relations outright: it succeeds exactly when a
      create with the kept title and content would, and stores the same
      post, whatever images and links the old post had. */
  lemma UpdateIsCreateOverKeptFields(p: Post, title: Option<string>, content: Option<string>, n: Nested, parse: Parser)
    ensures var r := Update(p, title, content, n, parse);
      var c := Create(title.GetOr(p.title), content.GetOr(p.content), n, parse);
      (r.error.None? <==> c.Ok?) && (c.Ok? ==> r.post == c.value) && (c.Err? ==> r.error == Some(c.error))
  {
  }

  /** Two posts that differ only in their images and links end up equal. */
  lemma UpdateForgetsOldRelations(p: Post, q: Post, title: Option<string>, content: Option<string>, n: Nested, parse: Parser)
    requires p.title == q.title && p.content == q.content
    ensures var rp := Update(p, title, content, n, parse);
      var rq := Update(q, title, content, n, parse);
      rp.error == rq.error && (rp.error.None? ==> rp.post == rq.post)
  {
    UpdateIsCreateOverKeptFields(p, title, content, n, parse);
    UpdateIsCreateOverKeptFields(q, title, content, n, parse);
  }

  /** An update that sends no images, metadata or links leaves the post
      with none. */
  lemma UpdateWithoutNestedClears(p: Post, title: Option<string>, content: Option<string>, parse: Parser)
    requires parse(EmptyList) == Some(JArray([]))
    ensures var r := Update(p, title, content, Nested([], None, None), parse);
      r.error.None? && r.post.images == [] && r.post.links == []
  {
  }

  /** A malformed metadata string is refused with its message whenever
      images are uploaded, and ignored otherwise. */
  lemma MalformedMetaRefused(p: Post, title: Option<string>, content: Option<string>, n: Nested, parse: Parser)
    requires n.imagesMeta.Some? && n.imagesMeta.value != "" && parse(n.imagesMeta.value).None?
    ensures var r := Update(p, title, content, n, parse);
      (|n.uploads| > 0 ==> r.error == Some(Validation(InvalidImagesMeta)))
      && (|n.uploads| == 0 ==> r == Update(p, title, content, n.(imagesMeta := None), parse))
  {
  }

  /** A malformed links string is refused with its message once the images
      passed. */
  lemma MalformedLinksRefused(p: Post, title: Option<string>, content: Option<string>, n: Nested, parse: Parser)
    requires n.linksData.Some? && n.linksData.value != "" && parse(n.linksData.value).None?
    requires ImageCaptions(n.uploads, n.imagesMeta.GetOr(EmptyList), parse).Ok?
    ensures Update(p, title, content, n, parse).error == Some(Validation(InvalidLinksData))
  {
  }
}

=== FILE: carousel.dfy ===
/** The skills carousel of the landing page (frontend/client/pages/Index.tsx)
    as one reducer.  The page's React state (`skillsPage`, `perPage`,
    `skills.length`) and refs (touch start and delta, wheel accumulator,
    cooldown flag, pending cooldown timer, direction hint) form one record;
    every user or browser event is an `Event`; `Step` applies the handler and
    then the effects that React runs after the re-render: the page clamp and,
    when the page or page count changed, the wheel effect's cleanup. */
module Carousel {
  import opened Outcomes

  const TouchThreshold: real := 50.0
  const WheelThreshold: real := 60.0
  /** `useState(12)`: the page size before the first resize computation. */
  const InitialPerPage: nat := 12

  function Abs(x: real): real { if x < 0.0 then -x else x }

  /** Grid columns for a viewport width (Tailwind breakpoints). */
  function Columns(w: int): nat {
    if w >= 1280 then 6 else if w >= 1024 then 5 else if w >= 768 then 4 else if w >= 640 then 3 else 2
  }

  /** Grid rows: three on narrow screens, two from 768 px up. */
  function Rows(w: int): nat {
    if w < 768 then 3 else 2
  }

  /** Skills per page, `cols * rows`: 6 below 640 px, 9 up to 767, 8 up to
      1023, 10 up to 1279 and 12 from 1280 px on, so never zero. */
  function PerPageFor(w: int): (n: nat)
    ensures n > 0
    ensures w < 640 ==> n == 6
    ensures 640 <= w < 768 ==> n == 9
    ensures 768 <= w < 1024 ==> n == 8
    ensures 1024 <= w < 1280 ==> n == 10
    ensures 1280 <= w ==> n == 12
  {
    Columns(w) * Rows(w)
  }

  /** The number of pages: the count divided by the page size, rounded up. */
  function TotalPages(n: nat, perPage: nat): (t: nat)
    requires perPage > 0
    ensures t == 0 <==> n == 0
    ensures t > 0 ==> (t - 1) * perPage < n <= t * perPage
  {
    (n + perPage - 1) / perPage
  }

  /** The skills shown on `page`: the page-sized window starting at
      `page * perPage`, cut short at the end of the list. */
  function PageSlice<T>(items: seq<T>, page: nat, perPage: nat): (r: seq<T>)
    ensures |r| <= perPage
    ensures perPage > 0 && page * perPage < |items| ==> |r| > 0
    ensures forall k | 0 <= k < |r| :: page * perPage + k < |items| && r[k] == items[page * perPage + k]
  {
    var start := page * perPage;
    if start >= |items| then []
    else if start + perPage <= |items| then items[start..start + perPage]
    else items[start..]
  }

  /** Every skill is shown on exactly one page: item `i` sits at position
      `i % perPage` of page `i / perPage`, and that page exists. */
  lemma PageOfItem<T>(items: seq<T>, perPage: nat, i: nat)
    requires perPage > 0 && i < |items|
    ensures i / perPage < TotalPages(|items|, perPage)
    ensures var r := PageSlice(items, i / perPage, perPage);
      i % perPage < |r| && r[i % perPage] == items[i]
  {
    var q, m := i / perPage, i % perPage;
    DivMod(i, perPage);
    var t := TotalPages(|items|, perPage);
    if q >= t {
      MulMonotone(t, q, perPage);
    }
    var r := PageSlice(items, q, perPage);
    assert q * perPage + m == i;
  }

  lemma DivMod(i: nat, d: nat)
    requires d > 0
    ensures i == (i / d) * d + i % d && 0 <= i % d < d
  {
  }

  lemma MulMonotone(a: nat, b: nat, c: nat)
    requires a <= b
    ensures a * c <= b * c
  {
    assert b * c == a * c + (b - a) * c;
  }

  datatype Carousel = Carousel(
    page: nat,               // skillsPage
    perPage: nat,            // perPage
    count: nat,              // skills.length
    dir: int,                // pageDirRef: +1 forward, -1 backward
    touchStart: Option<real>, // touchStartX
    touchDelta: real,        // touchDeltaX
    wheelAccum: real,        // wheelAccumX
    cooldown: bool,          // wheelCooldownRef
    timerPending: bool)      // a cooldown-release timeout is scheduled
  {
    function Total(): nat
      requires perPage > 0
    {
      TotalPages(count, perPage)
    }

    /** The last page index, or 0 when there are no pages. */
    function LastPage(): nat
      requires perPage > 0
    {
      if Total() > 0 then Total() - 1 else 0
    }

    /** The page index is a real page, or 0 when there is none. */
    predicate Valid() {
      perPage > 0 && page <= LastPage()
    }
  }

  function Initial(): (s: Carousel)
    ensures s.Valid()
  {
    Carousel(0, InitialPerPage, 0, 1, None, 0.0, 0.0, false, false)
  }

  datatype Event =
    | SkillsLoaded(count: nat)       // skills fetch settled (0 on error or non-array)
    | Resize(width: int)             // window resize, or the first `compute()`
    | PrevClicked                    // the "previous page" button
    | NextClicked                    // the "next page" button
    | DotClicked(index: nat)         // one of the pagination dots
    | TouchStart(x: Option<real>)    // clientX of the first touch, if any
    | TouchMove(x: Option<real>)
    | TouchEnd
    | Wheel(dx: real, dy: real)
    | CooldownElapsed                // the 500 ms timeout fires

  /** `goPrevSkillsPage`: one page back, stopping at the first page, with
      the animation pointing back. */
  function GoPrev(s: Carousel): (r: Carousel)
    requires s.Valid()
    ensures r.Valid()
    ensures r.page == if s.page > 0 then s.page - 1 else 0
    ensures r.page <= s.page <= r.page + 1
    ensures r == s.(page := r.page, dir := -1)
  {
    s.(dir := -1, page := if s.page - 1 > 0 then s.page - 1 else 0)
  }

  /** `goNextSkillsPage`: one page forward, stopping at the last page (or 0
      with no pages), with the animation pointing forward; it never wraps to
      the first page. */
  function GoNext(s: Carousel): (r: Carousel)
    requires s.Valid()
    ensures r.Valid()
    ensures r.page == if s.page < s.LastPage() then s.page + 1 else s.page
    ensures s.page <= r.page <= s.page + 1
    ensures r == s.(page := r.page, dir := 1)
  {
    var last := if s.Total() - 1 > 0 then s.Total() - 1 else 0;
    s.(dir := 1, page := if last < s.page + 1 then last else s.page + 1)
  }

  /** The page-clamp effect: pull the page back onto the last page, or to 0
      when there are no pages; leaves everything else alone. */
  function Clamp(s: Carousel): (r: Carousel)
    requires s.perPage > 0
    ensures r.Valid()
    ensures r == s.(page := r.page)
    ensures s.Valid() ==> r == s
    ensures !s.Valid() && s.Total() > 0 ==> r.page == s.Total() - 1
  {
    var total := s.Total();
    if s.page >= total && total > 0 then s.(page := total - 1)
    else if total == 0 && s.page != 0 then s.(page := 0)
    else s
  }

  /** The touch-end handler: a step only past 50 px, towards the next page
      for a leftward drag and the previous page for a rightward one; the
      gesture state is reset either way. */
  function EndTouch(s: Carousel): (r: Carousel)
    requires s.Valid()
    ensures r.Valid()
    ensures r.touchStart.None? && r.touchDelta == 0.0
    ensures -TouchThreshold <= s.touchDelta <= TouchThreshold ==> r == s.(touchStart := None, touchDelta := 0.0)
    ensures s.touchDelta < -TouchThreshold ==> r.page == GoNext(s).page && r.dir == 1
    ensures s.touchDelta > TouchThreshold ==> r.page == GoPrev(s).page && r.dir == -1
    ensures r.count == s.count && r.perPage == s.perPage && r.wheelAccum == s.wheelAccum
    ensures r.cooldown == s.cooldown && r.timerPending == s.timerPending
  {
    var moved :=
      if Abs(s.touchDelta) > TouchThreshold then
        (if s.touchDelta < 0.0 then GoNext(s) else GoPrev(s))
      else s;
    moved.(touchStart := None, touchDelta := 0.0)
  }

  /** The wheel handler.  Vertical-dominant events and events during the
      cooldown change nothing; otherwise the horizontal delta accumulates,
      and once the sum passes 60 exactly one step commits (back for a
      negative sum, forward for a positive one), the sum is reset, the
      cooldown starts and its release timer is scheduled. */
  function OnWheel(s: Carousel, dx: real, dy: real): (r: Carousel)
    requires s.Valid()
    ensures r.Valid()
    ensures Abs(dx) <= Abs(dy) || s.cooldown ==> r == s
    ensures Abs(dx) > Abs(dy) && !s.cooldown && Abs(s.wheelAccum + dx) <= WheelThreshold ==>
      r == s.(wheelAccum := s.wheelAccum + dx)
    ensures Abs(dx) > Abs(dy) && !s.cooldown && Abs(s.wheelAccum + dx) > WheelThreshold ==>
      && r.wheelAccum == 0.0 && r.cooldown && r.timerPending
      && r.page == (if s.wheelAccum + dx < 0.0 then GoPrev(s).page else GoNext(s).page)
      && r == s.(page := r.page, dir := r.dir, wheelAccum := 0.0, cooldown := true, timerPending := true)
  {
    if Abs(dx) <= Abs(dy) || s.cooldown then s
    else
      var acc := s.wheelAccum + dx;
      if Abs(acc) > WheelThreshold then
        var moved := if acc < 0.0 then GoPrev(s) else GoNext(s);
        moved.(wheelAccum := 0.0, cooldown := true, timerPending := true)
      else s.(wheelAccum := acc)
  }

  /** A click on the Prev or Next button or on a pagination dot.  These are
      rendered only when there is more than one page, and a button is
      disabled at its end, so a click there changes nothing.  A dot turns to
      its page, with the animation pointing forward exactly when that page
      lies after the current one. */
  function ButtonClick(s: Carousel, e: Event): (r: Carousel)
    requires s.Valid()
    requires e.PrevClicked? || e.NextClicked? || e.DotClicked?
    ensures r.Valid()
    ensures e.PrevClicked? && (s.Total() <= 1 || s.page == 0) ==> r == s
    ensures e.PrevClicked? && s.Total() > 1 && s.page > 0 ==> r == s.(page := s.page - 1, dir := -1)
    ensures e.NextClicked? && (s.Total() <= 1 || s.page == s.LastPage()) ==> r == s
    ensures e.NextClicked? && s.Total() > 1 && s.page < s.LastPage() ==> r == s.(page := s.page + 1, dir := 1)
    ensures e.DotClicked? && (s.Total() <= 1 || e.index >= s.Total()) ==> r == s
    ensures e.DotClicked? && s.Total() > 1 && e.index < s.Total() ==>
      && r == s.(page := e.index, dir := r.dir)
      && (e.index > s.page ==> r.dir == 1)
      && (e.index <= s.page ==> r.dir == -1)
  {
    match e
    case PrevClicked =>
      if s.Total() > 1 && s.page != 0 then GoPrev(s) else s
    case NextClicked =>
      if s.Total() > 1 && s.page < s.Total() - 1 then GoNext(s) else s
    case DotClicked(i) =>
      if s.Total() > 1 && i < s.Total() then s.(dir := if i > s.page then 1 else -1, page := i) else s
  }

  /** The Prev button undoes an enabled Next click, and the dot of the page
      one shows is a click that keeps it. */
  lemma NextThenPrevReturns(s: Carousel)
    requires s.Valid() && s.Total() > 1 && s.page < s.LastPage()
    ensures ButtonClick(ButtonClick(s, NextClicked), PrevClicked).page == s.page
    ensures ButtonClick(s, DotClicked(s.page)).page == s.page
  {
  }

  /** The event handler proper, before React's effects.  A touch start
      begins a gesture at its position with no movement yet; a touch move
      counts only inside a gesture, measuring from its start (a move without
      a position reads as 0); the cooldown timeout releases the cooldown. */
  function Handle(s: Carousel, e: Event): (r: Carousel)
    requires s.Valid()
    ensures r.perPage > 0
    ensures e.SkillsLoaded? ==> r == s.(count := e.count)
    ensures e.Resize? ==> r == s.(perPage := PerPageFor(e.width))
    ensures e.PrevClicked? || e.NextClicked? || e.DotClicked? ==> r == ButtonClick(s, e)
    ensures e.TouchStart? ==> r == s.(touchStart := e.x, touchDelta := 0.0)
    ensures e.TouchMove? && s.touchStart.None? ==> r == s
    ensures e.TouchMove? && s.touchStart.Some? ==>
      r == s.(touchDelta := (if e.x.Some? then e.x.value else 0.0) - s.touchStart.value)
    ensures e.TouchEnd? ==> r == EndTouch(s)
    ensures e.Wheel? ==> r == OnWheel(s, e.dx, e.dy)
    ensures e.CooldownElapsed? && s.timerPending ==> !r.cooldown && r == s.(cooldown := false, timerPending := false)
    ensures e.CooldownElapsed? && !s.timerPending ==> r == s
  {
    match e
    case SkillsLoaded(n) => s.(count := n)
    case Resize(w) => s.(perPage := PerPageFor(w))
    case PrevClicked => ButtonClick(s, e)
    case NextClicked => ButtonClick(s, e)
    case DotClicked(_) => ButtonClick(s, e)
    case TouchStart(x) => s.(touchStart := x, touchDelta := 0.0)
    case TouchMove(x) =>
      if s.touchStart.Some? then s.(touchDelta := x.GetOr(0.0) - s.touchStart.value) else s
    case TouchEnd => EndTouch(s)
    case Wheel(dx, dy) => OnWheel(s, dx, dy)
    case CooldownElapsed =>
      if s.timerPending then s.(cooldown := false, timerPending := false) else s
  }

  /** What the wheel effect's cleanup does to a pending cooldown timer when
      the effect re-runs: the code clears it; the alternative keeps it. */
  datatype CleanupPolicy = ClearsTimer | KeepsTimer

  /** The wheel effect's dependencies, `[skillsPage, totalSkillPages]`. */
  function Deps(s: Carousel): (nat, nat)
    requires s.perPage > 0
  {
    (s.page, s.Total())
  }

  /** One event followed by the effects of the renders it causes: the handler
      result is rendered, the clamp effect may move the page, and whenever a
      render changed the wheel effect's dependencies its cleanup ran. */
  function Step(s: Carousel, e: Event, policy: CleanupPolicy): (r: Carousel)
    requires s.Valid()
    ensures r.Valid()
  {
    var handled := Handle(s, e);
    var clamped := Clamp(handled);
    var resubscribed := Deps(handled) != Deps(s) || Deps(clamped) != Deps(handled);
    if resubscribed && policy == ClearsTimer then clamped.(timerPending := false) else clamped
  }

  function Run(s: Carousel, events: seq<Event>, policy: CleanupPolicy): (r: Carousel)
    requires s.Valid()
    ensures r.Valid()
    decreases |events|
  {
    if |events| == 0 then s else Run(Step(s, events[0], policy), events[1..], policy)
  }

  // ---------------------------------------------------------------------
  // Properties

  /** A wheel event that is vertical-dominant, or arrives during the
      cooldown, changes nothing at all. */
  lemma WheelIgnored(s: Carousel, dx: real, dy: real, policy: CleanupPolicy)
    requires s.Valid()
    requires Abs(dx) <= Abs(dy) || s.cooldown
    ensures Step(s, Wheel(dx, dy), policy) == s
  {
  }

  /** A swipe of 60 px to the left on the first of two pages turns to the
      second page; a 10 px swipe does nothing. */
  lemma SwipeScenario(policy: CleanupPolicy)
    ensures var s := Initial().(count := 20, perPage := 10);
      && Run(s, [TouchStart(Some(200.0)), TouchMove(Some(140.0)), TouchEnd], policy).page == 1
      && Run(s, [TouchStart(Some(200.0)), TouchMove(Some(190.0)), TouchEnd], policy).page == 0
  {
    var s := Initial().(count := 20, perPage := 10);
    assert s.Total() == 2;
    SwipeFrom(s, 200.0, 140.0, policy);
    SwipeFrom(s, 200.0, 190.0, policy);
  }

  /** A swipe from `start` to `x` on the first of two pages turns the page
      exactly when it drags left by more than the threshold. */
  lemma SwipeFrom(s: Carousel, start: real, x: real, policy: CleanupPolicy)
    requires s.Valid() && s.page == 0 && s.Total() == 2
    ensures var r := Run(s, [TouchStart(Some(start)), TouchMove(Some(x)), TouchEnd], policy);
      (x - start < -TouchThreshold ==> r.page == 1) && (x - start >= -TouchThreshold ==> r.page == 0)
  {
    TouchTracking(s, Some(start), Some(x), policy);
    var b := s.(touchStart := Some(start), touchDelta := x - start);
    RunThree(s, TouchStart(Some(start)), TouchMove(Some(x)), TouchEnd, policy);
    StepKeepsHandledPage(b, TouchEnd, policy);
    EndTouchOnFirstOfTwo(b);
  }

  /** Lifting the finger on the first of two pages turns the page exactly
      for a leftward drag past the threshold. */
  lemma EndTouchOnFirstOfTwo(b: Carousel)
    requires b.Valid() && b.page == 0 && b.Total() == 2
    ensures b.touchDelta < -TouchThreshold ==> Handle(b, TouchEnd).page == 1
    ensures -TouchThreshold <= b.touchDelta ==> Handle(b, TouchEnd).page == 0
  {
  }

  /** Three events in a row. */
  lemma RunThree(s: Carousel, e1: Event, e2: Event, e3: Event, policy: CleanupPolicy)
    requires s.Valid()
    ensures var a := Step(s, e1, policy); var b := Step(a, e2, policy);
      Run(s, [e1, e2, e3], policy) == Step(b, e3, policy)
  {
    var a := Step(s, e1, policy);
    var b := Step(a, e2, policy);
    assert [e1, e2, e3][1..] == [e2, e3];
    assert [e2, e3][1..] == [e3];
    assert Run(b, [e3], policy) == Run(Step(b, e3, policy), [], policy);
  }

  /** When the handler leaves a real page, the effects do not move it. */
  lemma StepKeepsHandledPage(s: Carousel, e: Event, policy: CleanupPolicy)
    requires s.Valid() && Handle(s, e).Valid()
    ensures Step(s, e, policy).page == Handle(s, e).page
  {
  }

  /** Touching and dragging only record the gesture: the page and
      everything else stay as they were until the finger lifts. */
  lemma TouchTracking(s: Carousel, start: Option<real>, x: Option<real>, policy: CleanupPolicy)
    requires s.Valid()
    ensures Step(s, TouchStart(start), policy) == s.(touchStart := start, touchDelta := 0.0)
    ensures start.Some? ==>
      Step(Step(s, TouchStart(start), policy), TouchMove(x), policy) == s.(touchStart := start, touchDelta := x.GetOr(0.0) - start.value)
    ensures start.None? ==>
      Step(Step(s, TouchStart(start), policy), TouchMove(x), policy) == s.(touchStart := None, touchDelta := 0.0)
  {
    var a := s.(touchStart := start, touchDelta := 0.0);
    assert Step(s, TouchStart(start), policy) == a by {
      assert Handle(s, TouchStart(start)) == a;
      assert Clamp(a) == a;
    }
    var b := if start.Some? then a.(touchDelta := x.GetOr(0.0) - start.value) else a;
    assert Handle(a, TouchMove(x)) == b;
    assert Clamp(b) == b;
  }

  /** Fractional wheel deltas of 30.4 and 30.4 sum past 60 and commit
      exactly one page turn, and a further delta during the cooldown is
      ignored. */
  lemma WheelScenario(policy: CleanupPolicy)
    ensures var s := Initial().(count := 30, perPage := 10);
      var r := Run(s, [Wheel(30.4, 0.0), Wheel(30.4, 0.0), Wheel(80.0, 0.0)], policy);
      r.page == 1 && r.cooldown && r.wheelAccum == 0.0
  {
    var s := Initial().(count := 30, perPage := 10);
    assert s.Total() == 3;
    RunThree(s, Wheel(30.4, 0.0), Wheel(30.4, 0.0), Wheel(80.0, 0.0), policy);
    WheelAccumulates(s, 30.4, policy);
    var a := s.(wheelAccum := 30.4);
    WheelCommitsForward(a, 30.4, policy);
    WheelIgnored(Step(a, Wheel(30.4, 0.0), policy), 80.0, 0.0, policy);
  }

  /** A small rightward delta outside the cooldown only adds to the sum. */
  lemma WheelAccumulates(s: Carousel, dx: real, policy: CleanupPolicy)
    requires s.Valid() && !s.cooldown && dx > 0.0 && Abs(s.wheelAccum + dx) <= WheelThreshold
    ensures Step(s, Wheel(dx, 0.0), policy) == s.(wheelAccum := s.wheelAccum + dx)
  {
  }

  /** A rightward delta that takes the sum past the threshold turns to the
      next page, resets the sum and starts the cooldown. */
  lemma WheelCommitsForward(s: Carousel, dx: real, policy: CleanupPolicy)
    requires s.Valid() && !s.cooldown && dx > 0.0 && s.wheelAccum + dx > WheelThreshold
    requires s.page < s.LastPage()
    ensures var r := Step(s, Wheel(dx, 0.0), policy);
      r.page == s.page + 1 && r.cooldown && r.wheelAccum == 0.0
  {
  }

  // ---------------------------------------------------------------------
  // The cooldown timer

  /** The cooldown is on but no timer will ever switch it off. */
  predicate Stuck(s: Carousel) {
    s.cooldown && !s.timerPending
  }

  /** As written, nothing clears a stuck cooldown: only the timer does, and
      only a wheel commit, which the cooldown blocks, schedules one. */
  lemma {:induction false} StuckForever(s: Carousel, events: seq<Event>)
    requires s.Valid() && Stuck(s)
    ensures Stuck(Run(s, events, ClearsTimer))
    decreases |events|
  {
    if |events| > 0 {
      var n := Step(s, events[0], ClearsTimer);
      assert Stuck(n);
      StuckForever(n, events[1..]);
    }
  }

  /** And the code gets there: on the first of three pages a 70 px wheel
      swipe turns the page, the re-render runs the wheel effect's cleanup,
      which cancels the timer the swipe had just scheduled.  From then on
      every wheel event is ignored, whatever follows. */
  lemma WheelDeadAfterFirstTurn(events: seq<Event>, dx: real, dy: real)
    ensures var s := Initial().(count := 30, perPage := 10);
      var r := Step(s, Wheel(70.0, 0.0), ClearsTimer);
      && r.page == 1 && Stuck(r)
      && var later := Run(r, events, ClearsTimer);
         Step(later, Wheel(dx, dy), ClearsTimer) == later
  {
    var s := Initial().(count := 30, perPage := 10);
    var r := Step(s, Wheel(70.0, 0.0), ClearsTimer);
    assert r.page == 1 && Stuck(r);
    StuckForever(r, events);
  }

  /** With a cleanup that keeps the timer, a cooldown always has a timer
      behind it, so the wheel can always be re-enabled. */
  predicate Releasable(s: Carousel) {
    s.cooldown ==> s.timerPending
  }

  lemma {:induction false} CooldownAlwaysReleasable(s: Carousel, events: seq<Event>)
    requires s.Valid() && Releasable(s)
    ensures var r := Run(s, events, KeepsTimer);
      && Releasable(r)
      && !Step(r, CooldownElapsed, KeepsTimer).cooldown
    decreases |events|
  {
    if |events| > 0 {
      CooldownAlwaysReleasable(Step(s, events[0], KeepsTimer), events[1..]);
    }
  }
}

=== FILE: config.dfy ===
/** `getApiUrl` (frontend/client/lib/config.ts): joins the configured API base
    and a path with exactly one '/' between them.  The base comes from the
    build environment and is a parameter here. */
module Config {
  import opened Outcomes

  /** Drops one '/' at the very end, if present. */
  function DropTrailingSlash(s: string): (r: string)
    ensures r + "/" == s || (r == s && (|s| == 0 || s[|s| - 1] != '/'))
  {
    if |s| > 0 && s[|s| - 1] == '/' then s[..|s| - 1] else s
  }

  /** Drops one '/' at the very start, if present. */
  function DropLeadingSlash(s: string): (r: string)
    ensures "/" + r == s || (r == s && (|s| == 0 || s[0] != '/'))
  {
    if |s| > 0 && s[0] == '/' then s[1..] else s
  }

  /** No URL without a configured, non-empty base; otherwise the base minus
      at most one trailing '/', a '/', and the path minus at most one leading
      '/'. */
  function GetApiUrl(base: Option<string>, path: string): (r: Option<string>)
    ensures r.None? <==> base.None? || base.value == ""
    ensures r.Some? ==> exists b, p ::
      && (base.value[|base.value| - 1] == '/' ==> b + "/" == base.value)
      && (base.value[|base.value| - 1] != '/' ==> b == base.value)
      && (|path| > 0 && path[0] == '/' ==> "/" + p == path)
      && (|path| == 0 || path[0] != '/' ==> p == path)
      && r.value == b + "/" + p
  {
    if base.None? || base.value == "" then None
    else
      var b, p := DropTrailingSlash(base.value), DropLeadingSlash(path);
      Some(b + "/" + p)
  }

  /** The join does not care whether the base ends, or the path starts, with
      one '/': all four spellings give the same URL, with a single '/' in the
      middle. */
  lemma SlashInsensitive(base: string, path: string)
    requires |base| > 0 && base[|base| - 1] != '/'
    requires |path| == 0 || path[0] != '/'
    ensures GetApiUrl(Some(base), path) == Some(base + "/" + path)
    ensures GetApiUrl(Some(base + "/"), path) == Some(base + "/" + path)
    ensures GetApiUrl(Some(base), "/" + path) == Some(base + "/" + path)
    ensures GetApiUrl(Some(base + "/"), "/" + path) == Some(base + "/" + path)
  {
    assert (base + "/")[..|base|] == base;
    assert ("/" + path)[1..] == path;
  }

  /** Only one slash is removed at each end: a doubled slash survives as one. */
  lemma OneSlashOnly(base: string, path: string)
    requires |base| > 0 && base[|base| - 1] != '/'
    requires |path| == 0 || path[0] != '/'
    ensures GetApiUrl(Some(base + "//"), "//" + path) == Some(base + "/" + "/" + "/" + path)
  {
    assert (base + "//")[..|base| + 1] == base + "/";
    assert ("//" + path)[1..] == "/" + path;
    assert (base + "/") + "/" + ("/" + path) == base + "/" + "/" + "/" + path;
  }
}

=== FILE: contact.dfy ===
/** The landing page's contact form submission (`handleContactSubmit` in
    frontend/client/pages/Index.tsx): trims the four fields, checks them in a
    fixed order, and only then posts them.  The network answer is a
    parameter. */
module Contact {
  import opened Outcomes
  import opened Text
  import Config

  const FillAllFields: string := "Please fill in all fields."
  const InvalidEmail: string := "Please enter a valid email."
  const NotConfigured: string := "API URL not configured."
  const SendFailed: string := "Failed to send message. Please try again."
  const Sent: string := "Message sent successfully."
  const ContactPath: string := "/api/core/contact/"

  /** Characters JavaScript's regex `.` does not match. */
  predicate IsLineBreak(c: char) {
    c == '\n' || c == '\r' || c == '\U{2028}' || c == '\U{2029}'
  }

  ghost predicate NoLineBreak(s: string) {
    forall k | 0 <= k < |s| :: !IsLineBreak(s[k])
  }

  /** `/.+@.+\..+/` matches with the '@' at `i` and the '.' at `j`: at least
      one character before the '@', one between it and the '.', one after,
      all on one line. */
  ghost predicate EmailMatchAt(s: string, i: int, j: int) {
    && 1 <= i && i + 1 < j && j + 1 < |s|
    && s[i] == '@' && s[j] == '.'
    && NoLineBreak(s[i - 1..j + 2])
  }

  /** `/.+@.+\..+/.test(s)`: the pattern is not anchored, so it matches
      anywhere in the string. */
  ghost predicate EmailPattern(s: string) {
    exists i, j :: EmailMatchAt(s, i, j)
  }

  /** One left-to-right scan deciding the email pattern: it remembers where
      the current line starts and the first usable '@' on it, and accepts at
      the first character that follows a '.' placed late enough after that
      '@'. */
  method MatchesEmailPattern(s: string) returns (ok: bool)
    ensures ok <==> EmailPattern(s)
  {
    var lineStart := 0;
    var at: Option<nat> := None;
    var k := 0;
    while k < |s|
      invariant 0 <= lineStart <= k <= |s|
      invariant NoLineBreak(s[lineStart..k])
      invariant lineStart > 0 ==> IsLineBreak(s[lineStart - 1])
      invariant at.Some? ==> lineStart + 1 <= at.value < k && s[at.value] == '@'
      invariant at.Some? ==> forall m | lineStart + 1 <= m < at.value :: s[m] != '@'
      invariant at.None? ==> forall m | lineStart + 1 <= m < k :: s[m] != '@'
      invariant forall i, j | j + 1 < k :: !EmailMatchAt(s, i, j)
    {
      if IsLineBreak(s[k]) {
        NoMatchEndingAtBreak(s, k);
        lineStart, at := k + 1, None;
      } else {
        if k >= 1 && s[k - 1] == '.' && at.Some? && at.value + 1 < k - 1 {
          assert s[at.value - 1..k + 1] == s[at.value - 1..k] + [s[k]];
          assert s[at.value - 1..k] == s[lineStart..k][at.value - 1 - lineStart..];
          assert EmailMatchAt(s, at.value, k - 1);
          return true;
        }
        NoMatchEndingAt(s, k, lineStart, at);
        assert s[lineStart..k + 1] == s[lineStart..k] + [s[k]];
        if s[k] == '@' && at.None? && k >= lineStart + 1 {
          at := Some(k);
        }
      }
      k := k + 1;
    }
    return false;
  }

  /** No match can end on a line break. */
  lemma NoMatchEndingAtBreak(s: string, k: nat)
    requires k < |s| && IsLineBreak(s[k])
    ensures forall i, j | j + 1 == k :: !EmailMatchAt(s, i, j)
  {
    forall i, j | j + 1 == k ensures !EmailMatchAt(s, i, j) {
      if 1 <= i <= j + 1 < |s| {
        assert s[i - 1..j + 2][j + 1 - (i - 1)] == s[k];
      }
    }
  }

  /** When the scan does not accept at `k`, no match ends at `k`. */
  lemma NoMatchEndingAt(s: string, k: nat, lineStart: nat, at: Option<nat>)
    requires lineStart <= k < |s|
    requires lineStart > 0 ==> IsLineBreak(s[lineStart - 1])
    requires at.Some? ==> lineStart + 1 <= at.value < k && s[at.value] == '@'
    requires at.Some? ==> forall m | lineStart + 1 <= m < at.value :: s[m] != '@'
    requires at.None? ==> forall m | lineStart + 1 <= m < k :: s[m] != '@'
    requires !(k >= 1 && s[k - 1] == '.' && at.Some? && at.value + 1 < k - 1)
    ensures forall i, j | j + 1 == k :: !EmailMatchAt(s, i, j)
  {
    forall i, j | j + 1 == k ensures !EmailMatchAt(s, i, j) {
      if 1 <= i && i + 1 < j && s[i] == '@' && s[j] == '.' && i - 1 < lineStart {
        assert s[i - 1..j + 2][lineStart - 1 - (i - 1)] == s[lineStart - 1];
      }
    }
  }

  datatype ContactForm = ContactForm(name: string, email: string, subject: string, message: string)

  /** The JSON body posted to the contact endpoint, and where. */
  datatype ContactRequest = ContactRequest(url: string, name: string, email: string, subject: string, message: string)

  datatype ContactResult = ContactResult(
    form: ContactForm,               // the four input fields afterwards
    error: Option<string>,           // contactError
    success: Option<string>,         // contactSuccess
    request: Option<ContactRequest>) // the POST issued, if any

  /** Submitting the form.  `apiBase` is the configured base URL and
      `delivered` whether the POST got an ok answer (it is not consulted when
      nothing is posted). */
  method SubmitContact(form: ContactForm, apiBase: Option<string>, delivered: bool) returns (r: ContactResult)
    ensures var name, email, subject, message := JsTrim(form.name), JsTrim(form.email), JsTrim(form.subject), JsTrim(form.message);
      var complete := name != "" && email != "" && subject != "" && message != "";
      var url := Config.GetApiUrl(apiBase, ContactPath);
      && (!complete ==> r == ContactResult(form, Some(FillAllFields), None, None))
      && (complete && !EmailPattern(email) ==> r == ContactResult(form, Some(InvalidEmail), None, None))
      && (complete && EmailPattern(email) && url.None? ==> r == ContactResult(form, Some(NotConfigured), None, None))
      && (r.request.Some? <==> complete && EmailPattern(email) && url.Some?)
      && (r.request.Some? ==> r.request.value == ContactRequest(url.value, name, email, subject, message))
      && (r.request.Some? && delivered ==> r.form == ContactForm("", "", "", "") && r.success == Some(Sent) && r.error.None?)
      && (r.request.Some? && !delivered ==> r.form == form && r.error == Some(SendFailed) && r.success.None?)
  {
    var name, email, subject, message := JsTrim(form.name), JsTrim(form.email), JsTrim(form.subject), JsTrim(form.message);
    if name == "" || email == "" || subject == "" || message == "" {
      return ContactResult(form, Some(FillAllFields), None, None);
    }
    var emailOk := MatchesEmailPattern(email);
    if !emailOk {
      return ContactResult(form, Some(InvalidEmail), None, None);
    }
    var url := Config.GetApiUrl(apiBase, ContactPath);
    if url.None? {
      return ContactResult(form, Some(NotConfigured), None, None);
    }
    var request := ContactRequest(url.value, name, email, subject, message);
    if delivered {
      r := ContactResult(ContactForm("", "", "", ""), None, Some(Sent), Some(request));
    } else {
      r := ContactResult(form, Some(SendFailed), None, Some(request));
    }
  }
}

=== FILE: json.dfy ===
/** Decoded JSON values, as produced by `JSON.parse` in the browser and
    `json.loads` on the server.  Numbers are integers: no modelled rule looks
    at a fractional part.  An object keeps its members in document order, as
    both JavaScript objects and Python dicts do. */
module Json {
  import opened Outcomes

  datatype Json =
    | JNull
    | JBool(b: bool)
    | JNumber(n: int)
    | JString(s: string)
    | JArray(items: seq<Json>)
    | JObject(fields: seq<(string, Json)>)

  /** A parser: `None` stands for "the parser threw" (`SyntaxError` /
      `json.JSONDecodeError`).  The parsers themselves are not modelled; every
      rule below is stated for an arbitrary one. */
  type Parser = string -> Option<Json>

  /** Value bound to `key`; with a repeated key the last binding wins, which is
      what both parsers keep. */
  function Member(fields: seq<(string, Json)>, key: string): (r: Option<Json>)
    ensures r.Some? <==> exists i | 0 <= i < |fields| :: fields[i].0 == key
    ensures r.Some? ==> exists i | 0 <= i < |fields| :: fields[i] == (key, r.value)
    decreases |fields|
  {
    if |fields| == 0 then None
    else if fields[|fields| - 1].0 == key then Some(fields[|fields| - 1].1)
    else Member(fields[..|fields| - 1], key)
  }

  /** Names of an object's members, in document order, repeats included. */
  function Keys(fields: seq<(string, Json)>): (r: seq<string>)
    ensures |r| == |fields|
    ensures forall i | 0 <= i < |r| :: r[i] == fields[i].0
  {
    seq(|fields|, i requires 0 <= i < |fields| => fields[i].0)
  }

  /** Each string as a JSON string value. */
  function JStrings(xs: seq<string>): (r: seq<Json>)
    ensures |r| == |xs| && forall i | 0 <= i < |r| :: r[i] == JString(xs[i])
  {
    seq(|xs|, i requires 0 <= i < |xs| => JString(xs[i]))
  }

  /** JavaScript truthiness of a decoded value. */
  predicate JsTruthy(v: Json) {
    match v
    case JNull => false
    case JBool(b) => b
    case JNumber(n) => n != 0
    case JString(s) => |s| > 0
    case _ => true
  }

  /** Python truthiness of a decoded value: `None`, `False`, zero and empty
      strings, lists and dicts are false. */
  predicate PyTruthy(v: Json) {
    match v
    case JNull => false
    case JBool(b) => b
    case JNumber(n) => n != 0
    case JString(s) => |s| > 0
    case JArray(items) => |items| > 0
    case JObject(fields) => |fields| > 0
  }

  /** JavaScript property read `v.key`: only objects have members. */
  function JsProperty(v: Json, key: string): Option<Json> {
    if v.JObject? then Member(v.fields, key) else None
  }

  /** `v.key` when it is a string (`typeof v.key === "string"`). */
  function StringProperty(v: Json, key: string): Option<string> {
    match JsProperty(v, key)
    case Some(JString(s)) => Some(s)
    case _ => None
  }
}

=== FILE: landing.dfy ===
/** Values the landing page (frontend/client/pages/Index.tsx) derives from
    the hero and about payloads: which hero entry is shown, its picture, the
    about heading split into a plain part and a highlighted last word, and
    the hiring address. */
module Landing {
  import opened Outcomes
  import opened Text
  import opened Seqs

  const DefaultAboutTitle: string := "About Me"
  const DefaultHireEmail: string := "salma.chiboub@gmail.com"
  const DefaultHeroImage: string := "/caracter.png"

  datatype HeroItem = HeroItem(id: int, image: Option<string>, isActive: bool)

  /** The hero entry shown: the first active entry, else the first entry,
      and none for an empty list or a payload that is not an array (`None`). */
  function PickHero(data: Option<seq<HeroItem>>): (r: Option<HeroItem>)
    ensures r.None? <==> data.None? || |data.value| == 0
    ensures r.Some? && r.value.isActive ==>
      exists k | 0 <= k < |data.value| :: data.value[k] == r.value && forall m | 0 <= m < k :: !data.value[m].isActive
    ensures r.Some? && !r.value.isActive ==>
      r.value == data.value[0] && forall m | 0 <= m < |data.value| :: !data.value[m].isActive
  {
    if data.None? || |data.value| == 0 then None
    else
      var a := FindIndex(data.value, (h: HeroItem) => h.isActive);
      if a.Some? then Some(data.value[a.value]) else Some(data.value[0])
  }

  /** A text field used only when it is non-blank, and then trimmed;
      otherwise the fallback (`v && v.trim() ? v.trim() : fallback`). */
  function TrimmedOr(v: Option<string>, fallback: string): (r: string)
    ensures v.Some? && JsTrim(v.value) != "" ==> r == JsTrim(v.value)
    ensures v.None? || AllSpace(v.value, IsJsSpace) ==> r == fallback
  {
    if v.Some? then
      TrimEmptyIff(v.value, IsJsSpace);
      if JsTrim(v.value) != "" then JsTrim(v.value) else fallback
    else fallback
  }

  /** The about heading: the trimmed title, or "About Me" when it is absent
      or blank.  Either way it is non-empty and has no surrounding spaces. */
  function AboutTitle(title: Option<string>): (r: string)
    ensures r != "" && IsTrimmed(r, IsJsSpace)
    ensures title.Some? && JsTrim(title.value) != "" ==> r == JsTrim(title.value)
    ensures title.None? || AllSpace(title.value, IsJsSpace) ==> r == DefaultAboutTitle
  {
    TrimmedOr(title, DefaultAboutTitle)
  }

  /** The `mailto:` address: the trimmed hiring email, or the owner's. */
  function HireEmail(email: Option<string>): (r: string)
    ensures r != "" && IsTrimmed(r, IsJsSpace)
    ensures email.Some? && JsTrim(email.value) != "" ==> r == JsTrim(email.value)
    ensures email.None? || AllSpace(email.value, IsJsSpace) ==> r == DefaultHireEmail
  {
    TrimmedOr(email, DefaultHireEmail)
  }

  /** The heading cut at its spaces: the last word is highlighted (empty
      when the heading ends in a space) and the words before it are joined
      back with single spaces. */
  function SplitHeading(title: string): (r: (string, string))
  {
    var words := Split(title, ' ');
    (Join(words[..|words| - 1], ' '), words[|words| - 1])
  }

  /** The two rendered parts give back the heading: the last word is
      everything after the last space, the first part everything before it;
      without a space the whole heading is the highlighted word. */
  lemma {:induction false} SplitHeadingRejoins(title: string)
    ensures var (first, last) := SplitHeading(title);
      && ' ' !in last
      && (' ' !in title ==> first == "" && last == title)
      && (' ' in title ==> first + " " + last == title)
  {
    var words := Split(title, ' ');
    JoinSplit(title, ' ');
    if |words| == 1 {
      assert Join(words, ' ') == words[0];
    } else {
      JoinSnoc(words[..|words| - 1], words[|words| - 1], ' ');
      assert words[..|words| - 1] + [words[|words| - 1]] == words;
      assert ' ' in title by {
        assert title == Join(words[..|words| - 1], ' ') + [' '] + words[|words| - 1];
        assert title[|Join(words[..|words| - 1], ' ')|] == ' ';
      }
    }
  }

  lemma {:induction false} JoinSnoc(ws: seq<string>, w: string, c: char)
    requires |ws| > 0
    ensures Join(ws + [w], c) == Join(ws, c) + [c] + w
    decreases |ws|
  {
    if |ws| == 1 {
      assert (ws + [w])[1..] == [w];
    } else {
      assert (ws + [w])[1..] == ws[1..] + [w];
      JoinSnoc(ws[1..], w, c);
    }
  }

  /** For the heading actually shown, the highlighted last word is never
      empty, since the heading does not end in a space. */
  lemma AboutHeadingLastWord(title: Option<string>)
    ensures var (first, last) := SplitHeading(AboutTitle(title)); last != ""
  {
    var t := AboutTitle(title);
    assert t[|t| - 1] != ' ';
    LastWordOfUnpadded(t);
  }

  /** A heading that does not end in a space has a non-empty last word. */
  lemma LastWordOfUnpadded(t: string)
    requires |t| > 0 && t[|t| - 1] != ' '
    ensures SplitHeading(t).1 != ""
  {
    SplitHeadingRejoins(t);
    var (first, last) := SplitHeading(t);
    if ' ' in t {
      assert first + " " + last == t;
      assert t[|t| - 1] == (if last == "" then ' ' else last[|last| - 1]);
    }
  }

  /** The hero picture: the entry's image when it is non-blank (untrimmed),
      else the bundled character illustration. */
  function HeroImage(hero: Option<HeroItem>): (r: string)
    ensures hero.Some? && hero.value.image.Some? && JsTrim(hero.value.image.value) != "" ==> r == hero.value.image.value
    ensures hero.None? || hero.value.image.None? || AllSpace(hero.value.image.value, IsJsSpace) ==> r == DefaultHeroImage
  {
    if hero.Some? && hero.value.image.Some? then
      TrimEmptyIff(hero.value.image.value, IsJsSpace);
      if JsTrim(hero.value.image.value) != "" then hero.value.image.value else DefaultHeroImage
    else DefaultHeroImage
  }
}

=== FILE: outcomes.dfy ===
/** Optional values and results with an error, used wherever the modelled code
    returns `null`/`undefined`, raises, or reports a failure. */
module Outcomes {

  datatype Option<+T> = None | Some(value: T) {

    /** The held value, or `default` when there is none (`x ?? default`). */
    function GetOr(default: T): T {
      match this
      case Some(v) => v
      case None => default
    }
  }

  datatype Result<+T, +E> = Ok(value: T) | Err(error: E)
}

=== FILE: project_view.dfy ===
/** The public project page (frontend/client/pages/ProjectDetail.tsx): the
    skill list read from whatever shape `skills_list` arrives in, the image
    URL cache buster, the gallery order and main image, the links and the
    "other projects" strip. */
module ProjectView {
  import opened Outcomes
  import opened Json
  import opened Text
  import opened Seqs
  import opened StableSort

  const PlaceholderImage: string := "/project-placeholder.svg"
  const SuggestionLimit: nat := 4
  const LoadError: string := "Failed to load project."

  /* ---------------- skills ---------------- */

  predicate NonBlank(s: string) { s != "" }

  /** Every piece trimmed, in order. */
  function TrimAll(pieces: seq<string>): (r: seq<string>)
    ensures |r| == |pieces|
    ensures forall i | 0 <= i < |r| :: r[i] == JsTrim(pieces[i])
  {
    seq(|pieces|, i requires 0 <= i < |pieces| => JsTrim(pieces[i]))
  }

  /** The list `parseSkills` iterates over.  An array is taken as it is; a
      string is trimmed and handed to the parser: an array result is used, any
      other result gives nothing, and a parse failure falls back to splitting
      on commas.  Anything else gives nothing. */
  function SkillItems(raw: Option<Json>, parse: Parser): (r: seq<Json>)
    ensures raw.Some? && raw.value.JArray? ==> r == raw.value.items
    ensures raw.None? || !(raw.value.JArray? || raw.value.JString?) ==> r == []
    ensures raw.Some? && raw.value.JString? && parse(JsTrim(raw.value.s)).Some? && !parse(JsTrim(raw.value.s)).value.JArray? ==> r == []
    ensures raw.Some? && raw.value.JString? && parse(JsTrim(raw.value.s)).None? ==>
      forall i | 0 <= i < |r| :: r[i].JString? && r[i].s != "" && ',' !in r[i].s
  {
    match raw
    case Some(JArray(xs)) => xs
    case Some(JString(s)) =>
      var t := JsTrim(s);
      (match parse(t)
       case Some(JArray(xs)) => xs
       case Some(_) => []
       case None => CsvItems(t))
    case _ => []
  }

  /** The comma fallback: the pieces between commas, trimmed, without the
      blank ones, as a list of strings. */
  function CsvItems(t: string): (r: seq<Json>)
    ensures forall i | 0 <= i < |r| :: r[i].JString? && r[i].s != "" && ',' !in r[i].s
  {
    var pieces := Split(t, ',');
    var kept := Filter(TrimAll(pieces), NonBlank);
    forall i | 0 <= i < |kept| ensures ',' !in kept[i] {
      var j :| 0 <= j < |pieces| && TrimAll(pieces)[j] == kept[i];
      TrimKeepsOut(pieces[j], IsJsSpace, ',');
    }
    JStrings(kept)
  }

  /** The name an item contributes before the final filter.  A string
      contributes itself trimmed when that is non-empty.  An object contributes
      its `name` when that is a string (even an empty one: the nested
      reference is then not consulted), else its `skill_reference.name` when
      that is a string; a non-empty name is contributed trimmed. */
  function ItemName(it: Json): (r: Option<string>)
    ensures r.Some? ==> IsTrimmed(r.value, IsJsSpace)
    ensures it.JString? ==> (r.Some? <==> JsTrim(it.s) != "") && (r.Some? ==> r.value == JsTrim(it.s))
    ensures !(it.JString? || it.JObject?) ==> r.None?
  {
    match it
    case JString(v) => if JsTrim(v) != "" then Some(JsTrim(v)) else None
    case JObject(fields) =>
      var name := ObjectName(fields);
      if name != "" then Some(JsTrim(name)) else None
    case _ => None
  }

  /** The raw name of an object item: its own `name` when that is a string
      (even a blank one), else the `name` of its `skill_reference` when that
      is a string, else the empty string. */
  function ObjectName(fields: seq<(string, Json)>): (r: string)
    ensures StringProperty(JObject(fields), "name").Some? ==> r == StringProperty(JObject(fields), "name").value
    ensures StringProperty(JObject(fields), "name").None? ==> r == ReferenceName(fields).GetOr("")
  {
    var own := Member(fields, "name");
    if own.Some? && own.value.JString? then own.value.s
    else
      var ref := Member(fields, "skill_reference");
      if ref.Some? && ref.value.JObject? then
        var inner := Member(ref.value.fields, "name");
        if inner.Some? && inner.value.JString? then inner.value.s else ""
      else ""
  }

  /** `skill_reference.name` when the reference is an object whose `name`
      is a string. */
  function ReferenceName(fields: seq<(string, Json)>): (r: Option<string>)
    ensures r.Some? <==> Member(fields, "skill_reference").Some? && StringProperty(Member(fields, "skill_reference").value, "name").Some?
    ensures r.Some? ==> r == StringProperty(Member(fields, "skill_reference").value, "name")
  {
    match Member(fields, "skill_reference")
    case Some(ref) => StringProperty(ref, "name")
    case None => None
  }

  /** An object item is named by its own string `name`, even a blank one;
      without one, by the string `name` of its `skill_reference`; without
      either it contributes nothing.  A non-empty name is contributed
      trimmed. */
  lemma ObjectItemName(fields: seq<(string, Json)>)
    ensures var own := StringProperty(JObject(fields), "name");
      own.Some? ==> ItemName(JObject(fields)) == (if own.value != "" then Some(JsTrim(own.value)) else None)
    ensures var own := StringProperty(JObject(fields), "name"); var ref := ReferenceName(fields);
      own.None? && ref.Some? ==> ItemName(JObject(fields)) == (if ref.value != "" then Some(JsTrim(ref.value)) else None)
    ensures StringProperty(JObject(fields), "name").None? && ReferenceName(fields).None? ==> ItemName(JObject(fields)).None?
  {
  }

  /** The `names` array before de-duplication. */
  function Names(items: seq<Json>): (r: seq<string>)
    ensures forall i | 0 <= i < |r| :: IsTrimmed(r[i], IsJsSpace)
    ensures forall x :: x in r <==> exists it | it in items :: ItemName(it) == Some(x)
    decreases |items|
  {
    if |items| == 0 then []
    else
      var h := ItemName(items[0]);
      var rest := Names(items[1..]);
      var head := if h.Some? then [h.value] else [];
      NamesStep(items, h, head, rest);
      AllConcat(head, rest, (n: string) => IsTrimmed(n, IsJsSpace));
      head + rest
  }

  lemma NamesStep(items: seq<Json>, h: Option<string>, head: seq<string>, rest: seq<string>)
    requires |items| > 0 && h == ItemName(items[0])
    requires head == if h.Some? then [h.value] else []
    requires forall x :: x in rest <==> exists it | it in items[1..] :: ItemName(it) == Some(x)
    ensures forall x :: x in head + rest <==> exists it | it in items :: ItemName(it) == Some(x)
  {
    assert forall it | it in items :: it == items[0] || it in items[1..];
    forall x ensures x in head + rest <==> exists it | it in items :: ItemName(it) == Some(x) {
      if x in head + rest {
        if x in head {
          assert ItemName(items[0]) == Some(x);
        } else {
          var it :| it in items[1..] && ItemName(it) == Some(x);
          assert it in items;
        }
      }
    }
  }

  /** The contributed names without the blank ones. */
  function KeptNames(items: seq<Json>): (r: seq<string>)
    ensures forall i | 0 <= i < |r| :: r[i] != "" && IsTrimmed(r[i], IsJsSpace)
    ensures forall x :: x in r <==> x != "" && exists it | it in items :: ItemName(it) == Some(x)
  {
    var names := Names(items);
    var r := Filter(names, NonBlank);
    forall i | 0 <= i < |r| ensures IsTrimmed(r[i], IsJsSpace) {
      var m :| 0 <= m < |names| && names[m] == r[i];
    }
    r
  }

  /** The skill names shown: every contributed name once, non-empty and
      trimmed, in order of first appearance. */
  function ParseSkills(raw: Option<Json>, parse: Parser): (r: seq<string>)
    ensures Distinct(r)
    ensures forall i | 0 <= i < |r| :: r[i] != "" && IsTrimmed(r[i], IsJsSpace)
    ensures forall x :: x in r <==> x in KeptNames(SkillItems(raw, parse))
    ensures forall i, j | 0 <= i < j < |r| ::
      FirstIndex(KeptNames(SkillItems(raw, parse)), r[i]) < FirstIndex(KeptNames(SkillItems(raw, parse)), r[j])
  {
    var items := SkillItems(raw, parse);
    var kept := KeptNames(items);
    DedupSpec(kept);
    var r := Dedup(kept);
    CleanNamesKept(kept, r);
    r
  }

  /** Names drawn from a list of non-empty trimmed names are non-empty and
      trimmed too. */
  lemma CleanNamesKept(kept: seq<string>, r: seq<string>)
    requires forall i | 0 <= i < |kept| :: kept[i] != "" && IsTrimmed(kept[i], IsJsSpace)
    requires forall x | x in r :: x in kept
    ensures forall i | 0 <= i < |r| :: r[i] != "" && IsTrimmed(r[i], IsJsSpace)
  {
    forall i | 0 <= i < |r| ensures r[i] != "" && IsTrimmed(r[i], IsJsSpace) {
      assert r[i] in r;
      var j :| 0 <= j < |kept| && kept[j] == r[i];
    }
  }

  /** A skill list sent as a JSON string reads exactly like the array it
      encodes. */
  lemma StringifiedSkills(s: string, xs: seq<Json>, parse: Parser)
    requires parse(JsTrim(s)) == Some(JArray(xs))
    ensures ParseSkills(Some(JString(s)), parse) == ParseSkills(Some(JArray(xs)), parse)
  {
  }

  /** For a plain list of strings the contributed names are the trimmed,
      non-blank strings. */
  lemma {:induction false} StringListNames(xs: seq<string>)
    ensures KeptNames(JStrings(xs)) == Filter(TrimAll(xs), NonBlank)
  {
    StringNames(xs);
    FilterAll(Filter(TrimAll(xs), NonBlank), NonBlank);
  }

  lemma {:induction false} StringNames(xs: seq<string>)
    ensures Names(JStrings(xs)) == Filter(TrimAll(xs), NonBlank)
    decreases |xs|
  {
    if |xs| > 0 {
      var items, trimmed := JStrings(xs), TrimAll(xs);
      StringNames(xs[1..]);
      assert items[1..] == JStrings(xs[1..]);
      assert trimmed[1..] == TrimAll(xs[1..]);
      var head := if trimmed[0] != "" then [trimmed[0]] else [];
      assert ItemName(items[0]) == (if trimmed[0] != "" then Some(trimmed[0]) else None);
      assert Names(items) == head + Names(items[1..]);
      assert Filter(trimmed, NonBlank) == head + Filter(trimmed[1..], NonBlank);
    }
  }

  /** The comma fallback contributes the same names as the list of its
      comma-separated pieces would. */
  lemma CsvKeptNames(t: string)
    ensures KeptNames(CsvItems(t)) == KeptNames(JStrings(Split(t, ',')))
  {
    var pieces := Split(t, ',');
    var kept := Filter(TrimAll(pieces), NonBlank);
    assert CsvItems(t) == JStrings(kept);
    StringListNames(pieces);
    StringListNames(kept);
    TrimmedPiecesStay(pieces);
    FilterAll(kept, NonBlank);
  }

  /** The kept pieces are already trimmed, so trimming them again changes nothing. */
  lemma TrimmedPiecesStay(pieces: seq<string>)
    ensures var kept := Filter(TrimAll(pieces), NonBlank); TrimAll(kept) == kept
  {
    var kept := Filter(TrimAll(pieces), NonBlank);
    forall i | 0 <= i < |kept| ensures TrimAll(kept)[i] == kept[i] {
      assert kept[i] in TrimAll(pieces);
      var j :| 0 <= j < |pieces| && TrimAll(pieces)[j] == kept[i];
      TrimIdempotent(pieces[j], IsJsSpace);
    }
  }

  /** When the string does not parse, the comma fallback reads exactly like
      the list of its comma-separated pieces. */
  lemma CsvSameAsList(s: string, parse: Parser)
    requires parse(JsTrim(s)) == None
    ensures ParseSkills(Some(JString(s)), parse) == ParseSkills(Some(JArray(JStrings(Split(JsTrim(s), ',')))), parse)
  {
    var t := JsTrim(s);
    var fromString := SkillItems(Some(JString(s)), parse);
    var fromList := SkillItems(Some(JArray(JStrings(Split(t, ',')))), parse);
    assert fromString == CsvItems(t);
    assert fromList == JStrings(Split(t, ','));
    CsvKeptNames(t);
    SkillsFromKeptNames(Some(JString(s)), parse);
    SkillsFromKeptNames(Some(JArray(JStrings(Split(t, ',')))), parse);
  }

  lemma SkillsFromKeptNames(raw: Option<Json>, parse: Parser)
    ensures ParseSkills(raw, parse) == Dedup(KeptNames(SkillItems(raw, parse)))
  {
  }

  /* ---------------- cache buster ---------------- */

  /** The part of a URL before its first `?`. */
  function PathPart(u: string): (r: string)
    ensures |r| <= |u| && r == u[..|r|] && '?' !in r
    ensures |r| < |u| ==> u[|r|] == '?'
    decreases |u|
  {
    if |u| == 0 || u[0] == '?' then ""
    else [u[0]] + PathPart(u[1..])
  }

  /** The string fallback of `addCacheBuster`, used when the URL constructor
      throws: a `v` parameter appended with `&` when the URL already has a
      query and with `?` otherwise. */
  function AddCacheBusterFallback(u: string, buildId: string): (r: string)
    ensures |r| == |u| + 3 + |buildId|
    ensures r[..|u|] == u && r[|u| + 1..] == "v=" + buildId
    ensures '?' in r
    ensures r[|u|] == '?' <==> '?' !in u
    ensures r[|u|] == '&' <==> '?' in u
  {
    var sep := if '?' in u then '&' else '?';
    var r := u + [sep] + "v=" + buildId;
    assert r[|u|] == sep;
    r
  }

  /** The cache buster never touches the path: the text before the first `?`
      is the same before and after. */
  lemma {:induction false} CacheBusterKeepsPath(u: string, buildId: string)
    ensures PathPart(AddCacheBusterFallback(u, buildId)) == PathPart(u)
  {
    var r := AddCacheBusterFallback(u, buildId);
    PathPrefix(u, r[|u|..]);
    assert r == u + r[|u|..];
    if '?' !in u {
      PathWithoutQuery(u);
      assert r[|u|..][0] == '?';
      assert PathPart(r[|u|..]) == "";
    }
  }

  lemma {:induction false} PathWithoutQuery(u: string)
    requires '?' !in u
    ensures PathPart(u) == u
    decreases |u|
  {
    if |u| > 0 {
      assert u[1..] == u[1..] && forall k | 0 <= k < |u[1..]| :: u[1..][k] == u[k + 1];
      PathWithoutQuery(u[1..]);
      assert [u[0]] + u[1..] == u;
    }
  }

  /** Appending to a URL leaves the path alone once a `?` has been seen;
      before that, the path continues into the appended text. */
  lemma {:induction false} PathPrefix(u: string, w: string)
    ensures '?' in u ==> PathPart(u + w) == PathPart(u)
    ensures '?' !in u ==> PathPart(u + w) == u + PathPart(w)
    decreases |u|
  {
    if |u| == 0 {
      assert u + w == w;
    } else {
      assert (u + w)[1..] == u[1..] + w;
      PathPrefix(u[1..], w);
      if u[0] != '?' {
        assert '?' in u <==> '?' in u[1..];
        assert [u[0]] + u[1..] == u;
      }
    }
  }

  /** Busting a busted URL appends a second parameter with `&`. */
  lemma BustTwice(u: string, a: string, b: string)
    ensures var once := AddCacheBusterFallback(u, a);
      AddCacheBusterFallback(once, b) == once + "&v=" + b
  {
    var once := AddCacheBusterFallback(u, a);
    assert '?' in once;
  }

  /* ---------------- gallery ---------------- */

  datatype Media = Media(id: int, image: Option<string>, order: Option<int>)

  /** The sort key of a picture: its `order`, 0 when it has none. */
  function MediaKey(m: Media): int { m.order.GetOr(0) }

  /** The gallery order: a stable ascending sort on `order`, a missing order
      counting as 0. */
  function SortMedia(media: seq<Media>): (r: seq<Media>)
    ensures multiset(r) == multiset(media)
    ensures forall i, j | 0 <= i < j < |r| :: r[i].order.GetOr(0) <= r[j].order.GetOr(0)
  {
    SortBy(media, MediaKey)
  }

  /** Items with equal order keep their relative position; and that, with the
      ascending order, determines the gallery completely. */
  lemma MediaOrderCharacterised(media: seq<Media>, g: seq<Media>)
    ensures forall k :: WithKey(SortMedia(media), MediaKey, k) == WithKey(media, MediaKey, k)
    ensures SortedBy(g, MediaKey) && (forall k :: WithKey(g, MediaKey, k) == WithKey(media, MediaKey, k)) ==> g == SortMedia(media)
  {
    forall k ensures WithKey(SortMedia(media), MediaKey, k) == WithKey(media, MediaKey, k) {
      SortStable(media, MediaKey, k);
    }
    if SortedBy(g, MediaKey) && (forall k :: WithKey(g, MediaKey, k) == WithKey(media, MediaKey, k)) {
      SortCharacterised(media, g, MediaKey);
    }
  }

  /** The main picture: the selected picture when it has a non-empty image,
      otherwise the placeholder. */
  function MainImage(media: seq<Media>, activeIndex: int): (r: string)
    ensures r != ""
    ensures 0 <= activeIndex < |media| && media[activeIndex].image.Some? && media[activeIndex].image.value != "" ==> r == media[activeIndex].image.value
    ensures 0 <= activeIndex < |media| && media[activeIndex].image.GetOr("") == "" ==> r == PlaceholderImage
    ensures !(0 <= activeIndex < |media|) ==> r == PlaceholderImage
  {
    if 0 <= activeIndex < |media| && media[activeIndex].image.GetOr("") != "" then media[activeIndex].image.value
    else PlaceholderImage
  }

  /** The thumbnail column: the gallery, or one placeholder tile when it is empty. */
  function Thumbnails(media: seq<Media>): (r: seq<Media>)
    ensures |r| >= 1
    ensures |media| > 0 ==> r == media
    ensures |media| == 0 ==> r[0].image == Some(PlaceholderImage)
  {
    if |media| > 0 then media else [Media(-1, Some(PlaceholderImage), Some(0))]
  }

  /** Clicking thumbnail `i` shows that tile's picture as the main image
      (the placeholder for a tile without one). */
  lemma ThumbnailShowsItsImage(media: seq<Media>, i: nat)
    requires i < |Thumbnails(media)|
    ensures var t := Thumbnails(media)[i];
      MainImage(media, i) == if t.image.Some? && t.image.value != "" then t.image.value else PlaceholderImage
  {
  }

  /* ---------------- loading ---------------- */

  datatype ProjectRecord = ProjectRecord(id: int, media: seq<Media>, skillsList: Option<Json>)

  /** The record passed along with the navigation is the one the route asks
      for, comparing the rendered id with the route parameter. */
  predicate ShowsRoute(project: Option<ProjectRecord>, routeId: string) {
    project.Some? && IntToString(project.value.id) == routeId
  }

  /** The fetch on entering the page runs only with a route id and when the
      record at hand is not already the requested one. */
  function NeedsFetch(routeId: Option<string>, project: Option<ProjectRecord>): (r: bool)
    ensures routeId.None? || routeId.value == "" ==> !r
    ensures routeId.Some? && routeId.value != "" ==> (r <==> !ShowsRoute(project, routeId.value))
  {
    routeId.Some? && routeId.value != "" && !ShowsRoute(project, routeId.value)
  }

  /** Route state for a record with id `n` suppresses the fetch for route
      `n` and for no other route. */
  lemma PassedRecordSkipsFetch(p: ProjectRecord, routeId: string)
    requires routeId != ""
    ensures !NeedsFetch(Some(routeId), Some(p)) <==> routeId == IntToString(p.id)
  {
  }

  datatype PageState = PageState(project: Option<ProjectRecord>, error: Option<string>, links: seq<Json>)

  /** What one load leaves behind.  `main` is the project response (`None` for
      a failed fetch or a non-OK status); `links` the links response, only
      requested after the project arrived.  A failed project fetch keeps the
      record shown and sets the error; a failed or non-array links response
      empties the links. */
  function AfterLoad(s: PageState, main: Option<ProjectRecord>, links: Option<Json>): (r: PageState)
    ensures main.None? ==> r == s.(error := Some(LoadError))
    ensures main.Some? ==> r.project == main && r.error.None?
    ensures main.Some? ==> (r.links != [] ==> links.Some? && links.value.JArray? && r.links == links.value.items)
    ensures main.Some? && links.Some? && links.value.JArray? ==> r.links == links.value.items
  {
    if main.None? then s.(error := Some(LoadError))
    else
      var l := if links.Some? && links.value.JArray? then links.value.items else [];
      PageState(main, None, l)
  }

  /* ---------------- other projects ---------------- */

  /** A list reply: a plain array, else the `results` array of a paginated
      envelope, else nothing; a failed fetch gives nothing. */
  function ListPayload(data: Option<Json>): (r: seq<Json>)
    ensures data.Some? && data.value.JArray? ==> r == data.value.items
    ensures data.None? || data.value.JNull? || data.value.JString? || data.value.JNumber? || data.value.JBool? ==> r == []
    ensures data.Some? && data.value.JObject? && JsProperty(data.value, "results").Some? && JsProperty(data.value, "results").value.JArray? ==>
      r == JsProperty(data.value, "results").value.items
    ensures data.Some? && data.value.JObject? && !(JsProperty(data.value, "results").Some? && JsProperty(data.value, "results").value.JArray?) ==>
      r == []
  {
    match data
    case Some(JArray(xs)) => xs
    case Some(JObject(fields)) =>
      (match Member(fields, "results")
       case Some(JArray(xs)) => xs
       case _ => [])
    case _ => []
  }

  /** The plain and the paginated shapes of the same list are read alike,
      wherever `results` sits among the envelope's other fields (a page
      reply lists `count`, `next` and `previous` before it). */
  lemma PaginatedSameAsPlain(fields: seq<(string, Json)>, xs: seq<Json>)
    requires Member(fields, "results") == Some(JArray(xs))
    ensures ListPayload(Some(JObject(fields))) == ListPayload(Some(JArray(xs)))
  {
  }

  /** The projects other than the one whose `String(id)` is the route
      parameter. */
  function OtherThan(routeId: string): ProjectRecord -> bool {
    (p: ProjectRecord) => IntToString(p.id) != routeId
  }

  /** The projects whose id is not `n`. */
  function WithoutId(n: int): ProjectRecord -> bool {
    (p: ProjectRecord) => p.id != n
  }

  /** The "more projects" strip: the first four projects of the list whose
      rendered id differs from the route parameter, in list order. */
  function Suggestions(others: seq<ProjectRecord>, routeId: string): (r: seq<ProjectRecord>)
    ensures |r| <= SuggestionLimit
    ensures forall i | 0 <= i < |r| :: IntToString(r[i].id) != routeId
    ensures IsSubseq(r, others)
    ensures var f := Filter(others, OtherThan(routeId));
      |r| == (if SuggestionLimit < |f| then SuggestionLimit else |f|) && r == f[..|r|]
  {
    FirstMatching(others, OtherThan(routeId), SuggestionLimit)
  }

  /** On the page of project `n` the strip never shows project `n`, and it
      shows the first four of the other projects in list order (all of them
      when there are at most four). */
  lemma {:induction false} SuggestionsOmitCurrent(others: seq<ProjectRecord>, n: int)
    ensures forall i | 0 <= i < |Suggestions(others, IntToString(n))| :: Suggestions(others, IntToString(n))[i].id != n
    ensures Suggestions(others, IntToString(n)) == Take(Filter(others, WithoutId(n)), SuggestionLimit)
    ensures var rest := Filter(others, WithoutId(n));
      |rest| <= SuggestionLimit ==> Suggestions(others, IntToString(n)) == rest
  {
    var byText := OtherThan(IntToString(n));
    var byId := WithoutId(n);
    forall i | 0 <= i < |others| ensures byText(others[i]) == byId(others[i]) {
      if IntToString(others[i].id) == IntToString(n) {
        IntToStringInjective(others[i].id, n);
      }
    }
    FilterCongruent(others, byText, byId);
  }
}

=== FILE: project_write.dfy ===
/** The project write rules of the API (backend/projects/serializers.py):
    the three-image limit, reading the skill list from a request that did
    not carry it as a validated field, finding skill references by
    case-insensitive name, and how `create` and `update` store skills and
    media.  The database is an in-memory catalogue of skill reference names
    (a reference's id is its position) and one project row. */
module ProjectWrite {
  import opened Outcomes
  import opened Json
  import opened Text
  import opened Seqs
  import opened Api

  const MaxImages: nat := 3
  const TooManyImages: string := "You can upload at most 3 images per project."

  /** The body of a request: a form (a multi-valued mapping with `getlist`),
      or a decoded JSON object (a plain dict, where `getlist` raises). */
  datatype RequestData =
    | FormData(pairs: seq<(string, string)>)
    | JsonData(fields: seq<(string, Json)>)

  datatype Request = Request(data: RequestData, files: seq<(string, Upload)>)

  /** The fields DRF validated before `create`/`update` run. */
  datatype Validated = Validated(fields: map<string, string>, skills: Option<seq<string>>, mediaFiles: Option<seq<Upload>>)

  datatype MediaRow = MediaRow(image: Upload, order: nat)

  /** A project row with its skill links (reference ids) and media rows. */
  datatype ProjectRow = ProjectRow(fields: map<string, string>, skills: set<nat>, media: seq<MediaRow>)

  /* ---------------- helpers for the request mappings ---------------- */

  /** `getlist(key)`: every value sent under `key`, in order. */
  function GetList<V>(pairs: seq<(string, V)>, key: string): (r: seq<V>)
    ensures |r| <= |pairs|
    ensures |r| == 0 <==> forall i | 0 <= i < |pairs| :: pairs[i].0 != key
    decreases |pairs|
  {
    if |pairs| == 0 then []
    else (if pairs[0].0 == key then [pairs[0].1] else []) + GetList(pairs[1..], key)
  }

  /** Holds of the pairs sent under `key`. */
  function KeyIs<V>(key: string): ((string, V)) -> bool {
    (kv: (string, V)) => kv.0 == key
  }

  /** The values of a list of pairs, in order. */
  function Values<V>(pairs: seq<(string, V)>): (r: seq<V>)
    ensures |r| == |pairs| && forall i | 0 <= i < |r| :: r[i] == pairs[i].1
  {
    seq(|pairs|, i requires 0 <= i < |pairs| => pairs[i].1)
  }

  /** `getlist(key)` is the values of the pairs sent under `key`, in the
      order they were sent. */
  lemma {:induction false} GetListInOrder<V>(pairs: seq<(string, V)>, key: string)
    ensures GetList(pairs, key) == Values(Filter(pairs, KeyIs(key)))
    decreases |pairs|
  {
    if |pairs| > 0 {
      GetListInOrder(pairs[1..], key);
      var rest := Filter(pairs[1..], KeyIs(key));
      if pairs[0].0 == key {
        assert KeyIs(key)(pairs[0]);
        assert Filter(pairs, KeyIs(key)) == [pairs[0]] + rest;
        ValuesConcat([pairs[0]], rest);
      } else {
        assert !KeyIs(key)(pairs[0]);
        assert Filter(pairs, KeyIs(key)) == rest;
      }
    }
  }

  lemma ValuesConcat<V>(a: seq<(string, V)>, b: seq<(string, V)>)
    ensures Values(a + b) == Values(a) + Values(b)
  {
  }

  /** Python `a or b` on lists. */
  function OrList<V>(a: seq<V>, b: seq<V>): (r: seq<V>)
    ensures |a| > 0 ==> r == a
    ensures |a| == 0 ==> r == b
  {
    if |a| > 0 then a else b
  }

  /* ---------------- image limit ---------------- */

  /** `validate_media_files`: more than three files are refused; otherwise
      the list passes unchanged. */
  function ValidateMediaFiles(files: seq<Upload>): (r: Result<seq<Upload>, WriteError>)
    ensures r.Ok? <==> |files| <= MaxImages
    ensures r.Ok? ==> r.value == files
    ensures r.Err? ==> r.error == Validation(TooManyImages)
  {
    if |files| > MaxImages then Err(Validation(TooManyImages)) else Ok(files)
  }

  /** Files taken from the upload part of the request:
      `FILES.getlist('media_files') or FILES.getlist('media_files[]')`. */
  function RequestFiles(req: Request): (r: seq<Upload>)
    ensures |GetList(req.files, "media_files")| > 0 ==> r == GetList(req.files, "media_files")
    ensures |GetList(req.files, "media_files")| == 0 ==> r == GetList(req.files, "media_files[]")
  {
    OrList(GetList(req.files, "media_files"), GetList(req.files, "media_files[]"))
  }

  /** Media rows for an upload list: one per file, in upload order, with
      `order` equal to the upload position. */
  function MediaRows(files: seq<Upload>): (r: seq<MediaRow>)
    ensures |r| == |files|
    ensures forall i | 0 <= i < |r| :: r[i].image == files[i] && r[i].order == i
  {
    seq(|files|, i requires 0 <= i < |files| => MediaRow(files[i], i))
  }

  /* ---------------- the raw skills field ---------------- */

  /** The comma-separated skills: the raw string is cut at every comma,
      each piece is stripped, and the blank pieces are dropped; the others
      are kept in their order. */
  function CommaSkills(raw: string): (r: seq<string>)
    ensures r == Filter(StripAll(Split(raw, ',')), NonEmpty)
    ensures forall i | 0 <= i < |r| :: r[i] != "" && IsTrimmed(r[i], IsPySpace) && ',' !in r[i]
    ensures forall p | p in Split(raw, ',') && PyStrip(p) != "" :: PyStrip(p) in r
  {
    StrippedPiecesFiltered(Split(raw, ','));
    StrippedPieces(Split(raw, ','))
  }

  predicate NonEmpty(s: string) { s != "" }

  /** Every piece stripped, in order. */
  function StripAll(pieces: seq<string>): (r: seq<string>)
    ensures |r| == |pieces|
    ensures forall i | 0 <= i < |r| :: r[i] == PyStrip(pieces[i])
  {
    seq(|pieces|, i requires 0 <= i < |pieces| => PyStrip(pieces[i]))
  }

  function StrippedPieces(pieces: seq<string>): (r: seq<string>)
    requires forall i | 0 <= i < |pieces| :: ',' !in pieces[i]
    ensures forall i | 0 <= i < |r| :: r[i] != "" && IsTrimmed(r[i], IsPySpace) && ',' !in r[i]
    ensures forall p | p in pieces && PyStrip(p) != "" :: PyStrip(p) in r
    decreases |pieces|
  {
    if |pieces| == 0 then []
    else
      var t := PyStrip(pieces[0]);
      TrimKeepsOut(pieces[0], IsPySpace, ',');
      var rest := StrippedPieces(pieces[1..]);
      assert forall p | p in pieces :: p == pieces[0] || p in pieces[1..];
      if t != "" then [t] + rest else rest
  }

  /** The piece-by-piece stripping is stripping every piece and then
      dropping the blank results. */
  lemma {:induction false} StrippedPiecesFiltered(pieces: seq<string>)
    requires forall i | 0 <= i < |pieces| :: ',' !in pieces[i]
    ensures StrippedPieces(pieces) == Filter(StripAll(pieces), NonEmpty)
    decreases |pieces|
  {
    if |pieces| > 0 {
      StrippedPiecesFiltered(pieces[1..]);
      StripAllStep(pieces);
    }
  }

  lemma StripAllStep(pieces: seq<string>)
    requires |pieces| > 0
    ensures StripAll(pieces)[0] == PyStrip(pieces[0]) && StripAll(pieces)[1..] == StripAll(pieces[1..])
  {
    assert StripAll(pieces)[1..] == StripAll(pieces[1..]);
  }

  /** The skill list read from the request when it was not a validated
      field (lines 95-116 and 146-165).  A form yields its repeated `skills`
      (or `skills[]`) values.  A JSON body has no `getlist`, so its `skills`
      (or `skills[]`) value is used only when it is a string: a JSON list in
      it is taken as is, a parse error falls back to the comma-separated
      pieces, and any other JSON value yields nothing.  `None` means "no
      skills found", which leaves the skills alone. */
  function RequestSkills(req: Request, parse: Parser): (r: Option<seq<Json>>)
    ensures r.Some? ==> |r.value| > 0
    ensures req.data.FormData? ==>
      var listed := OrList(GetList(req.data.pairs, "skills"), GetList(req.data.pairs, "skills[]"));
      r == (if |listed| > 0 then Some(JStrings(listed)) else None)
    ensures req.data.JsonData? && RawSkills(req.data.fields).None? ==> r.None?
    ensures req.data.JsonData? && RawSkills(req.data.fields).Some? ==>
      var raw := RawSkills(req.data.fields).value;
      && (parse(raw).Some? && parse(raw).value.JArray? ==>
            r == (if |parse(raw).value.items| > 0 then Some(parse(raw).value.items) else None))
      && (parse(raw).Some? && !parse(raw).value.JArray? ==> r.None?)
      && (parse(raw).None? ==> r == (if |CommaSkills(raw)| > 0 then Some(JStrings(CommaSkills(raw))) else None))
  {
    match req.data
    case FormData(pairs) =>
      var listed := OrList(GetList(pairs, "skills"), GetList(pairs, "skills[]"));
      if |listed| > 0 then Some(JStrings(listed)) else None
    case JsonData(fields) =>
      match RawSkills(fields)
      case None => None
      case Some(raw) =>
        match parse(raw)
        case Some(JArray(items)) => if |items| > 0 then Some(items) else None
        case Some(_) => None
        case None =>
          var pieces := CommaSkills(raw);
          if |pieces| > 0 then Some(JStrings(pieces)) else None
  }

  /** The raw `skills` value of a JSON body, or the `skills[]` one when that
      is missing or falsy, kept only when it is a non-empty string. */
  function RawSkills(fields: seq<(string, Json)>): (r: Option<string>)
    ensures r.Some? ==> r.value != ""
  {
    var first := Member(fields, "skills");
    var chosen := if first.Some? && PyTruthy(first.value) then first else Member(fields, "skills[]");
    if chosen.Some? && chosen.value.JString? && chosen.value.s != "" then Some(chosen.value.s) else None
  }

  /** A skills string holding a JSON list of names yields exactly those
      names. */
  lemma JsonListUsedAsGiven(fields: seq<(string, Json)>, parse: Parser, names: seq<string>)
    requires RawSkills(fields).Some?
    requires parse(RawSkills(fields).value) == Some(JArray(JStrings(names)))
    requires |names| > 0
    ensures RequestSkills(Request(JsonData(fields), []), parse) == Some(JStrings(names))
  {
  }

  /** A skills string that does not parse and lists non-blank, unpadded
      names separated by commas yields exactly those names, as the JSON list
      of them would. */
  lemma CommaListUsedAsGiven(fields: seq<(string, Json)>, parse: Parser, names: seq<string>)
    requires RawSkills(fields) == Some(Join(names, ','))
    requires parse(Join(names, ',')).None?
    requires |names| > 0
    requires forall i | 0 <= i < |names| :: names[i] != "" && IsTrimmed(names[i], IsPySpace) && ',' !in names[i]
    ensures RequestSkills(Request(JsonData(fields), []), parse) == Some(JStrings(names))
  {
    CommaSkillsOfJoin(names);
  }

  /** Unpadded, non-blank names joined by commas split back into the names. */
  lemma CommaSkillsOfJoin(names: seq<string>)
    requires |names| > 0
    requires forall i | 0 <= i < |names| :: names[i] != "" && IsTrimmed(names[i], IsPySpace) && ',' !in names[i]
    ensures CommaSkills(Join(names, ',')) == names
  {
    SplitJoin(names, ',');
    StripAllUnpadded(names);
    FilterAll(names, NonEmpty);
  }

  lemma StripAllUnpadded(names: seq<string>)
    requires forall i | 0 <= i < |names| :: IsTrimmed(names[i], IsPySpace)
    ensures StripAll(names) == names
  {
    forall i | 0 <= i < |names| ensures StripAll(names)[i] == names[i] {
      TrimOfTrimmed(names[i], IsPySpace);
    }
  }

  /* ---------------- skill references ---------------- */

  /** No two references of the catalogue have names equal up to case. */
  predicate NoCaseDuplicates(refs: seq<string>) {
    forall i, j | 0 <= i < j < |refs| :: !EqualsIgnoreCase(refs[i], refs[j])
  }

  /** The catalogue step of `_get_or_create_reference` for an already
      stripped key: a reference equal to it up to case is reused, and
      otherwise a reference named `key` is appended.  Of several matches the
      first in catalogue order is taken; the database takes the least by
      name, which is the same reference when the catalogue has no case
      variants (`LookupFindsOnlyMatch`). */
  function Lookup(refs: seq<string>, key: string): (r: (seq<string>, nat))
    ensures r.1 <= |refs| && r.1 < |r.0| && |refs| <= |r.0| && r.0[..|refs|] == refs
    ensures EqualsIgnoreCase(r.0[r.1], key)
    ensures r.1 < |refs| ==> r.0 == refs
    ensures r.1 == |refs| ==> r.0 == refs + [key]
  {
    var found := FindIndex(refs, (n: string) => EqualsIgnoreCase(n, key));
    if found.Some? then (refs, found.value)
    else (refs + [key], |refs|)
  }

  /** `_get_or_create_reference(name)`: the name is stripped, then looked up. */
  function GetOrCreateReference(refs: seq<string>, name: string): (r: (seq<string>, nat))
    ensures r.1 < |r.0| && |refs| <= |r.0| && r.0[..|refs|] == refs
    ensures r.1 <= |refs|
    ensures EqualsIgnoreCase(r.0[r.1], PyStrip(name))
    ensures r.1 < |refs| ==> r.0 == refs
    ensures r.1 == |refs| ==> r.0 == refs + [PyStrip(name)]
  {
    Lookup(refs, PyStrip(name))
  }

  /** The reference used is the first match in the catalogue, and a new one
      is created only when nothing matches. */
  lemma LookupIsFirstMatch(refs: seq<string>, key: string)
    ensures var r := Lookup(refs, key);
      forall m | 0 <= m < r.1 && m < |refs| :: !EqualsIgnoreCase(refs[m], key)
    ensures var r := Lookup(refs, key);
      r.1 == |refs| <==> forall m | 0 <= m < |refs| :: !EqualsIgnoreCase(refs[m], key)
  {
    var found := FindIndex(refs, (n: string) => EqualsIgnoreCase(n, key));
  }

  /** On a catalogue without case variants the reference a key finds is its
      only match, so the order `.first()` reads the matches in does not
      matter; a reference is created exactly when nothing matches. */
  lemma LookupFindsOnlyMatch(refs: seq<string>, key: string)
    requires NoCaseDuplicates(refs)
    ensures forall m | 0 <= m < |refs| && EqualsIgnoreCase(refs[m], key) :: Lookup(refs, key) == (refs, m)
    ensures Lookup(refs, key).1 == |refs| <==> forall m | 0 <= m < |refs| :: !EqualsIgnoreCase(refs[m], key)
  {
    LookupIsFirstMatch(refs, key);
  }

  /** Once a key has a reference, growing the catalogue by names that do
      not match the key does not change which reference it finds. */
  lemma LookupStable(refs: seq<string>, key: string, ext: seq<string>)
    requires forall j | 0 <= j < |ext| :: !EqualsIgnoreCase(ext[j], key)
    ensures var g := Lookup(refs, key);
      Lookup(g.0 + ext, key) == (g.0 + ext, g.1)
  {
    var g := Lookup(refs, key);
    var big := g.0 + ext;
    LookupIsFirstMatch(refs, key);
    assert forall m | 0 <= m < g.1 :: !EqualsIgnoreCase(big[m], key) by {
      forall m | 0 <= m < g.1 ensures !EqualsIgnoreCase(big[m], key) {
        assert big[m] == refs[m];
      }
    }
    assert EqualsIgnoreCase(big[g.1], key);
    var found := FindIndex(big, (n: string) => EqualsIgnoreCase(n, key));
    assert found.Some? && found.value == g.1;
  }

  /** Names equal up to case and surrounding spaces land on one reference,
      whichever is looked up first. */
  lemma SameNameSameReference(refs: seq<string>, a: string, b: string)
    requires EqualsIgnoreCase(PyStrip(a), PyStrip(b))
    ensures var (refs1, ida) := GetOrCreateReference(refs, a);
      GetOrCreateReference(refs1, b) == (refs1, ida)
  {
    var ka, kb := PyStrip(a), PyStrip(b);
    var (refs1, ida) := Lookup(refs, ka);
    LookupIsFirstMatch(refs, ka);
    assert forall m | 0 <= m < ida :: !EqualsIgnoreCase(refs1[m], kb) by {
      forall m | 0 <= m < ida ensures !EqualsIgnoreCase(refs1[m], kb) {
        assert refs1[m] == refs[m];
      }
    }
    var found := FindIndex(refs1, (n: string) => EqualsIgnoreCase(n, kb));
    assert found.Some? && found.value == ida;
  }

  /** Looking a key up never introduces a case-insensitive duplicate. */
  lemma LookupKeepsUnique(refs: seq<string>, key: string)
    requires NoCaseDuplicates(refs)
    ensures NoCaseDuplicates(Lookup(refs, key).0)
  {
    LookupIsFirstMatch(refs, key);
  }

  /** What attaching a skill list leaves behind: the catalogue, the
      reference ids linked, and whether a non-string name stopped the loop
      (`name.strip()` raises on it). */
  datatype Attach = Attach(refs: seq<string>, ids: set<nat>, failed: bool)

  /** How many names at the front of the list are strings. */
  function LeadingStrings(names: seq<Json>): (k: nat)
    ensures k <= |names|
    ensures forall j | 0 <= j < k :: names[j].JString?
    ensures k < |names| ==> !names[k].JString?
    decreases |names|
  {
    if |names| == 0 || !names[0].JString? then 0 else 1 + LeadingStrings(names[1..])
  }

  /** The stripped keys of a list of string names. */
  function StripNames(names: seq<Json>): (keys: seq<string>)
    requires forall j | 0 <= j < |names| :: names[j].JString?
    ensures |keys| == |names| && forall j | 0 <= j < |keys| :: keys[j] == PyStrip(names[j].s)
  {
    seq(|names|, j requires 0 <= j < |names| && names[j].JString? => PyStrip(names[j].s))
  }

  /** The loop over stripped keys: each key is looked up (or created) and linked. */
  function AttachKeys(refs: seq<string>, keys: seq<string>): (r: (seq<string>, set<nat>))
    ensures |refs| <= |r.0| && r.0[..|refs|] == refs
    ensures forall id | id in r.1 :: id < |r.0|
    decreases |keys|
  {
    if |keys| == 0 then (refs, {})
    else
      var g := Lookup(refs, keys[0]);
      var rest := AttachKeys(g.0, keys[1..]);
      assert rest.0[..|refs|] == g.0[..|refs|];
      (rest.0, {g.1} + rest.1)
  }

  /** The linking loop: each name in turn is resolved to a reference and
      linked; the names before the first non-string one are linked, and a
      non-string name stops the loop there. */
  function AttachSkills(refs: seq<string>, names: seq<Json>): (r: Attach)
    ensures |refs| <= |r.refs| && r.refs[..|refs|] == refs
    ensures forall id | id in r.ids :: id < |r.refs|
  {
    var k := LeadingStrings(names);
    var a := AttachKeys(refs, StripNames(names[..k]));
    Attach(a.0, a.1, k < |names|)
  }

  /** The pass stops exactly when some name is not a string. */
  lemma AttachFailsOnNonString(refs: seq<string>, names: seq<Json>)
    ensures AttachSkills(refs, names).failed <==> exists i | 0 <= i < |names| :: !names[i].JString?
  {
    var k := LeadingStrings(names);
    if k < |names| {
      assert !names[k].JString?;
    }
  }

  /** After the loop, looking any key up again in the final catalogue finds
      a linked reference and adds nothing. */
  lemma {:induction false} AttachKeysResolves(refs: seq<string>, keys: seq<string>, i: nat)
    requires i < |keys|
    ensures var r := AttachKeys(refs, keys); var q := Lookup(r.0, keys[i]);
      q.0 == r.0 && q.1 in r.1
    decreases |keys|
  {
    var g := Lookup(refs, keys[0]);
    var rest := AttachKeys(g.0, keys[1..]);
    if i == 0 {
      FirstKeyStays(refs, keys);
    } else {
      assert keys[1..][i - 1] == keys[i];
      AttachKeysResolves(g.0, keys[1..], i - 1);
    }
  }

  /** Every linked reference is what one of the keys finds in the final
      catalogue: nothing else is linked. */
  lemma {:induction false} AttachKeysOnly(refs: seq<string>, keys: seq<string>, id: nat)
    requires id in AttachKeys(refs, keys).1
    ensures var r := AttachKeys(refs, keys);
      exists i | 0 <= i < |keys| :: Lookup(r.0, keys[i]) == (r.0, id)
    decreases |keys|
  {
    var g := Lookup(refs, keys[0]);
    var rest := AttachKeys(g.0, keys[1..]);
    assert AttachKeys(refs, keys) == (rest.0, {g.1} + rest.1);
    if id == g.1 {
      FirstKeyStays(refs, keys);
    } else {
      AttachKeysOnly(g.0, keys[1..], id);
      var i :| 0 <= i < |keys[1..]| && Lookup(rest.0, keys[1..][i]) == (rest.0, id);
      assert keys[i + 1] == keys[1..][i];
    }
  }

  /** The first key still resolves to the same reference once the whole
      pass has run. */
  lemma FirstKeyStays(refs: seq<string>, keys: seq<string>)
    requires |keys| > 0
    ensures var r := AttachKeys(refs, keys);
      Lookup(r.0, keys[0]) == (r.0, Lookup(refs, keys[0]).1)
  {
    var g := Lookup(refs, keys[0]);
    var rest := AttachKeys(g.0, keys[1..]);
    assert AttachKeys(refs, keys).0 == rest.0;
    var ext := rest.0[|g.0|..];
    assert rest.0 == g.0 + ext;
    ExtensionMisses(refs, keys, ext);
    LookupStable(refs, keys[0], ext);
  }

  /** The names the rest of the pass adds all miss the first key. */
  lemma ExtensionMisses(refs: seq<string>, keys: seq<string>, ext: seq<string>)
    requires |keys| > 0
    requires var g := Lookup(refs, keys[0]); AttachKeys(g.0, keys[1..]).0 == g.0 + ext
    ensures forall j | 0 <= j < |ext| :: !EqualsIgnoreCase(ext[j], keys[0])
  {
    var g := Lookup(refs, keys[0]);
    var rest := AttachKeys(g.0, keys[1..]).0;
    forall j | 0 <= j < |ext| ensures !EqualsIgnoreCase(ext[j], keys[0]) {
      assert ext[j] == rest[|g.0| + j];
      ExtensionMissesKey(refs, keys, |g.0| + j);
    }
  }

  /** A name the rest of the pass adds never matches the first key: the
      first key already has a match, and a name is added only when it
      matches nothing. */
  lemma ExtensionMissesKey(refs: seq<string>, keys: seq<string>, j: nat)
    requires |keys| > 0
    requires |Lookup(refs, keys[0]).0| <= j < |AttachKeys(Lookup(refs, keys[0]).0, keys[1..]).0|
    ensures !EqualsIgnoreCase(AttachKeys(Lookup(refs, keys[0]).0, keys[1..]).0[j], keys[0])
  {
    var g := Lookup(refs, keys[0]);
    AttachKeysAddsNoMatch(g.0, keys[1..], j, g.1);
  }

  /** A name a pass adds matches no name the catalogue had before it. */
  lemma {:induction false} AttachKeysAddsNoMatch(refs: seq<string>, keys: seq<string>, j: nat, m: nat)
    requires |refs| <= j < |AttachKeys(refs, keys).0| && m < |refs|
    ensures !EqualsIgnoreCase(AttachKeys(refs, keys).0[j], refs[m])
    decreases |keys|
  {
    var g := Lookup(refs, keys[0]);
    var r := AttachKeys(g.0, keys[1..]).0;
    assert AttachKeys(refs, keys).0 == r;
    assert g.0[m] == refs[m];
    if j < |g.0| {
      LookupIsFirstMatch(refs, keys[0]);
      assert g.1 == |refs| && j == |refs|;
      assert r[..|g.0|] == g.0;
      assert r[j] == g.0[j] == keys[0];
      assert !EqualsIgnoreCase(refs[m], keys[0]);
    } else {
      AttachKeysAddsNoMatch(g.0, keys[1..], j, m);
    }
  }

  /** With only string names the pass runs over all of their stripped keys. */
  lemma AttachAllStrings(refs: seq<string>, names: seq<Json>)
    requires forall j | 0 <= j < |names| :: names[j].JString?
    ensures var a := AttachKeys(refs, StripNames(names));
      AttachSkills(refs, names) == Attach(a.0, a.1, false)
  {
    assert names[..|names|] == names;
  }

  /** After a complete pass each name resolves, in the final catalogue, to
      a linked reference without adding one. */
  lemma AttachResolvesName(refs: seq<string>, names: seq<Json>, i: nat)
    requires forall j | 0 <= j < |names| :: names[j].JString?
    requires i < |names|
    ensures var r := AttachSkills(refs, names); var q := GetOrCreateReference(r.refs, names[i].s);
      q.0 == r.refs && q.1 in r.ids
  {
    AttachAllStrings(refs, names);
    AttachKeysResolves(refs, StripNames(names), i);
  }

  /** After a complete pass every link is what some name resolves to. */
  lemma AttachOnlyName(refs: seq<string>, names: seq<Json>)
    requires forall j | 0 <= j < |names| :: names[j].JString?
    ensures var r := AttachSkills(refs, names);
      forall id | id in r.ids :: exists i | 0 <= i < |names| :: GetOrCreateReference(r.refs, names[i].s) == (r.refs, id)
  {
    var keys := StripNames(names);
    AttachAllStrings(refs, names);
    var r := AttachKeys(refs, keys);
    forall id | id in r.1
      ensures exists i | 0 <= i < |names| :: GetOrCreateReference(r.0, names[i].s) == (r.0, id)
    {
      AttachKeysOnly(refs, keys, id);
      var i :| 0 <= i < |keys| && Lookup(r.0, keys[i]) == (r.0, id);
      KeyIsStrippedName(r.0, names, i);
    }
  }

  /** Looking up a stripped key is resolving the name it came from. */
  lemma KeyIsStrippedName(refs: seq<string>, names: seq<Json>, i: nat)
    requires forall j | 0 <= j < |names| :: names[j].JString?
    requires i < |names|
    ensures Lookup(refs, StripNames(names)[i]) == GetOrCreateReference(refs, names[i].s)
  {
  }

  /** The references the string names resolve to in catalogue `refs`. */
  function ResolvedIds(refs: seq<string>, names: seq<Json>): set<nat> {
    set i | 0 <= i < |names| && names[i].JString? :: GetOrCreateReference(refs, names[i].s).1
  }

  lemma LinkedAreResolved(refs: seq<string>, names: seq<Json>)
    requires forall j | 0 <= j < |names| :: names[j].JString?
    ensures var r := AttachSkills(refs, names); r.ids <= ResolvedIds(r.refs, names)
  {
    var r := AttachSkills(refs, names);
    AttachOnlyName(refs, names);
    forall id | id in r.ids ensures id in ResolvedIds(r.refs, names) {
      var i :| 0 <= i < |names| && GetOrCreateReference(r.refs, names[i].s) == (r.refs, id);
      assert names[i].JString?;
    }
  }

  lemma ResolvedAreLinked(refs: seq<string>, names: seq<Json>)
    requires forall j | 0 <= j < |names| :: names[j].JString?
    ensures var r := AttachSkills(refs, names); ResolvedIds(r.refs, names) <= r.ids
  {
    var r := AttachSkills(refs, names);
    forall i | 0 <= i < |names| ensures GetOrCreateReference(r.refs, names[i].s).1 in r.ids {
      AttachResolvesName(refs, names, i);
    }
  }

  /** A complete pass links exactly the references the names resolve to in
      the final catalogue (each equal to its name up to case and
      surrounding spaces). */
  lemma AttachLinksResolved(refs: seq<string>, names: seq<Json>)
    requires forall j | 0 <= j < |names| :: names[j].JString?
    ensures var r := AttachSkills(refs, names); !r.failed && r.ids == ResolvedIds(r.refs, names)
  {
    AttachAllStrings(refs, names);
    LinkedAreResolved(refs, names);
    ResolvedAreLinked(refs, names);
  }

  /** Attaching keys never introduces a case-insensitive duplicate. */
  lemma {:induction false} AttachKeysKeepUnique(refs: seq<string>, keys: seq<string>)
    requires NoCaseDuplicates(refs)
    ensures NoCaseDuplicates(AttachKeys(refs, keys).0)
    decreases |keys|
  {
    if |keys| > 0 {
      var g := Lookup(refs, keys[0]);
      LookupKeepsUnique(refs, keys[0]);
      AttachKeysKeepUnique(g.0, keys[1..]);
    }
  }

  /** Attaching skills never introduces a case-insensitive duplicate in the
      catalogue. */
  lemma AttachKeepsUnique(refs: seq<string>, names: seq<Json>)
    requires NoCaseDuplicates(refs)
    ensures NoCaseDuplicates(AttachSkills(refs, names).refs)
  {
    var k := LeadingStrings(names);
    AttachKeysKeepUnique(refs, StripNames(names[..k]));
  }

  /* ---------------- create ---------------- */

  /** `create` (lines 71-136).  The skills are the validated ones, or when
      those are missing or empty the ones read from the request; the files
      are the validated ones, or those of the upload part of the request
      (none without a request).  More than three files are refused before
      anything is written, and the writes run in one transaction, so an
      error leaves the catalogue as it was. */
  function Create(refs: seq<string>, v: Validated, req: Option<Request>, parse: Parser): (r: Result<(seq<string>, ProjectRow), WriteError>)
    ensures r.Ok? ==> |refs| <= |r.value.0| && r.value.0[..|refs|] == refs
    ensures r.Ok? ==> r.value.1.fields == v.fields
    ensures r.Ok? ==> r.value.1.media == MediaRows(SubmittedFiles(v, req))
    ensures r.Err? <==> |SubmittedFiles(v, req)| > MaxImages || AttachSkills(refs, CreateSkills(v, req, parse)).failed
    ensures |SubmittedFiles(v, req)| > MaxImages ==> r == Err(Validation(TooManyImages))
    ensures r.Ok? ==>
      var a := AttachSkills(refs, CreateSkills(v, req, parse));
      r.value.0 == a.refs && r.value.1.skills == a.ids
  {
    var files := SubmittedFiles(v, req);
    if |files| > MaxImages then Err(Validation(TooManyImages))
    else
      var a := AttachSkills(refs, CreateSkills(v, req, parse));
      if a.failed then Err(Internal)
      else Ok((a.refs, ProjectRow(v.fields, a.ids, MediaRows(files))))
  }

  /** The files `create` and `update` store: the validated ones, else the
      request's, else none. */
  function SubmittedFiles(v: Validated, req: Option<Request>): (r: seq<Upload>)
    ensures v.mediaFiles.Some? ==> r == v.mediaFiles.value
    ensures v.mediaFiles.None? && req.None? ==> r == []
    ensures v.mediaFiles.None? && req.Some? ==> r == RequestFiles(req.value)
  {
    if v.mediaFiles.Some? then v.mediaFiles.value
    else if req.Some? then RequestFiles(req.value)
    else []
  }

  /** The skill names `create` attaches. */
  function CreateSkills(v: Validated, req: Option<Request>, parse: Parser): (r: seq<Json>)
    ensures v.skills.Some? && |v.skills.value| > 0 ==> r == JStrings(v.skills.value)
    ensures (v.skills.None? || |v.skills.value| == 0) && req.None? ==> r == []
    ensures (v.skills.None? || |v.skills.value| == 0) && req.Some? ==> r == RequestSkills(req.value, parse).GetOr([])
  {
    var given := if v.skills.Some? then JStrings(v.skills.value) else [];
    if |given| > 0 then given
    else if req.Some? then
      match RequestSkills(req.value, parse)
      case Some(found) => found
      case None => given
    else given
  }

  /** A created project's media carry orders 0, 1, ... in upload order and
      there are at most three of them. */
  lemma CreatedMediaOrdered(refs: seq<string>, v: Validated, req: Option<Request>, parse: Parser)
    ensures var r := Create(refs, v, req, parse);
      r.Ok? ==> |r.value.1.media| <= MaxImages && forall i | 0 <= i < |r.value.1.media| :: r.value.1.media[i].order == i
  {
  }

  /** With at most three files and only string names, `create` succeeds and
      links exactly the references the names resolve to in the final
      catalogue. */
  lemma CreateLinksResolved(refs: seq<string>, v: Validated, req: Option<Request>, parse: Parser)
    requires |SubmittedFiles(v, req)| <= MaxImages
    requires forall i | 0 <= i < |CreateSkills(v, req, parse)| :: CreateSkills(v, req, parse)[i].JString?
    ensures var r := Create(refs, v, req, parse);
      r.Ok? && r.value.1.skills == ResolvedIds(r.value.0, CreateSkills(v, req, parse))
  {
    AttachLinksResolved(refs, CreateSkills(v, req, parse));
  }

  /* ---------------- update ---------------- */

  /** What `update` leaves behind.  The method runs without a transaction, so
      an error comes back together with the writes made before it. */
  datatype UpdateOutcome = UpdateOutcome(refs: seq<string>, project: ProjectRow, error: Option<WriteError>)

  /** The skills `update` uses: the validated ones when present (even an
      empty list), else those read from the request, else none. */
  function UpdateSkills(v: Validated, req: Option<Request>, parse: Parser): (r: Option<seq<Json>>)
    ensures v.skills.Some? ==> r == Some(JStrings(v.skills.value))
    ensures v.skills.None? && req.None? ==> r.None?
    ensures v.skills.None? && req.Some? ==> r == RequestSkills(req.value, parse)
  {
    if v.skills.Some? then Some(JStrings(v.skills.value))
    else if req.Some? then RequestSkills(req.value, parse)
    else None
  }

  /** `update` as written (lines 138-198): the fields are saved first; a
      skill list then replaces the links (a non-string name stops the loop
      after the earlier links were made); then a non-empty file list is
      checked against the limit and, if it passes, replaces the media. */
  function Update(refs: seq<string>, p: ProjectRow, v: Validated, req: Option<Request>, parse: Parser): (r: UpdateOutcome)
    ensures r.project.fields == p.fields + v.fields
    ensures UpdateSkills(v, req, parse).None? ==> r.project.skills == p.skills && r.refs == refs
    ensures |SubmittedFiles(v, req)| == 0 ==> r.project.media == p.media
    ensures r.error.None? && |SubmittedFiles(v, req)| > 0 ==> r.project.media == MediaRows(SubmittedFiles(v, req))
    ensures |SubmittedFiles(v, req)| > MaxImages ==> r.error.Some? && r.project.media == p.media
    ensures UpdateSkills(v, req, parse).Some? ==>
      var a := AttachSkills(refs, UpdateSkills(v, req, parse).value);
      r.refs == a.refs && r.project.skills == a.ids && (r.error == Some(Internal) <==> a.failed)
    ensures r.error ==
      if UpdateSkills(v, req, parse).Some? && AttachSkills(refs, UpdateSkills(v, req, parse).value).failed then Some(Internal)
      else if |SubmittedFiles(v, req)| > MaxImages then Some(Validation(TooManyImages))
      else None
  {
    var saved := p.(fields := p.fields + v.fields);
    var skills := UpdateSkills(v, req, parse);
    var (refs1, linked, failed) :=
      if skills.Some? then
        var a := AttachSkills(refs, skills.value);
        (a.refs, saved.(skills := a.ids), a.failed)
      else (refs, saved, false);
    if failed then UpdateOutcome(refs1, linked, Some(Internal))
    else
      var files := SubmittedFiles(v, req);
      if |files| == 0 then UpdateOutcome(refs1, linked, None)
      else if |files| > MaxImages then UpdateOutcome(refs1, linked, Some(Validation(TooManyImages)))
      else UpdateOutcome(refs1, linked.(media := MediaRows(files)), None)
  }

  /** Any skill list, the empty one included, replaces the links exactly:
      afterwards the project links precisely the references the names
      resolve to, each equal to its name up to case and surrounding spaces. */
  lemma UpdateReplacesSkills(refs: seq<string>, p: ProjectRow, v: Validated, req: Option<Request>, parse: Parser)
    requires UpdateSkills(v, req, parse).Some?
    requires forall i | 0 <= i < |UpdateSkills(v, req, parse).value| :: UpdateSkills(v, req, parse).value[i].JString?
    ensures var r := Update(refs, p, v, req, parse); var names := UpdateSkills(v, req, parse).value;
      && r.error != Some(Internal)
      && r.project.skills == ResolvedIds(r.refs, names)
  {
    var names := UpdateSkills(v, req, parse).value;
    AttachLinksResolved(refs, names);
  }

  /** An empty validated list clears the links. */
  lemma EmptyListClearsSkills(refs: seq<string>, p: ProjectRow, v: Validated, req: Option<Request>, parse: Parser)
    requires v.skills == Some([])
    ensures Update(refs, p, v, req, parse).project.skills == {}
  {
  }

  /** As written, four files sent in the upload part of the request under
      `media_files[]` are refused only after the fields were saved and the
      skills replaced.  That key is not the declared `media_files` list
      field, so the validated data carries no files and the limit is first
      checked inside `update` (line 189). */
  lemma UpdateRefusalKeepsEarlierWrites(refs: seq<string>, p: ProjectRow, fields: map<string, string>, names: seq<string>, files: seq<Upload>)
    requires |files| > MaxImages
    requires fields != map[] && p.fields + fields != p.fields
    ensures var v := Validated(fields, Some(names), None);
      var req := Request(FormData([]), seq(|files|, i requires 0 <= i < |files| => ("media_files[]", files[i])));
      var r := Update(refs, p, v, Some(req), (s: string) => None);
      r.error == Some(Validation(TooManyImages)) && r.project.fields != p.fields
  {
    var v := Validated(fields, Some(names), None);
    var req := Request(FormData([]), seq(|files|, i requires 0 <= i < |files| => ("media_files[]", files[i])));
    AllUnderKey(req.files, files, "media_files[]");
    assert forall i | 0 <= i < |req.files| :: req.files[i].0 != "media_files";
    assert GetList(req.files, "media_files") == [];
    assert SubmittedFiles(v, Some(req)) == files;
    AttachFailsOnNonString(refs, JStrings(names));
  }

  lemma {:induction false} AllUnderKey(pairs: seq<(string, Upload)>, files: seq<Upload>, key: string)
    requires |pairs| == |files| && forall i | 0 <= i < |pairs| :: pairs[i] == (key, files[i])
    ensures GetList(pairs, key) == files
    decreases |pairs|
  {
    if |pairs| > 0 {
      AllUnderKey(pairs[1..], files[1..], key);
    }
  }

  /** The intended update: every check runs before the first write, so a
      refused request changes nothing. */
  function UpdateChecked(refs: seq<string>, p: ProjectRow, v: Validated, req: Option<Request>, parse: Parser): (r: UpdateOutcome)
    ensures r.error.Some? ==> r.refs == refs && r.project == p
    ensures r.error.None? ==> r == Update(refs, p, v, req, parse)
    ensures r.error.None? <==> Update(refs, p, v, req, parse).error.None?
  {
    var skills := UpdateSkills(v, req, parse);
    var files := SubmittedFiles(v, req);
    if skills.Some? && AttachSkills(refs, skills.value).failed then UpdateOutcome(refs, p, Some(Internal))
    else if |files| > MaxImages then UpdateOutcome(refs, p, Some(Validation(TooManyImages)))
    else Update(refs, p, v, req, parse)
  }
}

=== FILE: seqs.dfy ===
/** Sequence operations the pages use: `filter`, `slice(0, n)`, first-seen
    de-duplication (`Array.from(new Set(xs))`) and the subsequence relation
    that states "keeps source order". */
module Seqs {
  import opened Outcomes

  /** `a` can be obtained from `b` by deleting elements. */
  predicate IsSubseq<T(==)>(a: seq<T>, b: seq<T>)
    decreases |b|
  {
    |a| == 0 || (|b| > 0 && if a[0] == b[0] then IsSubseq(a[1..], b[1..]) else IsSubseq(a, b[1..]))
  }

  lemma {:induction false} SubseqDropFirst<T>(a: seq<T>, b: seq<T>)
    requires |a| > 0 && IsSubseq(a, b)
    ensures IsSubseq(a[1..], b)
    decreases |b|, 0
  {
    if a[0] != b[0] {
      SubseqDropFirst(a, b[1..]);
      SubseqConsRight(a[1..], b[0], b[1..]);
    } else {
      SubseqConsRight(a[1..], b[0], b[1..]);
    }
    assert [b[0]] + b[1..] == b;
  }

  /** Adding an element in front of the larger sequence keeps the relation. */
  lemma {:induction false} SubseqConsRight<T>(a: seq<T>, x: T, b: seq<T>)
    requires IsSubseq(a, b)
    ensures IsSubseq(a, [x] + b)
    decreases |b|, 1
  {
    var xb := [x] + b;
    assert xb[1..] == b;
    if |a| > 0 && a[0] == x {
      SubseqDropFirst(a, b);
    }
  }

  /** Every prefix of a subsequence is a subsequence. */
  lemma {:induction false} SubseqPrefix<T>(a: seq<T>, b: seq<T>, k: nat)
    requires k <= |a| && IsSubseq(a, b)
    ensures IsSubseq(a[..k], b)
    decreases |b|
  {
    if k > 0 {
      if a[0] == b[0] {
        SubseqPrefix(a[1..], b[1..], k - 1);
        assert a[..k][1..] == a[1..][..k - 1];
      } else {
        SubseqPrefix(a, b[1..], k);
      }
    }
  }

  /** The elements satisfying `p`, in their original order. */
  function Filter<T>(s: seq<T>, p: T -> bool): (r: seq<T>)
    ensures |r| <= |s|
    ensures forall i | 0 <= i < |r| :: p(r[i]) && r[i] in s
    ensures forall i | 0 <= i < |s| :: p(s[i]) ==> s[i] in r
    decreases |s|
  {
    if |s| == 0 then []
    else (if p(s[0]) then [s[0]] else []) + Filter(s[1..], p)
  }

  lemma {:induction false} FilterIsSubseq<T>(s: seq<T>, p: T -> bool)
    ensures IsSubseq(Filter(s, p), s)
    decreases |s|
  {
    if |s| > 0 {
      FilterIsSubseq(s[1..], p);
      var rest := Filter(s[1..], p);
      if p(s[0]) {
        assert Filter(s, p) == [s[0]] + rest;
        assert ([s[0]] + rest)[1..] == rest;
      } else {
        assert Filter(s, p) == rest;
        SubseqConsRight(rest, s[0], s[1..]);
        assert [s[0]] + s[1..] == s;
      }
    }
  }

  lemma {:induction false} FilterConcat<T>(a: seq<T>, b: seq<T>, p: T -> bool)
    ensures Filter(a + b, p) == Filter(a, p) + Filter(b, p)
    decreases |a|
  {
    if |a| > 0 {
      var h := if p(a[0]) then [a[0]] else [];
      FilterConcat(a[1..], b, p);
      assert (a + b)[1..] == a[1..] + b;
      assert Filter(a + b, p) == h + Filter(a[1..] + b, p);
      assert Filter(a, p) == h + Filter(a[1..], p);
    } else {
      assert a + b == b;
    }
  }

  /** Filtering depends only on the verdicts for the elements present. */
  lemma {:induction false} FilterCongruent<T>(s: seq<T>, p: T -> bool, q: T -> bool)
    requires forall i | 0 <= i < |s| :: p(s[i]) == q(s[i])
    ensures Filter(s, p) == Filter(s, q)
    decreases |s|
  {
    if |s| > 0 {
      FilterCongruent(s[1..], p, q);
    }
  }

  /** Filtering with a predicate every element satisfies keeps everything. */
  lemma {:induction false} FilterAll<T>(s: seq<T>, p: T -> bool)
    requires forall i | 0 <= i < |s| :: p(s[i])
    ensures Filter(s, p) == s
    decreases |s|
  {
    if |s| > 0 {
      FilterAll(s[1..], p);
      assert [s[0]] + s[1..] == s;
    }
  }

  /** A property of every element of two sequences holds for every
      element of their concatenation. */
  lemma AllConcat<T>(a: seq<T>, b: seq<T>, p: T -> bool)
    requires forall i | 0 <= i < |a| :: p(a[i])
    requires forall i | 0 <= i < |b| :: p(b[i])
    ensures forall i | 0 <= i < |a + b| :: p((a + b)[i])
  {
    forall i | 0 <= i < |a + b| ensures p((a + b)[i]) {
      if i >= |a| {
        assert (a + b)[i] == b[i - |a|];
      }
    }
  }

  /** Position of the first element satisfying `p` (`findIndex`), if any. */
  function FindIndex<T>(s: seq<T>, p: T -> bool): (r: Option<nat>)
    ensures r.None? <==> forall i | 0 <= i < |s| :: !p(s[i])
    ensures r.Some? ==> (r.value < |s| && p(s[r.value]) && forall m | 0 <= m < r.value :: !p(s[m]))
    decreases |s|
  {
    if |s| == 0 then None
    else if p(s[0]) then Some(0)
    else
      var r := FindIndex(s[1..], p);
      if r.Some? then Some(r.value + 1) else None
  }

  /** `s.slice(0, n)`. */
  function Take<T>(s: seq<T>, n: nat): (r: seq<T>)
    ensures |r| == if n < |s| then n else |s|
    ensures r == s[..|r|]
  {
    if n < |s| then s[..n] else s
  }

  /** The elements satisfying `p`, cut to the first `limit` of them: the
      "related items" rule of the detail pages. */
  function FirstMatching<T>(s: seq<T>, p: T -> bool, limit: nat): (r: seq<T>)
    ensures |r| <= limit
    ensures forall i | 0 <= i < |r| :: p(r[i])
    ensures IsSubseq(r, s)
    ensures |r| == limit || r == Filter(s, p)
    ensures var f := Filter(s, p); |r| == (if limit < |f| then limit else |f|) && r == f[..|r|]
  {
    var f := Filter(s, p);
    FilterIsSubseq(s, p);
    SubseqPrefix(f, s, |Take(f, limit)|);
    Take(f, limit)
  }

  predicate Distinct<T(==)>(s: seq<T>) {
    forall i, j | 0 <= i < j < |s| :: s[i] != s[j]
  }

  /** Position of the first occurrence of `x`. */
  function FirstIndex<T(==)>(s: seq<T>, x: T): (k: nat)
    requires x in s
    ensures k < |s| && s[k] == x && x !in s[..k]
    decreases |s|
  {
    if s[0] == x then 0 else 1 + FirstIndex(s[1..], x)
  }

  /** De-duplication: each value once, at its first position. */
  function Dedup<T(==)>(s: seq<T>): (r: seq<T>)
    decreases |s|
  {
    if |s| == 0 then []
    else
      var d := Dedup(s[..|s| - 1]);
      if s[|s| - 1] in d then d else d + [s[|s| - 1]]
  }

  /** De-duplication keeps exactly the values of `s`, each once, ordered by
      where each value first appears in `s`. */
  lemma {:induction false} DedupSpec<T>(s: seq<T>)
    ensures Distinct(Dedup(s))
    ensures forall x :: x in Dedup(s) <==> x in s
    ensures forall i, j | 0 <= i < j < |Dedup(s)| :: FirstIndex(s, Dedup(s)[i]) < FirstIndex(s, Dedup(s)[j])
    decreases |s|
  {
    if |s| > 0 {
      var p, x := s[..|s| - 1], s[|s| - 1];
      assert s == p + [x];
      DedupSpec(p);
      var d := Dedup(p);
      forall y | y in p
        ensures FirstIndex(s, y) == FirstIndex(p, y)
      {
        FirstIndexAppend(p, x, y);
      }
      if x !in d {
        assert FirstIndex(s, x) == |p|;
        forall i | 0 <= i < |d| ensures FirstIndex(s, d[i]) < |p| {
          assert d[i] in d;
        }
      }
    }
  }

  lemma {:induction false} FirstIndexAppend<T>(p: seq<T>, x: T, y: T)
    requires y in p
    ensures FirstIndex(p + [x], y) == FirstIndex(p, y)
    decreases |p|
  {
    if p[0] != y {
      FirstIndexAppend(p[1..], x, y);
      assert (p + [x])[1..] == p[1..] + [x];
    }
  }
}

=== FILE: stable_sort.dfy ===
/** Sorting a copy ascending by an integer key: JavaScript's sort is stable,
    so elements with equal keys keep their input order.  Modelled as insertion
    sort over an integer key. */
module StableSort {
  import opened Seqs

  predicate SortedBy<T>(s: seq<T>, key: T -> int) {
    forall i, j | 0 <= i < j < |s| :: key(s[i]) <= key(s[j])
  }

  /** The elements of `s` whose key is `k`, in order: stability says the sort
      leaves this subsequence alone for every `k`. */
  function WithKey<T>(s: seq<T>, key: T -> int, k: int): seq<T>
    decreases |s|
  {
    if |s| == 0 then []
    else (if key(s[0]) == k then [s[0]] else []) + WithKey(s[1..], key, k)
  }

  /** Places `x` in front of the first element whose key is not smaller. */
  function Insert<T>(x: T, s: seq<T>, key: T -> int): (r: seq<T>)
    ensures multiset(r) == multiset(s) + multiset{x}
    decreases |s|
  {
    if |s| == 0 || key(x) <= key(s[0]) then [x] + s
    else
      var r := [s[0]] + Insert(x, s[1..], key);
      assert s == [s[0]] + s[1..];
      r
  }

  lemma {:induction false} InsertSorted<T>(x: T, s: seq<T>, key: T -> int)
    requires SortedBy(s, key)
    ensures SortedBy(Insert(x, s, key), key)
    decreases |s|
  {
    if |s| > 0 && key(x) > key(s[0]) {
      var t := Insert(x, s[1..], key);
      InsertSorted(x, s[1..], key);
      forall i | 0 <= i < |t| ensures key(s[0]) <= key(t[i]) {
        assert t[i] in multiset(t);
        if t[i] != x {
          assert t[i] in multiset(s[1..]);
          var j :| 0 <= j < |s[1..]| && s[1..][j] == t[i];
          assert s[j + 1] == t[i];
        }
      }
      assert Insert(x, s, key) == [s[0]] + t;
    }
  }

  function SortBy<T>(s: seq<T>, key: T -> int): (r: seq<T>)
    ensures multiset(r) == multiset(s)
    ensures SortedBy(r, key)
    decreases |s|
  {
    if |s| == 0 then []
    else
      assert s == [s[0]] + s[1..];
      var t := SortBy(s[1..], key);
      InsertSorted(s[0], t, key);
      Insert(s[0], t, key)
  }

  lemma {:induction false} InsertWithKey<T>(x: T, s: seq<T>, key: T -> int, k: int)
    ensures WithKey(Insert(x, s, key), key, k) == (if key(x) == k then [x] else []) + WithKey(s, key, k)
    decreases |s|
  {
    if |s| == 0 || key(x) <= key(s[0]) {
      assert ([x] + s)[1..] == s;
    } else {
      var r := Insert(x, s[1..], key);
      InsertWithKey(x, s[1..], key, k);
      var hx := if key(x) == k then [x] else [];
      var hs := if key(s[0]) == k then [s[0]] else [];
      assert ([s[0]] + r)[1..] == r;
      assert WithKey([s[0]] + r, key, k) == hs + WithKey(r, key, k);
      assert WithKey(s, key, k) == hs + WithKey(s[1..], key, k);
      assert hx == [] || hs == [];
      assert hs + (hx + WithKey(s[1..], key, k)) == hx + (hs + WithKey(s[1..], key, k));
    }
  }

  /** The sort is stable: for every key, the elements with that key appear in
      the output in the same order as in the input. */
  lemma {:induction false} SortStable<T>(s: seq<T>, key: T -> int, k: int)
    ensures WithKey(SortBy(s, key), key, k) == WithKey(s, key, k)
    decreases |s|
  {
    if |s| > 0 {
      SortStable(s[1..], key, k);
      InsertWithKey(s[0], SortBy(s[1..], key), key, k);
    }
  }

  lemma {:induction false} WithKeyNonEmpty<T>(s: seq<T>, key: T -> int, i: nat)
    requires i < |s|
    ensures |WithKey(s, key, key(s[i]))| > 0
    decreases |s|
  {
    if i > 0 && key(s[0]) != key(s[i]) {
      WithKeyNonEmpty(s[1..], key, i - 1);
    }
  }

  lemma HeadKeyPresent<T>(s: seq<T>, key: T -> int)
    ensures |s| > 0 ==> WithKey(s, key, key(s[0])) != []
  {
  }

  lemma {:induction false} WithKeyMember<T>(s: seq<T>, key: T -> int, k: int, j: nat)
    requires j < |WithKey(s, key, k)|
    ensures exists i | 0 <= i < |s| :: s[i] == WithKey(s, key, k)[j] && key(s[i]) == k
    decreases |s|
  {
    if |s| > 0 {
      if key(s[0]) == k {
        if j > 0 {
          WithKeyMember(s[1..], key, k, j - 1);
        }
      } else {
        WithKeyMember(s[1..], key, k, j);
      }
    }
  }

  /** Sorted order plus per-key order pin the arrangement down: two sorted
      sequences that agree on every key's subsequence are equal. */
  lemma {:induction false} SortedStableUnique<T>(a: seq<T>, b: seq<T>, key: T -> int)
    requires SortedBy(a, key) && SortedBy(b, key)
    requires forall k :: WithKey(a, key, k) == WithKey(b, key, k)
    ensures a == b
    decreases |a|
  {
    if |a| > 0 && |b| > 0 {
      var ka, kb := key(a[0]), key(b[0]);
      WithKeyNonEmpty(a, key, 0);
      WithKeyMember(b, key, ka, 0);
      WithKeyNonEmpty(b, key, 0);
      WithKeyMember(a, key, kb, 0);
      assert ka == kb;
      assert a[0] == WithKey(a, key, ka)[0] == WithKey(b, key, ka)[0] == b[0];
      forall k ensures WithKey(a[1..], key, k) == WithKey(b[1..], key, k) {
        assert WithKey(a, key, k) == WithKey(b, key, k);
        if k == ka {
          assert WithKey(a, key, k) == [a[0]] + WithKey(a[1..], key, k);
          assert WithKey(b, key, k) == [b[0]] + WithKey(b[1..], key, k);
          assert ([a[0]] + WithKey(a[1..], key, k))[1..] == WithKey(a[1..], key, k);
          assert ([b[0]] + WithKey(b[1..], key, k))[1..] == WithKey(b[1..], key, k);
          assert WithKey(a[1..], key, k) == WithKey(a, key, k)[1..];
        } else {
          assert WithKey(a, key, k) == [] + WithKey(a[1..], key, k);
          assert WithKey(b, key, k) == [] + WithKey(b[1..], key, k);
          assert WithKey(a[1..], key, k) == WithKey(a, key, k);
        }
      }
      SortedStableUnique(a[1..], b[1..], key);
      assert a == [a[0]] + a[1..] && b == [b[0]] + b[1..];
    } else {
      HeadKeyPresent(a, key);
      HeadKeyPresent(b, key);
    }
  }

  /** Hence a stable sort is the only sorted rearrangement that keeps equal
      keys in input order. */
  lemma SortCharacterised<T>(s: seq<T>, r: seq<T>, key: T -> int)
    requires SortedBy(r, key)
    requires forall k :: WithKey(r, key, k) == WithKey(s, key, k)
    ensures r == SortBy(s, key)
  {
    forall k ensures WithKey(r, key, k) == WithKey(SortBy(s, key), key, k) {
      SortStable(s, key, k);
    }
    SortedStableUnique(r, SortBy(s, key), key);
  }

  /** Sorting an already sorted sequence changes nothing; so sorting twice is
      sorting once. */
  lemma {:induction false} SortOfSorted<T>(s: seq<T>, key: T -> int)
    requires SortedBy(s, key)
    ensures SortBy(s, key) == s
    decreases |s|
  {
    if |s| > 0 {
      SortOfSorted(s[1..], key);
      assert SortBy(s, key) == Insert(s[0], s[1..], key);
      assert s == [s[0]] + s[1..];
    }
  }

  lemma SortIdempotent<T>(s: seq<T>, key: T -> int)
    ensures SortBy(SortBy(s, key), key) == SortBy(s, key)
  {
    SortOfSorted(SortBy(s, key), key);
  }

  /** Filtering a sorted sequence leaves it sorted. */
  lemma {:induction false} FilterSorted<T>(s: seq<T>, p: T -> bool, key: T -> int)
    requires SortedBy(s, key)
    ensures SortedBy(Filter(s, p), key)
    decreases |s|
  {
    if |s| > 0 {
      var rest := Filter(s[1..], p);
      FilterSorted(s[1..], p, key);
      HeadBelowRest(s, key);
      assert forall x | x in rest :: key(s[0]) <= key(x);
      assert Filter(s, p) == (if p(s[0]) then [s[0]] else []) + rest;
    }
  }

  /** In a sorted sequence the first key bounds every later one. */
  lemma HeadBelowRest<T>(s: seq<T>, key: T -> int)
    requires |s| > 0 && SortedBy(s, key)
    ensures forall x | x in s[1..] :: key(s[0]) <= key(x)
  {
    forall x | x in s[1..] ensures key(s[0]) <= key(x) {
      var j :| 0 <= j < |s[1..]| && s[1..][j] == x;
      assert s[j + 1] == x;
    }
  }
}

=== FILE: text.dfy ===
/** String helpers shared by the browser and the server rules: whitespace
    trimming for both languages, single-character split and join, ASCII case
    folding and decimal rendering of integers. */
module Text {

  /** The code points JavaScript's `String.prototype.trim` removes
      (ECMAScript WhiteSpace and LineTerminator). */
  predicate IsJsSpace(c: char) {
    || c == '\t' || c == '\n' || c == '\U{B}' || c == '\U{C}' || c == '\r' || c == ' '
    || c == '\U{A0}' || c == '\U{1680}' || ('\U{2000}' <= c <= '\U{200A}')
    || c == '\U{2028}' || c == '\U{2029}' || c == '\U{202F}' || c == '\U{205F}'
    || c == '\U{3000}' || c == '\U{FEFF}'
  }

  /** The code points Python's `str.strip()` removes (`str.isspace`). */
  predicate IsPySpace(c: char) {
    || c == '\t' || c == '\n' || c == '\U{B}' || c == '\U{C}' || c == '\r'
    || ('\U{1C}' <= c <= '\U{1F}') || c == ' ' || c == '\U{85}' || c == '\U{A0}'
    || c == '\U{1680}' || ('\U{2000}' <= c <= '\U{200A}')
    || c == '\U{2028}' || c == '\U{2029}' || c == '\U{202F}' || c == '\U{205F}'
    || c == '\U{3000}'
  }

  ghost predicate AllSpace(s: string, ws: char -> bool) {
    forall k | 0 <= k < |s| :: ws(s[k])
  }

  /** Neither end of `s` is a space. */
  predicate IsTrimmed(s: string, ws: char -> bool) {
    |s| == 0 || (!ws(s[0]) && !ws(s[|s| - 1]))
  }

  function TrimStart(s: string, ws: char -> bool): (r: string)
    ensures |r| <= |s| && r == s[|s| - |r|..]
    ensures AllSpace(s[..|s| - |r|], ws)
    ensures |r| > 0 ==> !ws(r[0])
    decreases |s|
  {
    if |s| > 0 && ws(s[0]) then TrimStart(s[1..], ws) else s
  }

  function TrimEnd(s: string, ws: char -> bool): (r: string)
    ensures |r| <= |s| && r == s[..|r|]
    ensures AllSpace(s[|r|..], ws)
    ensures |r| > 0 ==> !ws(r[|r| - 1])
    decreases |s|
  {
    if |s| > 0 && ws(s[|s| - 1]) then TrimEnd(s[..|s| - 1], ws) else s
  }

  /** `r` is the slice of `s` starting at `a` with only spaces on either
      side of it, and it starts and ends with a non-space. */
  ghost predicate TrimmedSliceAt(s: string, r: string, a: int, ws: char -> bool) {
    && 0 <= a && a + |r| <= |s| && r == s[a..a + |r|]
    && AllSpace(s[..a], ws) && AllSpace(s[a + |r|..], ws)
    && IsTrimmed(r, ws)
  }

  /** Both-ends trim: the result is the slice of `s` left after dropping the
      leading and trailing spaces, and it starts and ends with a non-space. */
  function Trim(s: string, ws: char -> bool): (r: string)
    ensures TrimmedSliceAt(s, r, |s| - |TrimStart(s, ws)|, ws)
  {
    var t := TrimStart(s, ws);
    var r := TrimEnd(t, ws);
    TrimSlices(s, t, r, ws);
    r
  }

  lemma TrimSlices(s: string, t: string, r: string, ws: char -> bool)
    requires |t| <= |s| && t == s[|s| - |t|..] && AllSpace(s[..|s| - |t|], ws)
    requires |r| <= |t| && r == t[..|r|]
    requires |r| > 0 ==> !ws(r[|r| - 1])
    requires |t| > 0 ==> !ws(t[0])
    requires AllSpace(t[|r|..], ws)
    ensures TrimmedSliceAt(s, r, |s| - |t|, ws)
  {
    var a := |s| - |t|;
    assert s[a + |r|..] == t[|r|..];
    if |r| > 0 {
      assert r[0] == t[0];
    }
  }

  /** `s.trim()` in JavaScript. */
  function JsTrim(s: string): (r: string)
    ensures IsTrimmed(r, IsJsSpace)
  {
    Trim(s, IsJsSpace)
  }

  /** `s.strip()` in Python. */
  function PyStrip(s: string): (r: string)
    ensures IsTrimmed(r, IsPySpace)
  {
    Trim(s, IsPySpace)
  }

  /** A string with no space at either end is its own trim, so trimming is
      idempotent. */
  lemma {:induction false} TrimOfTrimmed(s: string, ws: char -> bool)
    requires IsTrimmed(s, ws)
    ensures Trim(s, ws) == s
  {
    assert TrimStart(s, ws) == s;
    assert TrimEnd(s, ws) == s;
  }

  lemma TrimIdempotent(s: string, ws: char -> bool)
    ensures Trim(Trim(s, ws), ws) == Trim(s, ws)
  {
    TrimOfTrimmed(Trim(s, ws), ws);
  }

  /** Trimming only removes characters: one absent from `s` stays absent. */
  lemma TrimKeepsOut(s: string, ws: char -> bool, c: char)
    requires c !in s
    ensures c !in Trim(s, ws)
  {
    var a := |s| - |TrimStart(s, ws)|;
    var r := Trim(s, ws);
    forall k | 0 <= k < |r| ensures r[k] != c {
      assert r[k] == s[a + k];
    }
  }

  /** Trimming yields the empty string exactly when `s` is all spaces. */
  lemma {:induction false} TrimEmptyIff(s: string, ws: char -> bool)
    ensures Trim(s, ws) == [] <==> AllSpace(s, ws)
  {
    var t := TrimStart(s, ws);
    if !AllSpace(s, ws) {
      var k :| 0 <= k < |s| && !ws(s[k]);
      assert t[k - (|s| - |t|)] == s[k];
    }
  }

  /** `s.split(c)` for a one-character separator, which JavaScript and Python
      agree on: always at least one piece, and the empty string gives `[""]`. */
  function Split(s: string, c: char): (r: seq<string>)
    ensures |r| >= 1
    ensures forall i | 0 <= i < |r| :: c !in r[i]
    decreases |s|
  {
    if |s| == 0 then [""]
    else
      var rest := Split(s[1..], c);
      if s[0] == c then [""] + rest
      else [[s[0]] + rest[0]] + rest[1..]
  }

  /** `pieces.join(c)`. */
  function Join(pieces: seq<string>, c: char): string
    decreases |pieces|
  {
    if |pieces| == 0 then ""
    else if |pieces| == 1 then pieces[0]
    else pieces[0] + [c] + Join(pieces[1..], c)
  }

  /** Joining the pieces with the separator gives back the original string. */
  lemma {:induction false} JoinSplit(s: string, c: char)
    ensures Join(Split(s, c), c) == s
    decreases |s|
  {
    if |s| > 0 {
      var rest := Split(s[1..], c);
      JoinSplit(s[1..], c);
      if s[0] == c {
        assert Split(s, c) == [""] + rest;
        assert ([""] + rest)[1..] == rest;
      } else {
        var pieces := [[s[0]] + rest[0]] + rest[1..];
        assert Split(s, c) == pieces;
        if |rest| == 1 {
          assert Join(pieces, c) == [s[0]] + rest[0];
        } else {
          assert pieces[1..] == rest[1..];
          assert Join(rest, c) == rest[0] + [c] + Join(rest[1..], c);
        }
      }
      assert s == [s[0]] + s[1..];
    }
  }

  /** Splitting pieces that do not contain the separator after joining them
      gives the pieces back. */
  lemma {:induction false} SplitJoin(pieces: seq<string>, c: char)
    requires |pieces| > 0
    requires forall i | 0 <= i < |pieces| :: c !in pieces[i]
    ensures Split(Join(pieces, c), c) == pieces
    decreases |pieces|
  {
    if |pieces| == 1 {
      SplitFree(pieces[0], c);
    } else {
      SplitJoin(pieces[1..], c);
      SplitCons(pieces[0], c, Join(pieces[1..], c));
      assert [pieces[0]] + pieces[1..] == pieces;
    }
  }

  /** A string without the separator is a single piece. */
  lemma {:induction false} SplitFree(s: string, c: char)
    requires c !in s
    ensures Split(s, c) == [s]
    decreases |s|
  {
    if |s| > 0 {
      SplitFree(s[1..], c);
      assert [s[0]] + s[1..] == s;
    }
  }

  /** A separator-free head followed by the separator splits off as the
      first piece. */
  lemma {:induction false} SplitCons(a: string, c: char, t: string)
    requires c !in a
    ensures Split(a + [c] + t, c) == [a] + Split(t, c)
    decreases |a|
  {
    var s := a + [c] + t;
    if |a| == 0 {
      assert s[0] == c && s[1..] == t;
    } else {
      SplitCons(a[1..], c, t);
      assert s[0] == a[0] && s[1..] == a[1..] + [c] + t;
      var rest := Split(s[1..], c);
      assert rest[0] == a[1..];
      assert [a[0]] + a[1..] == a;
      assert rest[1..] == Split(t, c);
    }
  }

  function LowerAscii(c: char): (d: char)
    ensures 'A' <= c <= 'Z' ==> d as int == c as int + 32
    ensures !('A' <= c <= 'Z') ==> d == c
  {
    if 'A' <= c <= 'Z' then (c as int + 32) as char else c
  }

  /** ASCII case folding of a whole string. */
  function FoldCase(s: string): (r: string)
    ensures |r| == |s|
    decreases |s|
  {
    if |s| == 0 then "" else [LowerAscii(s[0])] + FoldCase(s[1..])
  }

  /** Folding works character by character. */
  lemma {:induction false} FoldCaseAt(s: string, i: nat)
    requires i < |s|
    ensures FoldCase(s)[i] == LowerAscii(s[i])
    decreases |s|
  {
    if i > 0 {
      FoldCaseAt(s[1..], i - 1);
    }
  }

  /** Case-insensitive equality, as a database `iexact` lookup compares names. */
  predicate EqualsIgnoreCase(a: string, b: string) {
    FoldCase(a) == FoldCase(b)
  }

  function DigitChar(d: nat): (c: char)
    requires d < 10
    ensures c as int == '0' as int + d
  {
    ('0' as int + d) as char
  }

  /** Decimal digits of `n`, most significant first, without leading zeros. */
  function NatToString(n: nat): (r: string)
    ensures |r| >= 1
    ensures forall i | 0 <= i < |r| :: '0' <= r[i] <= '9'
    decreases n
  {
    (if n < 10 then "" else NatToString(n / 10)) + [DigitChar(n % 10)]
  }

  /** JavaScript `String(n)` for an integer-valued number. */
  function IntToString(n: int): string {
    if n < 0 then "-" + NatToString(-n) else NatToString(n)
  }

  /** Value of a string of decimal digits. */
  function DigitsValue(s: string): nat
    requires forall i | 0 <= i < |s| :: '0' <= s[i] <= '9'
    decreases |s|
  {
    if |s| == 0 then 0
    else DigitsValue(s[..|s| - 1]) * 10 + (s[|s| - 1] as int - '0' as int)
  }

  /** Decimal rendering round-trips through its value. */
  lemma DigitsValueSnoc(p: string, c: char)
    requires forall i | 0 <= i < |p| :: '0' <= p[i] <= '9'
    requires '0' <= c <= '9'
    ensures DigitsValue(p + [c]) == DigitsValue(p) * 10 + (c as int - '0' as int)
  {
    assert (p + [c])[..|p|] == p;
  }

  lemma {:induction false} NatToStringRoundTrip(n: nat)
    ensures DigitsValue(NatToString(n)) == n
    decreases n
  {
    var q, d := n / 10, n % 10;
    var p := if n < 10 then "" else NatToString(q);
    var c := DigitChar(d);
    assert NatToString(n) == p + [c];
    if n >= 10 {
      NatToStringRoundTrip(q);
    }
    DigitsValueSnoc(p, c);
    var v := DigitsValue(p);
    assert v == q;
    assert c as int - '0' as int == d;
    assert DigitsValue(p + [c]) == v * 10 + d;
    assert v * 10 + d == n;
  }

  /** Two integers render to the same string only if they are equal, so
      comparing `String(id)` with a route parameter is comparing ids. */
  lemma IntToStringInjective(a: int, b: int)
    requires IntToString(a) == IntToString(b)
    ensures a == b
  {
    SignOfRendering(a);
    SignOfRendering(b);
    var s := IntToString(a);
    if a < 0 {
      assert b < 0;
      assert NatToString(-a) == s[1..] == NatToString(-b);
      NatToStringInjective(-a, -b);
    } else {
      assert b >= 0;
      NatToStringInjective(a, b);
    }
  }

  lemma NatToStringInjective(m: nat, n: nat)
    requires NatToString(m) == NatToString(n)
    ensures m == n
  {
    NatToStringRoundTrip(m);
    NatToStringRoundTrip(n);
  }

  /** The rendering starts with '-' exactly for negative numbers. */
  lemma SignOfRendering(n: int)
    ensures IntToString(n)[0] == '-' <==> n < 0
  {
    if n >= 0 {
      assert '0' <= NatToString(n)[0] <= '9';
    }
  }
}
